=== FILE: README.md ===
# trade_signal core, modelled in Dafny

This project models the decision and accounting core of `trade_signal`, a crypto trading-signal
tool and backtester. It covers:

- **Pattern predicates** (`Patterns`): the breakout above, and the breakdown below, a trailing
  reference window that excludes the last close, with a relative epsilon of `1e-6`; and the
  three-candle pullback to the short SMA followed by a bounce or a rejection.
- **Indicators**:
  - `Sma`: the trailing simple moving average and the current/previous SMA pair, for a
    configurable pair of windows and for the older fixed 20/50 pair.
  - `Volatility`: the close-to-close ATR and ATR as a fraction of the last price, and the ATR
    filter whose floor is a percentile of the historical ATR% values (`Sorting` is the ascending
    sort it uses).
  - `Regimes`: the TrendingUp / TrendingDown / Sideways classifier.
- **Decision engine** (`Signals`, `Common`): the eight-rule priority cascade that yields one of
  five suggestion strings, and the mapping of those strings to trade signals.
- **Position replay** (`PositionBacktest`): at most one long or short position, flipped on an
  opposite signal and force-closed at the end.
- **Spot replay** (`SpotBacktest`): fractional buys and sells with a fee in basis points and a
  proportional cost basis, never force-closed.
- **Metrics** (`Common`): maximum drawdown and win rate.
- **Sweep** (`Sweep`): the fraction grid and the best-so-far reduction of the parameter sweep.
- **Resampling** (`Data`): keeps the latest observation of every fixed-length time bucket.

Prices and equities are `real`, so IEEE rounding, NaN and infinity are not modelled. Timestamps
are `int` seconds. Every fallible operation returns an `Option` or a `Result` from `Wrappers`.

Each replay engine is a fold over the samples. Its state is an immutable record:

- position replay: cash, the open position, the closed positions and the equity curve;
- spot replay: cash, coin, cost basis, average entry, trades and the equity curve.

The replays take the trading decision for each sample as an input stream of `Option<Signal>`.
`Common.EngineSignals` links that stream to the engine: a `Buy` can only come from a BUY
suggestion made in an uptrend, a `Sell` only from a SELL made in a downtrend.

Facts that differ from a first reading of the code:

- **The engine's pattern calls.** `src/signal.rs:3-6` imports two-argument
  `is_pullback_to_sma20_*` predicates, which do not exist in `src/patterns.rs`. The engine here
  calls the `src/patterns.rs` predicates and passes the two tolerances as parameters. The
  breakout lookback is the constant 5 of `src/signal.rs:8`.
- **The replays' `analyze` call.** Both replays call a four-argument `analyze`, whose source is not part
  of this model. This is why they take the signal stream described above. A sample where
  `compute_smas` fails carries no signal.
- **Sweep reduction order.** The sweep reduction is a sequential fold, and its comparator is not
  transitive. It is therefore neither associative nor commutative. `Sweep.SelectionDependsOnOrder` exhibits three results where the
  answer depends on the order of the jobs.
- **Position total return with zero initial cash.** The code divides by zero, giving NaN or
  infinity; the model returns `None`.
- **Breakout with lookback 0.** The window is empty, so any last price breaks out (the source
  folds from negative infinity). Breakdown mirrors this.
- **Short losses.** A short whose price runs away loses more than its collateral, and the
  position replay's cash then goes negative (`PositionBacktest.ShortLossCanMakeCashNegative`).
  The code puts no floor on cash.
- **Two boundary tests disagree with the code.** The pullback tolerance tests at
  `src/patterns.rs:274-290` and `src/patterns.rs:519-535` compute their threshold with 0.003 but
  pass 0.0003, so they cannot pass against the code as written. The model follows the code:
  `tol` is an inclusive bound.

## Model

| member | source | states |
|---|---|---|
| Patterns.ReferenceWindow | src/patterns.rs:60-63 | the reference window is exactly the `lookback` closes before the last one; the last close is never in it |
| Patterns.IsBreakoutAboveRecentHigh | src/patterns.rs:55-72 | false unless there are `lookback + 1` closes; otherwise true exactly when the last close exceeds every window close times `1 + 1e-6` |
| Patterns.IsBreakdownBelowRecentLow | src/patterns.rs:6-23 | false unless there are `lookback + 1` closes; otherwise true exactly when the last close is below every window close times `1 - 1e-6` |
| Patterns.IsPullbackToSmaShortAndBounce | src/patterns.rs:81-96 | true exactly when there are three closes with `p2 > sma`, `p1 < p2`, `p1 <= sma*(1+tol)`, `p0 > sma` and `p0 > p1`, for the last three closes `p2, p1, p0` |
| Patterns.IsPullbackToSmaShortAndRejectDown | src/patterns.rs:33-48 | true exactly when there are three closes with `p2 < sma`, `p1 > p2`, `p1 >= sma*(1-tol)`, `p0 < sma` and `p0 < p1`, for the last three closes `p2, p1, p0` |
| Patterns.BreakoutIgnoresOlderPrices | src/patterns.rs:387-406 | closes older than the reference window change neither a breakout nor a breakdown |
| Patterns.TieIsNeitherBreakoutNorBreakdown | src/patterns.rs:344-355 | a last close equal to a window close is neither a breakout nor a breakdown (for a non-negative last close) |
| Patterns.PullbackUsesOnlyLastThree | src/patterns.rs:86-89 | only the last three closes decide a bounce or a rejection |
| Patterns.BounceToleranceInclusive | src/patterns.rs:91-95 | given the other four shape conditions, the closes bounce exactly when the dip is at most `sma*(1+tol)`, so a dip exactly to the bound still counts |
| Patterns.RejectToleranceInclusive | src/patterns.rs:43-47 | given the other four shape conditions, the closes reject exactly when the rise is at least `sma*(1-tol)`, so a rise exactly to the bound still counts |
| Patterns.BounceAndRejectExclusive | src/patterns.rs:43-47 | a bounce and a rejection never both hold for the same closes and SMA, whatever the tolerances |
| Patterns.WindowScenarios | src/patterns.rs:146-187 | the unit-test cases: older extremes are ignored, the last close is excluded, a tie is no signal, too short a history is false |
| Sma.SimpleMovingAverage | src/indicators/sma.rs:26-35 | undefined exactly when there are fewer closes than the window; otherwise the value times the window is the sum of the trailing window |
| Sma.SmaWithinWindowRange | src/indicators/sma.rs:31-34 | a defined SMA lies between the smallest and largest close of its window |
| Sma.SmaWindowOneIsLast | src/indicators/sma.rs:95-99 | with a window of one the SMA is the last close |
| Sma.SmaOfFlatWindow | src/indicators/sma.rs:31-34 | the SMA of a flat window is the flat price |
| Sma.SmaIgnoresOlderPrices | src/indicators/sma.rs:31-34 | closes older than the window do not change the SMA |
| Sma.ComputeSmas | src/indicators/sma.rs:39-56 | defined exactly when there are more closes than both windows |
| Sma.ComputeSmasDefinedIff | src/indicators/sma.rs:108-111 | when the short window is not longer than the long one, defined exactly when there are `long + 1` closes |
| Sma.PrevSmasAreOneSampleEarlier | src/indicators/sma.rs:44-49 | the current SMAs are the trailing SMAs of all the closes; the previous ones are the same SMAs without the last close |
| Sma.ComputeSmas2050 | src/indicators.rs:24-42 | the fixed 20/50 pair is undefined exactly for fewer than 51 closes; its values are the trailing means of 20 and 50 closes |
| Sma.SmaOfOneTo | src/indicators.rs:187-205 | the SMA over the closes `1..n` is the midpoint of the trailing window |
| Sma.ComputeSmas2050OnOneToFiftyOne | src/indicators.rs:187-205 | on the closes `1..=51` the four averages are 41.5, 26.5, 40.5 and 25.5 |
| Volatility.TrueRanges | src/indicators/atr.rs:69-74 | one non-negative close-to-close change per interval |
| Volatility.TrueRangesAreChanges | src/indicators/atr.rs:69-74 | entry `i` of the true ranges is the absolute change from close `i` to close `i + 1` |
| Volatility.Atr | src/indicators/atr.rs:59-77 | undefined exactly when the period is zero or there are fewer than `period + 1` closes |
| Volatility.AtrNonNegative | src/indicators/atr.rs:76 | a defined ATR is never negative |
| Volatility.RecentChangeSumIsTrailingSum | src/indicators/atr.rs:69-74 | accumulating the changes newest first gives the sum of the trailing true-range window |
| Volatility.SumRecentTrueRanges | src/indicators/atr.rs:69-74 | the source's backwards accumulation loop computes the sum of the last `period` true ranges |
| Volatility.ComputeAtr | src/indicators/atr.rs:59-77 | the guard plus the loop's sum divided by the period compute the ATR |
| Volatility.AtrIsMeanOfTrueRanges | src/indicators.rs:102-120 | the ATR is the mean of the last `period` true ranges |
| Volatility.AtrOfChanges | src/indicators/atr.rs:108-123 | the ATR is the mean of the last `period` absolute changes, listed oldest first |
| Volatility.AtrOfFlatSeries | src/indicators/atr.rs:99-105 | a flat series has an ATR of zero |
| Volatility.AtrPercent | src/indicators/atr.rs:80-87 | undefined exactly when the ATR is undefined or the last close is not positive |
| Volatility.AtrPercentNonNegative | src/indicators.rs:123-130 | a defined ATR% is never negative |
| Volatility.AtrPercentTimesPrice | src/indicators/atr.rs:80-87 | the ATR% times the last close is the ATR |
| Volatility.NewFixed | src/indicators/atr.rs:9-11 | a fixed filter keeps the given period and floor |
| Volatility.CollectAtrPercents | src/indicators/atr.rs:19-25 | at most one value per window end from `period + 1` to the end, and none when that range is empty; with `CollectedComesFromWindow` and `WindowIsCollected`, the values are exactly the defined ATR% of those windows |
| Volatility.CollectedComesFromWindow | src/indicators/atr.rs:21-25 | every collected value is the ATR% of some window end from `period + 1` to `len` |
| Volatility.WindowIsCollected | src/indicators/atr.rs:21-25 | every window end with a defined ATR% contributes its value |
| Volatility.CollectedNonNegative | src/indicators/atr.rs:21-25 | collected ATR% values are never negative |
| Volatility.PercentileIndex | src/indicators/atr.rs:33-34 | the index is `(n-1)*clamp(p,0,1)` rounded half up: within `(x - 1/2, x + 1/2]` of it, in `[0, n-1]`, 0 for `p <= 0` and `n - 1` for `p >= 1` |
| Volatility.PercentileIndexMonotone | src/indicators/atr.rs:33-34 | a larger percentile never selects a smaller index |
| Volatility.PercentileOf | src/indicators/atr.rs:31-38 | the value is the element of the ascending order of the collected values at the rounded percentile index: one of the values, the smallest for `p <= 0` and the largest for `p >= 1` |
| Volatility.PercentileOfMonotone | src/indicators/atr.rs:31-36 | a larger percentile never selects a smaller value of the sorted list |
| Volatility.FromHistory | src/indicators/atr.rs:14-40 | none for fewer than `period + 2` closes or no defined ATR%; otherwise the period is kept and the floor is the ascending ATR% list's element at `round((n-1)*clamp(p,0,1))`, a non-negative collected value, the minimum for `p <= 0` and the maximum for `p >= 1` |
| Volatility.FromHistoryPeriodZero | src/indicators/atr.rs:27-29 | with a zero period nothing is collected, so there is no calibrated filter |
| Volatility.FromHistoryMonotoneInPercentile | src/indicators.rs:74-82 | a higher percentile never gives a lower floor |
| Volatility.FromHistoryScenario | src/indicators/atr.rs:136-177 | on `10, 11, 13, 16, 15` with period 2 the floors for percentiles below 0, 0, 0.5, 1 and above 1 are the lowest, middle and highest ATR% |
| Volatility.AtrThreeScenario | src/indicators/atr.rs:108-123 | changes 1, 2 and 3 give an ATR of 2 |
| Sorting.SortCorrect | src/indicators/atr.rs:31 | the sort used for the percentile list is ascending and a permutation of its input |
| Sorting.SortedEnds | src/indicators/atr.rs:31 | every value lies between the first and last element of the sorted list |
| Regimes.DefaultRegimeFilter | src/indicators/regime.rs:30-39 | the default filter: long window 200, slope window 48, minimum trend strength 0.02 and minimum range 0.03 |
| Regimes.SlopeWindow | src/indicators/regime.rs:80-84 | the slope window is the last `slope + 1` closes, from the start price to the end price |
| Regimes.Trend | src/indicators/regime.rs:77 | the fractional move: one plus it, times the start price, is the end price; so it is positive exactly when the end price exceeds the start price and negative exactly when it is below |
| Regimes.RangeOverSma | src/indicators/regime.rs:85-91 | the high/low spread of the window as a fraction of the long SMA: it times the SMA is the window's maximum less its minimum, and it is never negative |
| Regimes.Measure | src/indicators/regime.rs:55-91 | defined only with enough history, a positive long SMA and a positive start price; then it holds that SMA, the slope window's ends, the `Trend` between them and the `RangeOverSma` of the slope window, the quantities compared with the two thresholds |
| Regimes.DetectRegime | src/indicators/regime.rs:54-106 | too little history is Sideways; TrendingUp needs enough history, a positive start price below the last close, and the last close above the long SMA; TrendingDown mirrors it |
| Regimes.WeakOrNarrowIsSideways | src/indicators/regime.rs:93-96 | a move weaker than the minimum strength, or a range narrower than the minimum, is Sideways |
| Regimes.NonPositiveAnchorIsSideways | src/indicators/regime.rs:62-74 | a non-positive long SMA or slope start price is Sideways |
| Regimes.DirectionConflictIsSideways | src/indicators/regime.rs:98-105 | a move and a close pointing opposite ways relative to the SMA is Sideways |
| Regimes.AgreeingDirectionIsTrend | src/indicators/regime.rs:98-103 | past the guards and thresholds, a rise with the close above the SMA is TrendingUp and a fall below it TrendingDown |
| Regimes.RegimeIgnoresOlderPrices | src/indicators/regime.rs:55-70 | only the last `max(long, slope) + 1` closes decide the regime |
| Regimes.SidewaysScenarios | src/indicators/regime.rs:125-164 | too little history, a zero long SMA and a zero slope start price are all Sideways |
| Regimes.DirectionConflictScenario | src/indicators/regime.rs:258-276 | a close that falls back under the long SMA after a rising move is Sideways |
| Regimes.UptrendScenario | src/indicators/regime.rs:181-200 | a steady climb from 100 to 120 trends up |
| Regimes.DowntrendScenario | src/indicators/regime.rs:203-220 | a steady fall from 100 to 80 trends down |
| Signals.SuggestionsDistinct | src/signal.rs:58-133 | the five suggestion strings are pairwise different |
| Signals.RuleSuggestion | src/signal.rs:58-127 | breakout, bounce and golden cross say BUY; breakdown, reject and death cross say SELL; no rule says plain HOLD |
| Signals.SuggestAction | src/signal.rs:38-134 | the suggestion is one of the five strings; BUY needs an uptrend, SELL a downtrend; each bias needs the SMA order and the close on that side of both SMAs |
| Signals.SuggestActionIsFirstMatch | src/signal.rs:58-133 | the cascade is the outcome of the first rule, in priority order, whose guard holds, and HOLD when none does |
| Signals.FirstMatchPicksEarliest | src/signal.rs:58-133 | a rule whose guard holds decides the result when no earlier guard holds |
| Signals.FirstMatchNoEdgeIffNoGuard | src/signal.rs:130-133 | plain HOLD comes exactly when no guard holds |
| Signals.Uptrend | src/signal.rs:48 | short SMA above the long one and the long one not falling; by `FlagsExclusive` it never holds together with `Downtrend` |
| Signals.Downtrend | src/signal.rs:49 | short SMA below the long one and the long one not rising; never together with `Uptrend` |
| Signals.PriceAboveBoth | src/signal.rs:52 | the last close strictly above both averages; never together with `PriceBelowBoth` |
| Signals.PriceBelowBoth | src/signal.rs:53 | the last close strictly below both averages; never together with `PriceAboveBoth` |
| Signals.GoldenCross | src/signal.rs:94 | the short average was at or below the long one one sample earlier and is above it now; never together with `DeathCross` |
| Signals.DeathCross | src/signal.rs:103 | the short average was at or above the long one one sample earlier and is below it now; never together with `GoldenCross` |
| Signals.FlagsExclusive | src/signal.rs:48-53 | uptrend and downtrend, price above and below both, golden and death cross never hold together |
| Signals.ConfirmedRulesNeedPriceConfirmation | src/signal.rs:58-109 | breakout and golden-cross BUYs need the close above both SMAs, breakdown and death-cross SELLs below both; crosses need the crossing |
| Signals.NoTrendNoTrade | src/signal.rs:48-51 | with equal short and long SMAs there is neither trend, and the engine says plain HOLD |
| Signals.BreakdownScenario | src/signal.rs:58-63 | a fall through the recent low in a downtrend is a breakdown SELL |
| Signals.BreakoutScenario | src/signal.rs:76-81 | a rise through the recent high in an uptrend is a breakout BUY |
| Common.SuggestionToSignal | src/backtest/common.rs:11-17 | "BUY" and only "BUY" becomes Buy; "SELL" and only "SELL" becomes Sell |
| Common.EngineSignals | src/backtest/common.rs:11-17 | through the engine, a Buy implies an uptrend and a Sell a downtrend, and no signal means one of the three hold strings |
| Common.BacktestRegimeFilter | src/backtest/common.rs:19-23 | the backtests use the default regime filter |
| Common.BacktestAtrFilter | src/backtest/common.rs:25-29 | the backtest ATR filter has period 5 and floor 0.003 |
| Common.Equities | src/backtest/common.rs:36-38 | the equity values of a curve, point by point |
| Common.Peak | src/backtest/common.rs:40-44 | the running peak is at least every value seen so far |
| Common.PeakAttained | src/backtest/common.rs:40-44 | the running peak is one of the values seen so far |
| Common.DrawdownAt | src/backtest/common.rs:43-48 | for a positive running peak the drawdown times the peak is the fall from the peak; for a non-positive peak it is 0; it is never negative |
| Common.MaxDrawdown | src/backtest/common.rs:31-52 | the maximum drawdown is never negative and is 0 for an empty curve; `MaxDrawdownIsMaximum` shows it is the largest per-point drawdown |
| Common.MaxDrawdownIsMaximum | src/backtest/common.rs:31-52 | the maximum drawdown is at least every per-point drawdown, and is 0 or the drawdown at some point |
| Common.ComputeMaxDrawdown | src/backtest/common.rs:31-52 | the loop returns 0 for an empty curve and otherwise the largest drawdown from a positive running peak |
| Common.DrawdownAtMostOne | src/backtest/common.rs:43-48 | for a non-negative curve the drawdown is at most 1 |
| Common.NonDecreasingHasNoDrawdown | src/backtest/common.rs:40-48 | a curve that never falls has no drawdown |
| Common.DrawdownGrowsWithCurve | src/backtest/common.rs:36-51 | extending the curve never lowers the maximum drawdown |
| Common.WinRate | src/backtest/spot.rs:33-41 | the win rate lies in `[0, 1]` and is 0 with no trades |
| Common.WinsCountsWinners | src/backtest/position.rs:257-268 | the win count is the number of entries with strictly positive profit |
| Common.WinRateTimesCount | src/backtest/spot.rs:33-41 | the win rate times the number of entries is the number of winners |
| Common.WinRateExtremes | src/backtest/position.rs:257-268 | no winner gives 0; only winners give 1 |
| Common.DrawdownScenario | src/backtest/position.rs:234-255 | the curve 100, 120, 90, 150, 60 has a drawdown of 0.6, and an empty curve 0 |
| PositionBacktest.SideOf | src/backtest/position.rs:44-51 | a Buy and only a Buy opens a long; a Sell and only a Sell opens a short |
| PositionBacktest.LiquidationValue | src/backtest/position.rs:161-173 | zero for a non-positive price or size; a long is worth its size at the price |
| PositionBacktest.LiquidationAtEntry | src/backtest/position.rs:161-173 | a funded position is worth exactly its collateral at the entry price, long or short |
| PositionBacktest.ClosePosition | src/backtest/position.rs:175-196 | closing keeps the position's fields, records the exit, and records a return of 0 for non-positive collateral |
| PositionBacktest.ClosedProfit | src/backtest/position.rs:179-182 | the profit is `(exit - entry) * size` for a long and `(entry - exit) * size` for a short; it is positive exactly when the price moved the position's way |
| PositionBacktest.ClosedReturn | src/backtest/position.rs:185-189 | the return is the profit per unit of positive collateral |
| PositionBacktest.CloseCreditsLiquidationValue | src/backtest/position.rs:116-121 | closing at a positive price credits exactly the value the equity curve marked the position at |
| PositionBacktest.OpenPosition | src/backtest/position.rs:198-232 | no position for a non-positive price, cash or fraction; otherwise a funded position on the wanted side whose collateral leaves the cash |
| PositionBacktest.OpenedSizing | src/backtest/position.rs:219-231 | the collateral is `cash * frac`, the size buys it at the entry price, and a fraction of at most one leaves no debt |
| Common.TradableIffSmas | src/backtest/position.rs:98-105 | the warm-up test and the SMA guard pass exactly when the sample is tradable |
| PositionBacktest.SameSideIsNoOp | src/backtest/position.rs:113-114 | a signal for the side already held changes nothing |
| PositionBacktest.OppositeSignalFlips | src/backtest/position.rs:116-127 | any other signal closes the held position at the signal's price, then holds the wanted side exactly when it could be opened |
| PositionBacktest.CloseOpen | src/backtest/position.rs:115-121 | afterwards no position is open and the equity curve is unchanged; `CloseCreditsLiquidationValue` shows the cash gained is the position's liquidation value |
| PositionBacktest.ApplySignal | src/backtest/position.rs:110-129 | acting on a signal never touches the equity curve; `SameSideIsNoOp` and `OppositeSignalFlips` give its two branches |
| PositionBacktest.Step | src/backtest/position.rs:87-133 | each sample appends exactly one equity point, stamped with its time and marked at its price before any trade |
| PositionBacktest.Replay | src/backtest/position.rs:87-134 | after `n` samples the curve has `n` points; `ReplayAccounted` and `ReplayCurve` give its invariants |
| PositionBacktest.ReplayAccounted | src/backtest/position.rs:87-134 | every replay state conserves cash: cash plus open collateral is the initial cash plus the closed profits |
| PositionBacktest.ReplayCurve | src/backtest/position.rs:91-96 | one equity point per sample, stamped with its time and worth cash plus the open position's liquidation value at its price |
| PositionBacktest.Finish | src/backtest/position.rs:136-142 | after the forced close no position is open, cash is conserved and there is one point per sample |
| PositionBacktest.RunBacktest | src/backtest/position.rs:67-159 | an error exactly for fewer than `long + 1` samples; otherwise the final equity is the initial cash plus all closed profits, every position is closed, and the return, drawdown and win rate are those of the result's own curve and positions |
| PositionBacktest.TotalReturn | src/backtest/position.rs:144 | undefined exactly for zero initial equity |
| PositionBacktest.TotalReturnGrowth | src/backtest/position.rs:144 | one plus the return, times the initial equity, is the final equity |
| PositionBacktest.BuyAndHoldEquity | src/backtest/position.rs:270-282 | undefined for no samples or a non-positive first price; otherwise it grows the cash by the ratio of last to first price |
| PositionBacktest.LongRoundTripScenario | src/backtest/position.rs:67-159 | half of 10 000 bought at 100 and force-closed at 110 earns 500, a 5% return and a win rate of 1 |
| PositionBacktest.ShortLossCanMakeCashNegative | src/backtest/position.rs:116-121 | a short fully funded at 100 and closed at 300 leaves cash of -100 |
| SpotBacktest.FeeMult | src/backtest/spot.rs:116-117 | the fee multiplier is non-negative exactly for a fee of at most 100%, at most one exactly for a non-negative fee, and one exactly for no fee |
| SpotBacktest.FirstPrice | src/backtest/spot.rs:98 | the first price floored at zero |
| SpotBacktest.Start | src/backtest/spot.rs:106-114 | the run starts with the initial cash and coin, no trades, and in a position exactly when coin is held |
| SpotBacktest.BuyFillsExactly | src/backtest/spot.rs:143-158 | a Buy goes through exactly when the fraction, cash, price and fee multiplier are positive |
| SpotBacktest.ApplyBuy | src/backtest/spot.rs:142-177 | a Buy that does not go through changes nothing; none records a trade |
| SpotBacktest.BuyEffect | src/backtest/spot.rs:161-176 | a filled Buy spends `cash * frac` and adds coin worth, at the buy price, the amount net of the fee, which is what the basis grows by |
| SpotBacktest.SellFillsExactly | src/backtest/spot.rs:179-187 | a Sell goes through exactly when the fraction, coin and price are positive |
| SpotBacktest.ApplySell | src/backtest/spot.rs:178-232 | a Sell that does not go through changes nothing; one that does appends exactly its trade |
| SpotBacktest.SellEffect | src/backtest/spot.rs:189-231 | a filled Sell sells `coin * frac`, credits the proceeds after the fee and releases the basis share `frac`, which becomes the trade's entry value |
| SpotBacktest.SoldTrade | src/backtest/spot.rs:209-225 | the trade's profit is its exit value less its entry value; the return is 0 for a non-positive entry value |
| SpotBacktest.SoldTradeReturn | src/backtest/spot.rs:209-225 | the trade's return is its profit per unit of positive entry value |
| SpotBacktest.BuyKeepsHolding | src/backtest/spot.rs:167-176 | a Buy keeps coin and basis non-negative, a position open exactly when coin is held, and the average entry at basis over coin |
| SpotBacktest.BuyKeepsLedger | src/backtest/spot.rs:161-169 | a Buy of at most all the cash leaves cash non-negative and loses capital only to the fee |
| SpotBacktest.SellKeepsHolding | src/backtest/spot.rs:193-231 | a Sell keeps the holding invariants; selling everything resets the basis and leaves the position |
| SpotBacktest.SellKeepsLedger | src/backtest/spot.rs:193-225 | a Sell keeps capital unchanged, booking the proceeds less the released basis as the trade's profit |
| SpotBacktest.Act | src/backtest/spot.rs:141-236 | acting on a signal never touches the equity curve; a Buy is `ApplyBuy` and a Sell `ApplySell` |
| SpotBacktest.Step | src/backtest/spot.rs:121-236 | each sample appends exactly one equity point, worth cash plus coin at its price, before any trade |
| SpotBacktest.Replay | src/backtest/spot.rs:121-237 | after `n` samples the curve has `n` points; `ReplayKeepsSound` and `ReplayConservesBasis` give its invariants |
| SpotBacktest.ReplayKeepsSound | src/backtest/spot.rs:121-237 | every replayed account keeps the holding invariants and non-negative cash; its capital (cash plus basis less realised profit) equals the initial equity without a fee and never exceeds it with one |
| SpotBacktest.SellConservesBasis | src/backtest/spot.rs:192-231 | a Sell moves exactly the basis it releases into the new trade's entry value, also when selling out zeroes the rest |
| SpotBacktest.StepConservesBasis | src/backtest/spot.rs:141-236 | one sample adds to the basis held plus the basis released exactly the net amount its Buy invests, 0 when no Buy fills |
| SpotBacktest.ReplayConservesBasis | src/backtest/spot.rs:121-237 | for every fee, the basis held plus the entry values of all trades is the initial coin's basis plus every net Buy, so the trades never release more basis than was put in |
| SpotBacktest.ReplayCurve | src/backtest/spot.rs:126-127 | one equity point per sample, stamped with its time and worth cash plus coin at its price |
| SpotBacktest.EffectiveInitial | src/backtest/spot.rs:241-248 | the return's base is the initial equity when positive, and 1 otherwise |
| SpotBacktest.SpotReturnGrowth | src/backtest/spot.rs:241-248 | one plus the return, times the effective initial equity, is the final equity |
| SpotBacktest.RunBacktest | src/backtest/spot.rs:87-262 | an error exactly for fewer than `long + 1` samples; otherwise the initial equity is cash plus coin at the floored first price, the final equity is the replayed account at the last price, and return, drawdown and win rate come from the result's own values |
| SpotBacktest.FlatEndLedger | src/backtest/spot.rs:239-249 | a run that ends with no coin has turned the initial equity into the final one by its trades' profits alone without a fee, and by no more with a fee |
| SpotBacktest.BuyAndHoldEquity | src/backtest/spot.rs:43-55 | undefined exactly for no samples or a non-positive first price |
| SpotBacktest.BuyAndHoldGrowth | src/backtest/spot.rs:43-55 | buy and hold grows the equity at the first price by the ratio of last to first price |
| SpotBacktest.RoundTripScenario | src/backtest/spot.rs:87-262 | 1 000 bought at 100 and sold at 120 without a fee is one trade of 1 000 to 1 200, a 20% return and a win rate of 1 |
| SpotBacktest.FeeBuyScenario | src/backtest/spot.rs:161-176 | a 10 bp fee on a 500 buy at 100 gives 4.995 coin with a basis of 499.5 |
| Sweep.Fraction | src/bin/backtest_sweep.rs:79 | step 0 gives fraction 0 and the last step gives exactly the maximum fraction |
| Sweep.FractionRange | src/bin/backtest_sweep.rs:77-80 | for a positive maximum each step's fraction lies in `(0, max]`, and the last step is exactly the maximum |
| Sweep.FractionMonotone | src/bin/backtest_sweep.rs:77-80 | a later step never gives a smaller fraction |
| Sweep.Jobs | src/bin/backtest_sweep.rs:77-80 | one job per lookback in `min..=max` and step in `1..=steps`, so `(max - min + 1) * steps` jobs, and none for an empty range |
| Sweep.JobsEnumerateGrid | src/bin/backtest_sweep.rs:77-80 | every (lookback, step) pair of the nested loops is one job, at its loop position |
| Sweep.JobsOnGrid | src/bin/backtest_sweep.rs:77-80 | every job has a lookback in range and the fraction of some step |
| Sweep.JobsOrderedByLookback | src/bin/backtest_sweep.rs:77-80 | jobs come in order of lookback |
| Sweep.IsBetterIrreflexive | src/bin/backtest_sweep.rs:105-119 | a result never beats itself, so exact ties keep the incumbent |
| Sweep.IsBetterCharacterised | src/bin/backtest_sweep.rs:105-119 | a candidate wins exactly when its return is higher by more than `1e-9` points or, within `1e-9`, its drawdown is strictly lower |
| Sweep.IsBetter | src/bin/backtest_sweep.rs:108-119 | with no incumbent any result wins; a result more than `1e-9` points above the incumbent's return wins, and a winner is never more than `1e-9` points below it |
| Sweep.BestIndex | src/bin/backtest_sweep.rs:91-124 | the best so far is always a job that produced a result |
| Sweep.SelectBest | src/bin/backtest_sweep.rs:91-140 | there is no answer exactly when no job produced a result; otherwise the answer is the job at some index paired with the result of that same index |
| Sweep.NoBestIffAllFail | src/bin/backtest_sweep.rs:128-140 | there is no answer exactly when no job produced a result |
| Sweep.FirstSuccessIsAccepted | src/bin/backtest_sweep.rs:108-109 | the first job with a result becomes the best |
| Sweep.SelectedNotBeatenLater | src/bin/backtest_sweep.rs:105-124 | `SelectBest`'s answer is the job and result of one index, and no later result beats it: none has a return more than `1e-9` points above it, nor one within `1e-9` with a lower drawdown |
| Sweep.SelectionDependsOnOrder | src/bin/backtest_sweep.rs:105-124 | three results where each replaces the previous one, so the last wins despite a lower return than the first, and reordering changes the answer |
| Sweep.SkippedRunsScenario | src/bin/backtest_sweep.rs:91-93 | failed jobs are skipped, and with no result there is no answer |
| Data.BucketStart | src/data.rs:55-56 | the bucket start is at most the timestamp, and less than one step below it, negative timestamps included |
| Data.BucketStartUnique | src/data.rs:55-56 | the bucket start is the one multiple of the step whose interval holds the timestamp |
| Data.UpsertFind | src/data.rs:63-77 | after an update, the written bucket holds the new sample unless the stored one is at least as late; every other bucket is unchanged |
| Data.Upsert | src/data.rs:63-77 | an update adds at most one bucket; `UpsertShape` shows it keeps the order and that every entry is an old one or the new sample |
| Data.Buckets | src/data.rs:52-78 | the map has at most one bucket per sample; `BucketsWellFormed`, `BucketsHoldSampledBuckets` and `BucketsKeepLatest` give its order and contents |
| Data.BucketsWellFormed | src/data.rs:52-77 | the bucket map is ordered by strictly increasing start, and each entry sits under its own sample's bucket |
| Data.BucketsHoldSampledBuckets | src/data.rs:52-77 | the map holds a bucket exactly when some sample falls in it |
| Data.BucketsKeepLatest | src/data.rs:63-77 | a held bucket keeps its latest sample, and the first of equally late ones |
| Data.ResampleToClose | src/data.rs:47-81 | the output is no longer than the input, and empty for empty input |
| Data.ResampledBucketsIncrease | src/data.rs:80 | the output visits buckets in strictly increasing order, one sample per bucket |
| Data.ResampledSampleIsKept | src/data.rs:64-77 | every output sample is an input sample, the one kept for its bucket |
| Data.EverySampleIsCovered | src/data.rs:55-80 | every input sample's bucket appears in the output with a sample no earlier than it |
| Data.ResampleToNHours | src/data.rs:84-87 | resampling to `n` hours never lengthens the series |
| Data.ResampleToHourly | src/data.rs:89-91 | hourly resampling never lengthens the series |
| Data.HourlyScenarios | src/data.rs:107-135 | empty, single-sample and same-hour inputs give the empty, the same and the latest sample |
| Data.TwoHourScenario | src/data.rs:138-159 | a sample exactly on the hour opens the next bucket |
| Data.TwoHourBucketScenario | src/data.rs:185-199 | two-hour buckets keep the 11:59:59 sample of the 10:00 bucket |

## Left out

- CSV and RFC 3339 ingestion (`get_samples_from_input_file`, `src/data.rs:22-41`): file I/O and parsing libraries. Samples are given as `(ts, price)` records.
- Printing: `print_summary` in both replays, `src/output.rs`, and the `println!` in `close_position`. These are output only.
- The CLI binaries, `src/main.rs` and `src/config.rs`: argument and configuration plumbing. This covers the sweep binary's loading, its `hourly.len() < 51` check and its result printing. Of that binary, only the grid and the reduction are modelled.
- The four-argument `analyze`, and `find_best_strategy`, `generate_strategies`, `Backtester`, `Candidate` and `TradingMetrics`: their sources, including `src/backtest/mod.rs`, are not part of this model. The replays therefore take a signal stream, and the sweep takes the results of its jobs as given.
- The engine's reason strings are modelled as `Signals.ReasonText`, with no property stated about their wording.
- NaN, infinity and IEEE rounding: prices are exact reals. This drops the panic of `partial_cmp(..).unwrap()` on NaN in the sort.
- A window of 0 for the SMA: `0/0` in the source. The SMA lemmas require `window >= 1`, and the regime classifier treats a zero long window as an undefined average, which makes it Sideways.
- `resample_to_close` asserts a positive step, and `resample_to_n_hours` a positive hour count. Both are preconditions here.
- Patterns.TieIsNeitherBreakoutNorBreakdown: stated only for a non-negative last close. For a negative close, `x > x * (1 + 1e-6)` holds, so a tie is a breakout.
- SpotBacktest.BuyEffect: does not restate the `in_position` flag. That flag is covered by `SpotBacktest.BuyKeepsHolding`, which states it is set exactly when coin is held.
- SpotBacktest.ReplayKeepsSound: the cash floor assumes a fee of at most 100% and no negative initial cash or coin. The source does not check its configuration, and without those conditions no floor is claimed.
- Data.ResampleToNHours and Data.ResampleToHourly: state only the length bound. Both call `Data.ResampleToClose` with a step of `n * 3600` seconds, and the per-bucket properties are proved for that function.
- Sub-second timestamps: samples carry whole seconds, while the source's `s.ts > prev.ts` compares at full precision. Two samples within the same second are equal here, so the bucket keeps the first of them, where the source keeps the later one.

=== FILE: atr.dfy ===
/**
 * Close-to-close ATR, ATR as a fraction of price, and the ATR% floor filter
 * (src/indicators/atr.rs, duplicated verbatim in src/indicators.rs; both share these definitions).
 */
module Volatility {
  import opened Wrappers
  import opened Series
  import opened Sorting
  import Sma

  /** The close-to-close change from sample `i` to sample `i + 1`. */
  function Change(prices: seq<real>, i: nat): real
    requires i + 1 < |prices|
  {
    Abs(prices[i + 1] - prices[i])
  }

  /** Close-to-close true ranges: entry `i` is the change from sample `i` to `i + 1`. */
  function TrueRanges(prices: seq<real>): (tr: seq<real>)
    ensures |tr| == if |prices| == 0 then 0 else |prices| - 1
    ensures forall i :: 0 <= i < |tr| ==> tr[i] >= 0.0
  {
    if |prices| <= 1 then []
    else seq(|prices| - 1, i requires 0 <= i < |prices| - 1 => Change(prices, i))
  }

  /** Entry `i` of the true ranges is the change from sample `i` to `i + 1`. */
  lemma TrueRangeAt(prices: seq<real>, i: nat)
    requires i + 1 < |prices|
    ensures TrueRanges(prices)[i] == Change(prices, i)
  {
  }

  /** Every entry of the true ranges is the matching change. */
  lemma TrueRangesAreChanges(prices: seq<real>)
    ensures forall i :: 0 <= i < |TrueRanges(prices)| ==> TrueRanges(prices)[i] == Change(prices, i)
  {
    forall i | 0 <= i < |TrueRanges(prices)|
      ensures TrueRanges(prices)[i] == Change(prices, i)
    {
      TrueRangeAt(prices, i);
    }
  }

  /**
   * Sum of the last `k` close-to-close changes, newest first: the order in which the
   * source's loop accumulates them.
   */
  function RecentChangeSum(prices: seq<real>, k: nat): (r: real)
    requires k + 1 <= |prices|
    ensures r >= 0.0
  {
    if k == 0 then 0.0
    else
      var n := |prices|;
      RecentChangeSum(prices, k - 1) + Change(prices, n - 1 - k)
  }

  /**
   * ATR over `period`: the recent changes summed and divided by the period, or None when the
   * period is zero or there are not `period + 1` prices.
   */
  function Atr(prices: seq<real>, period: nat): (r: Option<real>)
    ensures r.None? <==> period == 0 || |prices| < period + 1
  {
    if |prices| < period + 1 || period == 0 then None
    else Some(RecentChangeSum(prices, period) / period as real)
  }

  /** A defined ATR is never negative. */
  lemma AtrNonNegative(prices: seq<real>, period: nat)
    requires Atr(prices, period).Some?
    ensures Atr(prices, period).value >= 0.0
  {
    QuotientFacts(RecentChangeSum(prices, period), period as real);
  }

  /** Accumulating newest-first gives the sum of the trailing true-range window. */
  lemma {:induction false} RecentChangeSumIsTrailingSum(prices: seq<real>, k: nat)
    requires k + 1 <= |prices|
    ensures RecentChangeSum(prices, k) == Sum(Sma.Trailing(TrueRanges(prices), k))
  {
    var tr := TrueRanges(prices);
    if k > 0 {
      TrueRangeAt(prices, |prices| - 1 - k);
      RecentChangeSumIsTrailingSum(prices, k - 1);
      SumSuffixStep(tr, |tr| - k + 1);
      assert Sma.Trailing(tr, k)[1..] == Sma.Trailing(tr, k - 1);
    }
  }

  /**
   * The accumulation loop of the source: walks the last `period` intervals backwards,
   * adding each close-to-close change.
   */
  method SumRecentTrueRanges(prices: seq<real>, period: nat) returns (sumTr: real)
    requires period + 1 <= |prices|
    ensures sumTr == Sum(Sma.Trailing(TrueRanges(prices), period))
  {
    var n := |prices|;
    sumTr := 0.0;
    var i := 1;
    while i <= period
      invariant 1 <= i <= period + 1
      invariant sumTr == RecentChangeSum(prices, i - 1)
    {
      var prev := prices[n - 1 - i];
      var curr := prices[n - i];
      sumTr := sumTr + Abs(curr - prev);
      i := i + 1;
    }
    RecentChangeSumIsTrailingSum(prices, period);
  }

  /** The ATR is the mean of the last `period` entries of the true-range series. */
  lemma AtrIsMeanOfTrueRanges(prices: seq<real>, period: nat)
    requires period > 0 && period + 1 <= |prices|
    ensures Atr(prices, period) == Some(Mean(Sma.Trailing(TrueRanges(prices), period)))
  {
    RecentChangeSumIsTrailingSum(prices, period);
  }

  /** A sum of the recent true ranges, computed by the loop, divided by the period is `Atr`. */
  lemma AtrFromRecentSum(prices: seq<real>, period: nat, sumTr: real)
    requires period > 0 && period + 1 <= |prices|
    requires sumTr == Sum(Sma.Trailing(TrueRanges(prices), period))
    ensures Atr(prices, period) == Some(sumTr / period as real)
  {
    AtrIsMeanOfTrueRanges(prices, period);
  }

  /** The source's `atr`: the guard, then the loop's sum divided by the period. */
  method ComputeAtr(prices: seq<real>, period: nat) returns (r: Option<real>)
    ensures r == Atr(prices, period)
  {
    if |prices| < period + 1 || period == 0 {
      return None;
    }
    var sumTr := SumRecentTrueRanges(prices, period);
    AtrFromRecentSum(prices, period, sumTr);
    r := Some(sumTr / period as real);
  }

  /** A flat series has zero ATR. */
  lemma AtrOfFlatSeries(prices: seq<real>, period: nat, c: real)
    requires 1 <= period && period + 1 <= |prices|
    requires forall i :: 0 <= i < |prices| ==> prices[i] == c
    ensures Atr(prices, period) == Some(0.0)
  {
    var tr := TrueRanges(prices);
    TrueRangesAreChanges(prices);
    Sma.SmaOfFlatWindow(tr, period, 0.0);
    AtrIsMeanOfTrueRanges(prices, period);
  }

  /** The ATR is the mean of the last `period` close-to-close changes, listed oldest first. */
  lemma AtrOfChanges(prices: seq<real>, period: nat, changes: seq<real>)
    requires 1 <= period && period + 1 <= |prices| && |changes| == period
    requires forall k :: 0 <= k < period ==> changes[k] == Change(prices, |prices| - 1 - period + k)
    ensures Atr(prices, period) == Some(Sum(changes) / period as real)
  {
    var tr := TrueRanges(prices);
    var w := Sma.Trailing(tr, period);
    forall k | 0 <= k < period
      ensures w[k] == changes[k]
    {
      TrueRangeAt(prices, |prices| - 1 - period + k);
    }
    assert w == changes;
    AtrIsMeanOfTrueRanges(prices, period);
  }

  /** ATR as a fraction of the last price; None when the ATR is undefined or the last price is not positive. */
  function AtrPercent(prices: seq<real>, period: nat): (r: Option<real>)
    ensures r.None? <==> Atr(prices, period).None? || prices[|prices| - 1] <= 0.0
  {
    var atrValue := Atr(prices, period);
    if atrValue.None? then None
    else
      var lastPrice := prices[|prices| - 1];
      if lastPrice <= 0.0 then None
      else Some(atrValue.value / lastPrice)
  }

  /** A defined ATR% is never negative. */
  lemma AtrPercentNonNegative(prices: seq<real>, period: nat)
    requires AtrPercent(prices, period).Some?
    ensures AtrPercent(prices, period).value >= 0.0
  {
    AtrNonNegative(prices, period);
    QuotientFacts(Atr(prices, period).value, prices[|prices| - 1]);
  }

  /** The ATR% times the last price gives back the ATR. */
  lemma AtrPercentTimesPrice(prices: seq<real>, period: nat)
    requires AtrPercent(prices, period).Some?
    ensures AtrPercent(prices, period).value * prices[|prices| - 1] == Atr(prices, period).value
  {
    QuotientFacts(Atr(prices, period).value, prices[|prices| - 1]);
  }

  /** A volatility floor: the ATR period and the minimum acceptable ATR%. */
  datatype AtrFilter = AtrFilter(period: nat, floor: real)
  {
    /** ATR% at the end of `prices` with this filter's period. */
    function AtrPercentAt(prices: seq<real>): Option<real>
    {
      AtrPercent(prices, period)
    }
  }

  /** A filter with a fixed floor. */
  function NewFixed(period: nat, floor: real): (f: AtrFilter)
    ensures f.period == period && f.floor == floor
  {
    AtrFilter(period, floor)
  }

  /** The defined values of `os`, in order. */
  function Defined(os: seq<Option<real>>): (d: seq<real>)
    ensures |d| <= |os|
  {
    if |os| == 0 then []
    else
      var last := os[|os| - 1];
      Defined(os[..|os| - 1]) + (if last.Some? then [last.value] else [])
  }

  /** Every defined value comes from some entry of `os`. */
  lemma {:induction false} DefinedComesFrom(os: seq<Option<real>>, k: nat) returns (j: nat)
    requires k < |Defined(os)|
    ensures j < |os| && os[j] == Some(Defined(os)[k])
  {
    var init := os[..|os| - 1];
    if k < |Defined(init)| {
      j := DefinedComesFrom(init, k);
    } else {
      j := |os| - 1;
    }
  }

  /** Every defined entry of `os` is kept. */
  lemma {:induction false} DefinedContains(os: seq<Option<real>>, j: nat)
    requires j < |os| && os[j].Some?
    ensures os[j].value in Defined(os)
  {
    var init := os[..|os| - 1];
    if j < |os| - 1 {
      DefinedContains(init, j);
    } else {
      assert Defined(os)[|Defined(os)| - 1] == os[j].value;
    }
  }

  /** Nothing is kept from a list without defined entries. */
  lemma {:induction false} DefinedOfNothing(os: seq<Option<real>>)
    requires forall j :: 0 <= j < |os| ==> os[j].None?
    ensures Defined(os) == []
  {
    if |os| > 0 {
      DefinedOfNothing(os[..|os| - 1]);
    }
  }

  /** `f` applied to every prefix `prices[..e]` with `first <= e <= end`, in order of `e`. */
  function WindowHistory(f: seq<real> -> Option<real>, prices: seq<real>, first: nat, end: nat): (h: seq<Option<real>>)
    requires first >= 1 && end <= |prices|
    ensures |h| == if end < first then 0 else end - first + 1
  {
    if end < first then []
    else WindowHistory(f, prices, first, end - 1) + [f(prices[..end])]
  }

  /** Entry `j` of the history belongs to the window ending at `first + j`. */
  lemma {:induction false} WindowHistoryAt(f: seq<real> -> Option<real>, prices: seq<real>, first: nat, end: nat, j: nat)
    requires first >= 1 && end <= |prices| && first + j <= end
    ensures WindowHistory(f, prices, first, end)[j] == f(prices[..first + j])
  {
    if first + j < end {
      WindowHistoryAt(f, prices, first, end - 1, j);
    }
  }

  /** The ATR% of every window end `period+1 ..= end`, defined or not, in order of window end. */
  function AtrPercentHistory(prices: seq<real>, period: nat, end: nat): (h: seq<Option<real>>)
    requires end <= |prices|
    ensures |h| == if end < period + 1 then 0 else end - period
  {
    WindowHistory(w => AtrPercent(w, period), prices, period + 1, end)
  }

  /** Entry `j` of the history is the ATR% of the window ending at `period + 1 + j`. */
  lemma HistoryAt(prices: seq<real>, period: nat, end: nat, j: nat)
    requires end <= |prices| && period + 1 + j <= end
    ensures AtrPercentHistory(prices, period, end)[j] == AtrPercent(prices[..period + 1 + j], period)
  {
    WindowHistoryAt(w => AtrPercent(w, period), prices, period + 1, end, j);
  }

  /** ATR% at every window end `period+1 ..= end` where it is defined, in order of window end. */
  function CollectAtrPercents(prices: seq<real>, period: nat, end: nat): (c: seq<real>)
    requires end <= |prices|
    ensures |c| <= if end < period + 1 then 0 else end - period
  {
    Defined(AtrPercentHistory(prices, period, end))
  }

  /** Every collected value is the ATR% of some window end `period+1 ..= end`. */
  lemma CollectedComesFromWindow(prices: seq<real>, period: nat, end: nat, k: nat) returns (e: nat)
    requires end <= |prices|
    requires k < |CollectAtrPercents(prices, period, end)|
    ensures period + 1 <= e <= end
    ensures AtrPercent(prices[..e], period) == Some(CollectAtrPercents(prices, period, end)[k])
  {
    var j := DefinedComesFrom(AtrPercentHistory(prices, period, end), k);
    HistoryAt(prices, period, end, j);
    e := period + 1 + j;
  }

  /** Every window end `period+1 ..= end` with a defined ATR% contributes its value. */
  lemma WindowIsCollected(prices: seq<real>, period: nat, end: nat, e: nat)
    requires end <= |prices| && period + 1 <= e <= end
    requires AtrPercent(prices[..e], period).Some?
    ensures AtrPercent(prices[..e], period).value in CollectAtrPercents(prices, period, end)
  {
    HistoryAt(prices, period, end, e - period - 1);
    DefinedContains(AtrPercentHistory(prices, period, end), e - period - 1);
  }

  /** Collected ATR% values are never negative. */
  lemma CollectedNonNegative(prices: seq<real>, period: nat, end: nat, x: real)
    requires end <= |prices|
    requires x in CollectAtrPercents(prices, period, end)
    ensures x >= 0.0
  {
    var c := CollectAtrPercents(prices, period, end);
    var k :| 0 <= k < |c| && c[k] == x;
    var e := CollectedComesFromWindow(prices, period, end, k);
    AtrPercentNonNegative(prices[..e], period);
  }

  /**
   * Index `round((n-1) * clamp(p, 0, 1))` into a list of `n` values. The argument is never
   * negative, so Rust's round-half-away-from-zero is `floor(x + 1/2)`.
   */
  function PercentileIndex(n: nat, percentile: real): (idx: nat)
    requires n >= 1
    ensures idx <= n - 1
    ensures percentile <= 0.0 ==> idx == 0
    ensures percentile >= 1.0 ==> idx == n - 1
    ensures var x := (n - 1) as real * Clamp(percentile, 0.0, 1.0); x - 0.5 < idx as real <= x + 0.5
  {
    var k := (n - 1) as real;
    var p := Clamp(percentile, 0.0, 1.0);
    MulMonotone(k, 0.0, p);
    MulMonotone(k, p, 1.0);
    assert 0.0 <= k * p <= k;
    var x := k * p + 0.5;
    FloorBounds(x);
    x.Floor
  }

  /** A larger percentile never selects a smaller index. */
  lemma PercentileIndexMonotone(n: nat, p: real, q: real)
    requires n >= 1 && p <= q
    ensures PercentileIndex(n, p) <= PercentileIndex(n, q)
  {
    var cp := Clamp(p, 0.0, 1.0);
    var cq := Clamp(q, 0.0, 1.0);
    MulMonotone((n - 1) as real, cp, cq);
    FloorMonotone((n - 1) as real * cp + 0.5, (n - 1) as real * cq + 0.5);
  }

  /** The value at the percentile index of the ascending order of `c`. */
  function PercentileOf(c: seq<real>, percentile: real): (v: real)
    requires |c| > 0
    ensures v in c
    ensures percentile <= 0.0 ==> forall x :: x in c ==> v <= x
    ensures percentile >= 1.0 ==> forall x :: x in c ==> x <= v
    ensures v == Sort(c)[PercentileIndex(|c|, percentile)]
  {
    var i := PercentileIndex(|c|, percentile);
    SortedElement(c, i);
    assert forall x :: x in c ==> Sort(c)[0] <= x <= Sort(c)[|c| - 1] by {
      forall x | x in c
        ensures Sort(c)[0] <= x <= Sort(c)[|c| - 1]
      {
        SortedEnds(c, x);
      }
    }
    Sort(c)[i]
  }

  /** A higher percentile never picks a smaller value. */
  lemma PercentileOfMonotone(c: seq<real>, p: real, q: real)
    requires |c| > 0 && p <= q
    ensures PercentileOf(c, p) <= PercentileOf(c, q)
  {
    var sorted := Sort(c);
    SortCorrect(c);
    PercentileIndexMonotone(|c|, p, q);
    var i := PercentileIndex(|c|, p);
    var j := PercentileIndex(|c|, q);
    if i < j {
      assert sorted[i] <= sorted[j];
    }
  }

  /**
   * Percentile-calibrated filter: sorts the ATR% values of every window end and keeps the
   * one at the percentile index as the floor.
   */
  function FromHistory(prices: seq<real>, period: nat, percentile: real): (r: Option<AtrFilter>)
    ensures |prices| < period + 2 ==> r.None?
    ensures r.None? && |prices| >= period + 2 ==> CollectAtrPercents(prices, period, |prices|) == []
    ensures r.Some? ==> r.value.period == period
    ensures r.Some? ==> r.value.floor in CollectAtrPercents(prices, period, |prices|)
    ensures r.Some? ==> r.value.floor >= 0.0
    ensures r.Some? && percentile <= 0.0 ==>
      forall x :: x in CollectAtrPercents(prices, period, |prices|) ==> r.value.floor <= x
    ensures r.Some? && percentile >= 1.0 ==>
      forall x :: x in CollectAtrPercents(prices, period, |prices|) ==> x <= r.value.floor
    ensures r.Some? ==> var c := CollectAtrPercents(prices, period, |prices|);
      |c| > 0 && r.value.floor == Sort(c)[PercentileIndex(|c|, percentile)]
  {
    if |prices| < period + 2 then None
    else
      var atrPercents := CollectAtrPercents(prices, period, |prices|);
      if |atrPercents| == 0 then None
      else
        var sorted := Sort(atrPercents);
        var idx := PercentileIndex(|sorted|, percentile);
        SortedElement(atrPercents, idx);
        CollectedNonNegative(prices, period, |prices|, sorted[idx]);
        assert forall x :: x in atrPercents ==> sorted[0] <= x <= sorted[|sorted| - 1] by {
          forall x | x in atrPercents
            ensures sorted[0] <= x <= sorted[|sorted| - 1]
          {
            SortedEnds(atrPercents, x);
          }
        }
        Some(AtrFilter(period, PercentileOf(atrPercents, percentile)))
  }

  /** With a zero period no window has an ATR, so there is never a calibrated filter. */
  lemma FromHistoryPeriodZero(prices: seq<real>, percentile: real)
    ensures FromHistory(prices, 0, percentile).None?
  {
    if |prices| >= 2 {
      CollectWithoutAtrIsEmpty(prices, |prices|);
    }
  }

  lemma CollectWithoutAtrIsEmpty(prices: seq<real>, end: nat)
    requires end <= |prices|
    ensures CollectAtrPercents(prices, 0, end) == []
  {
    var h := AtrPercentHistory(prices, 0, end);
    forall j | 0 <= j < |h|
      ensures h[j].None?
    {
      HistoryAt(prices, 0, end, j);
    }
    DefinedOfNothing(h);
  }

  /** A higher percentile never gives a lower floor. */
  lemma FromHistoryMonotoneInPercentile(prices: seq<real>, period: nat, p: real, q: real)
    requires p <= q
    requires FromHistory(prices, period, p).Some?
    ensures FromHistory(prices, period, q).Some?
    ensures FromHistory(prices, period, p).value.floor <= FromHistory(prices, period, q).value.floor
  {
    PercentileOfMonotone(CollectAtrPercents(prices, period, |prices|), p, q);
  }

  /** Too little history, or a zero period, leaves the ATR undefined. */
  lemma AtrUndefinedScenarios()
    ensures Atr([100.0, 101.0, 102.0], 3).None?
    ensures Atr([100.0, 101.0, 102.0], 0).None?
  {
  }

  /** Changes 1, 2, 3 average to 2. */
  lemma AtrThreeScenario()
    ensures Atr([10.0, 11.0, 13.0, 16.0], 3) == Some(2.0)
  {
    var a := [10.0, 11.0, 13.0, 16.0];
    assert Change(a, 0) == 1.0 && Change(a, 1) == 2.0 && Change(a, 2) == 3.0;
    AtrOfChanges(a, 3, [1.0, 2.0, 3.0]);
    assert Sum([1.0, 2.0, 3.0]) == 6.0 by {
      assert [1.0, 2.0, 3.0][1..] == [2.0, 3.0];
      assert [2.0, 3.0][1..] == [3.0];
    }
  }

  /** With period 1 the ATR is the last absolute change. */
  lemma AtrOneScenario()
    ensures Atr([10.0, 13.0, 9.0], 1) == Some(4.0)
  {
    var b := [10.0, 13.0, 9.0];
    assert Change(b, 1) == 4.0;
    AtrOfChanges(b, 1, [4.0]);
    assert Sum([4.0]) == 4.0 by {
      assert [4.0][1..] == [];
    }
  }

  /** Two changes and their sum. */
  lemma SumOfTwo(x: real, y: real)
    ensures Sum([x, y]) == x + y
  {
    assert [x, y][1..] == [y];
    assert [y][1..] == [];
    assert Sum([y]) == y + Sum([]);
    assert Sum([x, y]) == x + Sum([y]);
  }

  /** The ATR% of the three windows of `CollectScenario`. */
  lemma CollectWindowsScenario()
    ensures AtrPercent([10.0, 11.0, 13.0], 2) == Some(1.5 / 13.0)
    ensures AtrPercent([10.0, 11.0, 13.0, 16.0], 2) == Some(2.5 / 16.0)
    ensures AtrPercent([10.0, 11.0, 13.0, 16.0, 15.0], 2) == Some(2.0 / 15.0)
  {
    var p3, p4, p := [10.0, 11.0, 13.0], [10.0, 11.0, 13.0, 16.0], [10.0, 11.0, 13.0, 16.0, 15.0];
    assert Change(p3, 0) == 1.0 && Change(p3, 1) == 2.0;
    SumOfTwo(1.0, 2.0);
    AtrOfChanges(p3, 2, [1.0, 2.0]);
    assert Change(p4, 1) == 2.0 && Change(p4, 2) == 3.0;
    SumOfTwo(2.0, 3.0);
    AtrOfChanges(p4, 2, [2.0, 3.0]);
    assert Change(p, 2) == 3.0 && Change(p, 3) == 1.0;
    SumOfTwo(3.0, 1.0);
    AtrOfChanges(p, 2, [3.0, 1.0]);
  }

  /** Three defined values are collected in order. */
  lemma DefinedOfThree(x: real, y: real, z: real)
    ensures Defined([Some(x), Some(y), Some(z)]) == [x, y, z]
  {
    var h := [Some(x), Some(y), Some(z)];
    assert h[..2] == [Some(x), Some(y)];
    assert h[..2][..1] == [Some(x)];
    assert h[..2][..1][..0] == [];
    assert Defined([Some(x)]) == [x];
    assert Defined([Some(x), Some(y)]) == [x, y];
  }

  /** The ATR% history of `10, 11, 13, 16, 15` with period 2. */
  lemma HistoryScenario()
    ensures AtrPercentHistory([10.0, 11.0, 13.0, 16.0, 15.0], 2, 5) == [Some(1.5 / 13.0), Some(2.5 / 16.0), Some(2.0 / 15.0)]
  {
    var p := [10.0, 11.0, 13.0, 16.0, 15.0];
    assert p[..3] == [10.0, 11.0, 13.0] && p[..4] == [10.0, 11.0, 13.0, 16.0] && p[..5] == p;
    CollectWindowsScenario();
    assert AtrPercentHistory(p, 2, 2) == [];
    assert AtrPercentHistory(p, 2, 3) == [Some(1.5 / 13.0)];
    assert AtrPercentHistory(p, 2, 4) == [Some(1.5 / 13.0), Some(2.5 / 16.0)];
  }

  /** The three window ends of `10, 11, 13, 16, 15` with period 2 give ATR% 1.5/13, 2.5/16 and 2/15. */
  lemma CollectScenario()
    ensures CollectAtrPercents([10.0, 11.0, 13.0, 16.0, 15.0], 2, 5) == [1.5 / 13.0, 2.5 / 16.0, 2.0 / 15.0]
  {
    HistoryScenario();
    DefinedOfThree(1.5 / 13.0, 2.5 / 16.0, 2.0 / 15.0);
  }

  /** The collected ATR% values of `CollectScenario` in ascending order. */
  lemma SortScenario()
    ensures Sort([1.5 / 13.0, 2.5 / 16.0, 2.0 / 15.0]) == [1.5 / 13.0, 2.0 / 15.0, 2.5 / 16.0]
  {
    var c := [1.5 / 13.0, 2.5 / 16.0, 2.0 / 15.0];
    assert Insert(2.5 / 16.0, [1.5 / 13.0]) == [1.5 / 13.0, 2.5 / 16.0];
    assert [1.5 / 13.0, 2.5 / 16.0][1..] == [2.5 / 16.0];
    assert Insert(2.0 / 15.0, [2.5 / 16.0]) == [2.0 / 15.0, 2.5 / 16.0];
    assert c[..2] == [1.5 / 13.0, 2.5 / 16.0];
    assert c[..2][..1] == [1.5 / 13.0];
    assert c[..2][..1][..0] == [];
  }

  /** The percentile floors of the same series: lowest, middle and highest ATR%. */
  lemma FromHistoryScenario()
    ensures FromHistory([10.0, 11.0, 13.0, 16.0, 15.0], 2, 0.0) == Some(AtrFilter(2, 1.5 / 13.0))
    ensures FromHistory([10.0, 11.0, 13.0, 16.0, 15.0], 2, -1.0) == Some(AtrFilter(2, 1.5 / 13.0))
    ensures FromHistory([10.0, 11.0, 13.0, 16.0, 15.0], 2, 0.5) == Some(AtrFilter(2, 2.0 / 15.0))
    ensures FromHistory([10.0, 11.0, 13.0, 16.0, 15.0], 2, 1.0) == Some(AtrFilter(2, 2.5 / 16.0))
    ensures FromHistory([10.0, 11.0, 13.0, 16.0, 15.0], 2, 2.0) == Some(AtrFilter(2, 2.5 / 16.0))
  {
    CollectScenario();
    SortScenario();
    assert PercentileIndex(3, 0.5) == 1 by {
      assert (3 - 1) as real * 0.5 + 0.5 == 1.5;
    }
  }

  /** A series no longer than the period has no ATR% to calibrate from. */
  lemma FromShortHistoryScenario()
    ensures FromHistory([100.0, 101.0, 102.0, 103.0], 3, 0.4).None?
  {
  }
}

=== FILE: common.dfy ===
/**
 * Pieces shared by the two portfolio replays (src/backtest/common.rs): the trade signal, the
 * backtest filter presets, the maximum drawdown of an equity curve and the win rate.
 */
module Common {
  import opened Wrappers
  import Series
  import Signals
  import Sma
  import Regimes
  import Volatility

  /** The two suggestions that move a portfolio. */
  datatype Signal = Buy | Sell

  /**
   * Sample `i` is past the warm-up and the SMAs exist: at least `long + 1` and `short + 1` prices
   * have been seen.
   */
  predicate Tradable(cfg: Sma.SmaConfig, i: nat)
  {
    i + 1 >= cfg.longWindow + 1 && i + 1 >= cfg.shortWindow + 1
  }

  /** The warm-up test and the `compute_smas` guard together are exactly `Tradable`. */
  lemma TradableIffSmas(cfg: Sma.SmaConfig, prices: seq<real>)
    requires |prices| > 0 && cfg.shortWindow >= 1 && cfg.longWindow >= 1
    ensures Tradable(cfg, |prices| - 1) <==>
      |prices| >= cfg.longWindow + 1 && Sma.ComputeSmas(prices, cfg).Some?
  {
  }

  /** The signal for sample `i`; missing entries are no signal. */
  function SignalAt(signals: seq<Option<Signal>>, i: nat): Option<Signal>
  {
    if i < |signals| then signals[i] else None
  }

  /** Only the exact "BUY" and "SELL" strings become signals. */
  function SuggestionToSignal(s: string): (r: Option<Signal>)
    ensures r == Some(Buy) <==> s == Signals.Buy
    ensures r == Some(Sell) <==> s == Signals.Sell
  {
    if s == "BUY" then Some(Buy)
    else if s == "SELL" then Some(Sell)
    else None
  }

  /**
   * Read through the decision engine: a Buy needs an uptrend, a Sell a downtrend, and every hold
   * flavour (including the two bias strings) is no signal at all.
   */
  lemma EngineSignals(prices: seq<real>, smas: Sma.Smas, bounceTol: real, rejectTol: real)
    requires |prices| > 0
    ensures var a := Signals.SuggestAction(prices, smas, bounceTol, rejectTol);
      && (SuggestionToSignal(a.suggestion) == Some(Buy) ==> Signals.Uptrend(smas))
      && (SuggestionToSignal(a.suggestion) == Some(Sell) ==> Signals.Downtrend(smas))
      && (SuggestionToSignal(a.suggestion).None? <==>
            a.suggestion in {Signals.LongBias, Signals.ShortBias, Signals.Hold})
  {
    var a := Signals.SuggestAction(prices, smas, bounceTol, rejectTol);
    assert a.suggestion in Signals.Suggestions;
  }

  /** The regime preset of the backtests is the default filter. */
  const BacktestRegimeFilter: Regimes.RegimeFilter := Regimes.DefaultRegimeFilter

  /** The ATR preset of the backtests: a 5-candle ATR with a fixed 0.3% floor. */
  function BacktestAtrFilter(): (f: Volatility.AtrFilter)
    ensures f.period == 5 && f.floor == 0.003
  {
    Volatility.NewFixed(5, 0.003)
  }

  /** One point of an equity curve: a timestamp in seconds and the portfolio value. */
  datatype EquityPoint = EquityPoint(time: int, equity: real)

  function Equities(curve: seq<EquityPoint>): (e: seq<real>)
    ensures |e| == |curve|
    ensures forall i :: 0 <= i < |curve| ==> e[i] == curve[i].equity
  {
    seq(|curve|, i requires 0 <= i < |curve| => curve[i].equity)
  }

  /** The running peak after `e[i]`: it starts at `e[0]` and is raised by every larger value. */
  function Peak(e: seq<real>, i: nat): (p: real)
    requires i < |e|
    ensures forall j :: 0 <= j <= i ==> e[j] <= p
  {
    if i == 0 then e[0]
    else if e[i] > Peak(e, i - 1) then e[i]
    else Peak(e, i - 1)
  }

  /** The running peak is one of the values seen so far. */
  lemma {:induction false} PeakAttained(e: seq<real>, i: nat) returns (j: nat)
    requires i < |e|
    ensures j <= i && e[j] == Peak(e, i)
  {
    if i == 0 {
      j := 0;
    } else if e[i] > Peak(e, i - 1) {
      j := i;
    } else {
      j := PeakAttained(e, i - 1);
    }
  }

  /** The fall from the running peak at `i`, as a fraction of a positive peak; 0 otherwise. */
  function DrawdownAt(e: seq<real>, i: nat): (d: real)
    requires i < |e|
    ensures d >= 0.0
    ensures Peak(e, i) > 0.0 ==> d * Peak(e, i) == Peak(e, i) - e[i]
    ensures Peak(e, i) <= 0.0 ==> d == 0.0
  {
    var peak := Peak(e, i);
    if peak > 0.0 then
      assert peak - e[i] >= 0.0;
      Series.QuotientFacts(peak - e[i], peak);
      (peak - e[i]) / peak
    else 0.0
  }

  /** The largest drawdown over the first `n` points, 0 for none. */
  function MaxDrawdownOver(e: seq<real>, n: nat): (d: real)
    requires n <= |e|
    ensures d >= 0.0
  {
    if n == 0 then 0.0
    else
      var before := MaxDrawdownOver(e, n - 1);
      var here := DrawdownAt(e, n - 1);
      if here > before then here else before
  }

  /** The source's `compute_max_drawdown`, as a function of the equity values. */
  function MaxDrawdown(e: seq<real>): (d: real)
    ensures d >= 0.0
    ensures |e| == 0 ==> d == 0.0
  {
    MaxDrawdownOver(e, |e|)
  }

  /**
   * The maximum drawdown is the least upper bound of the per-point drawdowns: no point exceeds
   * it, and it is 0 or reached at some point.
   */
  lemma {:induction false} MaxDrawdownOverIsMaximum(e: seq<real>, n: nat) returns (k: nat)
    requires n <= |e|
    ensures MaxDrawdownOver(e, n) >= 0.0
    ensures forall i :: 0 <= i < n ==> DrawdownAt(e, i) <= MaxDrawdownOver(e, n)
    ensures MaxDrawdownOver(e, n) > 0.0 ==> k < n && MaxDrawdownOver(e, n) == DrawdownAt(e, k)
  {
    k := 0;
    if n > 0 {
      var k0 := MaxDrawdownOverIsMaximum(e, n - 1);
      if DrawdownAt(e, n - 1) > MaxDrawdownOver(e, n - 1) {
        k := n - 1;
      } else {
        k := k0;
      }
    }
  }

  lemma MaxDrawdownIsMaximum(e: seq<real>) returns (k: nat)
    ensures MaxDrawdown(e) >= 0.0
    ensures forall i :: 0 <= i < |e| ==> DrawdownAt(e, i) <= MaxDrawdown(e)
    ensures MaxDrawdown(e) > 0.0 ==> k < |e| && MaxDrawdown(e) == DrawdownAt(e, k)
  {
    k := MaxDrawdownOverIsMaximum(e, |e|);
  }

  /** The loop of `compute_max_drawdown`, keeping the running peak and the largest drawdown. */
  method ComputeMaxDrawdown(curve: seq<EquityPoint>) returns (maxDd: real)
    ensures maxDd >= 0.0
    ensures |curve| == 0 ==> maxDd == 0.0
    ensures forall i :: 0 <= i < |curve| ==> DrawdownAt(Equities(curve), i) <= maxDd
    ensures maxDd > 0.0 ==> exists i :: 0 <= i < |curve| && maxDd == DrawdownAt(Equities(curve), i)
  {
    if |curve| == 0 {
      return 0.0;
    }
    var e := Equities(curve);
    var peak := curve[0].equity;
    maxDd := 0.0;
    for i := 0 to |curve|
      invariant peak == Peak(e, if i == 0 then 0 else i - 1)
      invariant maxDd == MaxDrawdownOver(e, i)
    {
      var equity := curve[i].equity;
      if equity > peak {
        peak := equity;
      }
      if peak > 0.0 {
        var dd := (peak - equity) / peak;
        if dd > maxDd {
          maxDd := dd;
        }
      }
    }
    var k := MaxDrawdownOverIsMaximum(e, |e|);
  }

  /** Drawdowns from a non-negative curve never exceed a total loss. */
  lemma DrawdownAtMostOne(e: seq<real>)
    requires forall i :: 0 <= i < |e| ==> e[i] >= 0.0
    ensures MaxDrawdown(e) <= 1.0
  {
    var k := MaxDrawdownIsMaximum(e);
    if MaxDrawdown(e) > 0.0 {
      var peak := Peak(e, k);
      var d := (peak - e[k]) / peak;
      Series.QuotientFacts(peak - e[k], peak);
      assert d * peak == peak - e[k] <= peak;
    }
  }

  /** A curve that never falls has no drawdown. */
  lemma NonDecreasingHasNoDrawdown(e: seq<real>)
    requires forall i, j :: 0 <= i <= j < |e| ==> e[i] <= e[j]
    ensures MaxDrawdown(e) == 0.0
  {
    var k := MaxDrawdownIsMaximum(e);
    if MaxDrawdown(e) > 0.0 {
      var j := PeakAttained(e, k);
      assert false;
    }
  }

  /** Appending points never lowers the maximum drawdown of the earlier points. */
  lemma {:induction false} DrawdownGrowsWithCurve(e: seq<real>, more: seq<real>)
    ensures MaxDrawdown(e) <= MaxDrawdown(e + more)
  {
    var all := e + more;
    var k := MaxDrawdownIsMaximum(e);
    var _ := MaxDrawdownIsMaximum(all);
    if MaxDrawdown(e) > 0.0 {
      PeakOfPrefix(e, all, k);
      assert DrawdownAt(e, k) == DrawdownAt(all, k);
    }
  }

  /** The running peak depends only on the points up to it. */
  lemma {:induction false} PeakOfPrefix(e: seq<real>, all: seq<real>, i: nat)
    requires i < |e| <= |all| && e == all[..|e|]
    ensures Peak(e, i) == Peak(all, i)
  {
    assert e[i] == all[i];
    if i > 0 {
      PeakOfPrefix(e, all, i - 1);
    }
  }

  /** Number of strictly positive profits. */
  function Wins(profits: seq<real>): (w: nat)
    ensures w <= |profits|
  {
    if |profits| == 0 then 0
    else Wins(profits[..|profits| - 1]) + (if profits[|profits| - 1] > 0.0 then 1 else 0)
  }

  /** `compute_win_rate`: the share of strictly profitable entries, 0 for none. */
  function WinRate(profits: seq<real>): (r: real)
    ensures 0.0 <= r <= 1.0
    ensures |profits| == 0 ==> r == 0.0
  {
    if |profits| == 0 then 0.0
    else
      var n := |profits| as real;
      var w := Wins(profits) as real;
      Series.QuotientFacts(w, n);
      Series.QuotientFacts(n - w, n);
      Series.QuotientFacts(n, n);
      w / n
  }

  /** Positions below `n` whose profit is strictly positive. */
  function WinnersBelow(profits: seq<real>, n: nat): set<int>
    requires n <= |profits|
  {
    set i | 0 <= i < n && profits[i] > 0.0
  }

  /** Extending the prefix by one position adds that position exactly when it wins. */
  lemma WinnersStep(profits: seq<real>, n: nat)
    requires 0 < n <= |profits|
    ensures |WinnersBelow(profits, n)| == |WinnersBelow(profits, n - 1)| + (if profits[n - 1] > 0.0 then 1 else 0)
  {
    if profits[n - 1] > 0.0 {
      assert WinnersBelow(profits, n) == WinnersBelow(profits, n - 1) + {n - 1};
    } else {
      assert WinnersBelow(profits, n) == WinnersBelow(profits, n - 1);
    }
  }

  /** The win count of a prefix is the number of winners in it. */
  lemma {:induction false} WinsOfPrefix(profits: seq<real>, n: nat)
    requires n <= |profits|
    ensures Wins(profits[..n]) == |WinnersBelow(profits, n)|
  {
    if n > 0 {
      assert profits[..n][..n - 1] == profits[..n - 1];
      WinsOfPrefix(profits, n - 1);
      WinnersStep(profits, n);
    }
  }

  /** The win count is the size of the set of winning positions. */
  lemma WinsCountsWinners(profits: seq<real>)
    ensures Wins(profits) == |set i | 0 <= i < |profits| && profits[i] > 0.0|
  {
    assert profits[..|profits|] == profits;
    WinsOfPrefix(profits, |profits|);
  }

  /** With no winner the count is 0, with only winners it is the length. */
  lemma {:induction false} WinsExtremes(profits: seq<real>)
    ensures (forall i :: 0 <= i < |profits| ==> profits[i] <= 0.0) ==> Wins(profits) == 0
    ensures (forall i :: 0 <= i < |profits| ==> profits[i] > 0.0) ==> Wins(profits) == |profits|
  {
    if |profits| > 0 {
      var init := profits[..|profits| - 1];
      assert forall i :: 0 <= i < |init| ==> init[i] == profits[i];
      WinsExtremes(init);
    }
  }

  /** The win rate is the share of winners: times the count it gives the number of winners. */
  lemma WinRateTimesCount(profits: seq<real>)
    requires |profits| > 0
    ensures WinRate(profits) * |profits| as real == Wins(profits) as real
  {
    Share(WinRate(profits), Wins(profits) as real, |profits| as real);
  }

  /** A quotient by a positive count, multiplied back. */
  lemma Share(r: real, w: real, n: real)
    requires n > 0.0 && r == w / n
    ensures r * n == w
  {
    Series.QuotientFacts(w, n);
  }

  /** All winners give a win rate of 1, no winner gives 0. */
  lemma WinRateExtremes(profits: seq<real>)
    ensures (forall i :: 0 <= i < |profits| ==> profits[i] <= 0.0) ==> WinRate(profits) == 0.0
    ensures |profits| > 0 && (forall i :: 0 <= i < |profits| ==> profits[i] > 0.0) ==> WinRate(profits) == 1.0
  {
    WinsExtremes(profits);
    if |profits| > 0 {
      WinRateTimesCount(profits);
      if forall i :: 0 <= i < |profits| ==> profits[i] > 0.0 {
        Series.CancelPositive(WinRate(profits), 1.0, |profits| as real);
      }
      if forall i :: 0 <= i < |profits| ==> profits[i] <= 0.0 {
        Series.CancelPositive(WinRate(profits), 0.0, |profits| as real);
      }
    }
  }

  /** A falling curve: 100, 120, 90, 150, 60 has its worst fall from 150 to 60. */
  lemma DrawdownScenario()
    ensures MaxDrawdown([100.0, 120.0, 90.0, 150.0, 60.0]) == 0.6
    ensures MaxDrawdown([]) == 0.0
  {
    var e := [100.0, 120.0, 90.0, 150.0, 60.0];
    assert Peak(e, 0) == 100.0;
    assert Peak(e, 1) == 120.0;
    assert Peak(e, 2) == 120.0;
    assert Peak(e, 3) == 150.0;
    assert Peak(e, 4) == 150.0;
    assert DrawdownAt(e, 2) == 0.25;
    assert DrawdownAt(e, 4) == 0.6;
    assert DrawdownAt(e, 0) == 0.0 && DrawdownAt(e, 1) == 0.0 && DrawdownAt(e, 3) == 0.0;
    assert MaxDrawdownOver(e, 3) == 0.25;
    assert MaxDrawdownOver(e, 5) == 0.6;
  }
}

=== FILE: data.dfy ===
/**
 * Price samples and their resampling into epoch-aligned buckets that keep the latest sample
 * of each bucket (src/data.rs). Timestamps are whole seconds since the Unix epoch.
 */
module Data {
  import opened Wrappers

  datatype Sample = Sample(ts: int, price: real)

  const SecondsPerHour: int := 3600

  /** Start of the `step`-second bucket holding `t`; Dafny's `/` on int is `div_euclid`. */
  function BucketStart(t: int, step: int): (b: int)
    requires step > 0
    ensures b <= t < b + step
  {
    (t / step) * step
  }

  /** Multiplying by a positive step keeps the order of bucket indices, with a full step between. */
  lemma StepOrder(a: int, b: int, step: int)
    requires step > 0
    ensures a < b <==> a * step < b * step
    ensures a < b ==> a * step + step <= b * step
  {
    if a < b {
      var d := b - a;
      NonNegativeProduct(d - 1, step);
      assert b * step == a * step + (d - 1) * step + step;
    } else {
      NonNegativeProduct(a - b, step);
      assert a * step == b * step + (a - b) * step;
    }
  }

  lemma NonNegativeProduct(x: int, y: int)
    requires x >= 0 && y >= 0
    ensures x * y >= 0
  {
  }

  /** The bucket of `t` is the multiple `q * step` whose step-long interval holds `t`. */
  lemma BucketStartUnique(t: int, step: int, q: int)
    requires step > 0 && q * step <= t < q * step + step
    ensures BucketStart(t, step) == q * step
  {
    var p := t / step;
    StepOrder(q, p, step);
    StepOrder(p, q, step);
  }

  /** Distinct buckets lie a whole step apart. */
  lemma BucketsApart(t: int, u: int, step: int)
    requires step > 0 && BucketStart(t, step) < BucketStart(u, step)
    ensures BucketStart(t, step) + step <= BucketStart(u, step)
    ensures t < u
  {
    StepOrder(t / step, u / step, step);
  }

  /** One ordered-map entry: the bucket start and the latest sample seen for it. */
  datatype Bucket = Bucket(start: int, last: Sample)

  /** The entries are ordered by strictly increasing bucket start, like the source's `BTreeMap`. */
  predicate StrictlyOrdered(bs: seq<Bucket>)
  {
    forall i, j :: 0 <= i < j < |bs| ==> bs[i].start < bs[j].start
  }

  /** The sample stored under `start`, if any. */
  function Find(bs: seq<Bucket>, start: int): Option<Sample>
  {
    if |bs| == 0 then None
    else if bs[0].start == start then Some(bs[0].last)
    else Find(bs[1..], start)
  }

  /**
   * `entry(start).and_modify(..).or_insert(s)`: a new bucket gets `s`; an existing one is replaced
   * only by a strictly later sample.
   */
  function Upsert(bs: seq<Bucket>, start: int, s: Sample): (r: seq<Bucket>)
    ensures |bs| <= |r| <= |bs| + 1
  {
    if |bs| == 0 then [Bucket(start, s)]
    else if bs[0].start == start then
      (if s.ts > bs[0].last.ts then [Bucket(start, s)] else [bs[0]]) + bs[1..]
    else if start < bs[0].start then [Bucket(start, s)] + bs
    else [bs[0]] + Upsert(bs[1..], start, s)
  }

  /** The rule of the map entry: what `Find` reports for `start` after one `Upsert`. */
  function Merged(prev: Option<Sample>, s: Sample): Sample
  {
    if prev.None? || s.ts > prev.value.ts then s else prev.value
  }

  /** Every entry of an upserted map is an old entry or the new one, and the order is kept. */
  lemma UpsertShape(bs: seq<Bucket>, start: int, s: Sample)
    requires StrictlyOrdered(bs)
    ensures StrictlyOrdered(Upsert(bs, start, s))
    ensures forall b :: b in Upsert(bs, start, s) ==> b in bs || b == Bucket(start, s)
  {
    UpsertEntries(bs, start, s);
    UpsertOrdered(bs, start, s);
  }

  /** Every entry of an upserted map is an old entry or the new one. */
  lemma {:induction false} UpsertEntries(bs: seq<Bucket>, start: int, s: Sample)
    ensures forall b :: b in Upsert(bs, start, s) ==> b in bs || b == Bucket(start, s)
  {
    var r := Upsert(bs, start, s);
    if |bs| == 0 {
    } else if bs[0].start == start {
      forall b | b in r
        ensures b in bs || b == Bucket(start, s)
      {
        var k :| 0 <= k < |r| && r[k] == b;
        if k > 0 {
          assert b == bs[k];
        }
      }
    } else if start < bs[0].start {
      assert r == [Bucket(start, s)] + bs;
    } else {
      var tail := bs[1..];
      UpsertEntries(tail, start, s);
      var rest := Upsert(tail, start, s);
      assert r == [bs[0]] + rest;
      forall b | b in r
        ensures b in bs || b == Bucket(start, s)
      {
        if b != bs[0] {
          assert b in rest;
          if b in tail {
            var k :| 0 <= k < |tail| && tail[k] == b;
            assert bs[k + 1] == b;
          }
        }
      }
    }
  }

  /** An upserted ordered map is still ordered. */
  lemma {:induction false} UpsertOrdered(bs: seq<Bucket>, start: int, s: Sample)
    requires StrictlyOrdered(bs)
    ensures StrictlyOrdered(Upsert(bs, start, s))
  {
    if |bs| > 0 {
      var tail := bs[1..];
      assert StrictlyOrdered(tail);
      if bs[0].start == start {
        TailAboveHead(bs);
        var x := if s.ts > bs[0].last.ts then Bucket(start, s) else bs[0];
        ConsOrdered(x, tail);
        assert Upsert(bs, start, s) == [x] + tail;
      } else if start < bs[0].start {
        TailAboveHead(bs);
        assert forall b :: b in bs ==> b == bs[0] || b in tail;
        ConsOrdered(Bucket(start, s), bs);
      } else {
        UpsertOrdered(tail, start, s);
        UpsertEntries(tail, start, s);
        TailAboveHead(bs);
        ConsOrdered(bs[0], Upsert(tail, start, s));
      }
    }
  }

  /** In an ordered map every entry after the first has a larger start. */
  lemma TailAboveHead(bs: seq<Bucket>)
    requires StrictlyOrdered(bs) && |bs| > 0
    ensures forall b :: b in bs[1..] ==> bs[0].start < b.start
  {
    forall b | b in bs[1..]
      ensures bs[0].start < b.start
    {
      var k :| 0 <= k < |bs[1..]| && bs[1..][k] == b;
      assert bs[k + 1] == b;
    }
  }

  /** An entry below every entry of an ordered map can go in front. */
  lemma ConsOrdered(x: Bucket, rest: seq<Bucket>)
    requires StrictlyOrdered(rest)
    requires forall b :: b in rest ==> x.start < b.start
    ensures StrictlyOrdered([x] + rest)
  {
    var r := [x] + rest;
    forall i, j | 0 <= i < j < |r|
      ensures r[i].start < r[j].start
    {
      assert r[j] == rest[j - 1];
      if i > 0 {
        assert r[i] == rest[i - 1];
      } else {
        assert r[j] in rest;
      }
    }
  }

  /** `Find` after `Upsert`: the key written follows `Merged`, every other key is unchanged. */
  lemma {:induction false} UpsertFind(bs: seq<Bucket>, start: int, s: Sample, key: int)
    requires StrictlyOrdered(bs)
    ensures Find(Upsert(bs, start, s), key) ==
      if key == start then Some(Merged(Find(bs, start), s)) else Find(bs, key)
  {
    if |bs| == 0 {
    } else if bs[0].start == start {
      var r := Upsert(bs, start, s);
      assert r[1..] == bs[1..];
    } else if start < bs[0].start {
      var r := Upsert(bs, start, s);
      assert r[1..] == bs;
      if key == start {
        FindBelowFirstIsNone(bs, start);
      }
    } else {
      var tail := bs[1..];
      assert StrictlyOrdered(tail);
      UpsertFind(tail, start, s, key);
      var r := Upsert(bs, start, s);
      assert r[1..] == Upsert(tail, start, s);
    }
  }

  /** A key below the first start of an ordered map is absent. */
  lemma {:induction false} FindBelowFirstIsNone(bs: seq<Bucket>, key: int)
    requires StrictlyOrdered(bs) && |bs| > 0 && key < bs[0].start
    ensures Find(bs, key).None?
  {
    if |bs| > 1 {
      var tail := bs[1..];
      assert StrictlyOrdered(tail);
      assert bs[0].start < bs[1].start;
      FindBelowFirstIsNone(tail, key);
    }
  }

  /** A present key names an entry of the map. */
  lemma {:induction false} FindIsEntry(bs: seq<Bucket>, key: int)
    requires Find(bs, key).Some?
    ensures Bucket(key, Find(bs, key).value) in bs
  {
    if bs[0].start != key {
      FindIsEntry(bs[1..], key);
    }
  }

  /** Every entry is found under its own start. */
  lemma {:induction false} EntryIsFound(bs: seq<Bucket>, i: nat)
    requires StrictlyOrdered(bs) && i < |bs|
    ensures Find(bs, bs[i].start) == Some(bs[i].last)
  {
    if i > 0 {
      assert bs[0].start < bs[i].start;
      assert StrictlyOrdered(bs[1..]);
      EntryIsFound(bs[1..], i - 1);
    }
  }

  /** The map after feeding `samples` in order. */
  function Buckets(samples: seq<Sample>, step: int): (bs: seq<Bucket>)
    requires step > 0
    ensures |bs| <= |samples|
  {
    if |samples| == 0 then []
    else
      var s := samples[|samples| - 1];
      Upsert(Buckets(samples[..|samples| - 1], step), BucketStart(s.ts, step), s)
  }

  /** The source's `resample_to_close`: the kept samples in bucket order. */
  function ResampleToClose(samples: seq<Sample>, step: int): (out: seq<Sample>)
    requires step > 0
    ensures |out| <= |samples|
    ensures |samples| == 0 ==> out == []
  {
    var bs := Buckets(samples, step);
    seq(|bs|, i requires 0 <= i < |bs| => bs[i].last)
  }

  /** `resample_to_n_hours`; the source asserts a positive hour count. */
  function ResampleToNHours(samples: seq<Sample>, hours: int): (out: seq<Sample>)
    requires hours > 0
    ensures |out| <= |samples|
  {
    ResampleToClose(samples, hours * SecondsPerHour)
  }

  function ResampleToHourly(samples: seq<Sample>): (out: seq<Sample>)
    ensures |out| <= |samples|
  {
    ResampleToNHours(samples, 1)
  }

  /** `samples[k]` lies in the bucket starting at `key`. */
  predicate InBucket(samples: seq<Sample>, step: int, k: int, key: int)
    requires step > 0
  {
    0 <= k < |samples| && BucketStart(samples[k].ts, step) == key
  }

  /**
   * `samples[k]` is the sample the resampler keeps for bucket `key`: in the bucket, no sample
   * of the bucket is later, and among equally late ones it came first.
   */
  predicate IsKept(samples: seq<Sample>, step: int, key: int, k: int)
    requires step > 0
  {
    && InBucket(samples, step, k, key)
    && forall j :: 0 <= j < |samples| && InBucket(samples, step, j, key) ==>
         samples[j].ts < samples[k].ts || (samples[j].ts == samples[k].ts && k <= j)
  }

  /** Every stored entry sits under the bucket of its own sample and the order is strict. */
  lemma {:induction false} BucketsWellFormed(samples: seq<Sample>, step: int)
    requires step > 0
    ensures StrictlyOrdered(Buckets(samples, step))
    ensures forall b :: b in Buckets(samples, step) ==> b.start == BucketStart(b.last.ts, step)
  {
    if |samples| > 0 {
      var init := samples[..|samples| - 1];
      var s := samples[|samples| - 1];
      BucketsWellFormed(init, step);
      UpsertShape(Buckets(init, step), BucketStart(s.ts, step), s);
    }
  }

  /** A sample appended in another bucket leaves the kept sample of `key` as it was. */
  lemma KeptPastOtherBucket(samples: seq<Sample>, step: int, key: int, k: int)
    requires step > 0 && |samples| > 0
    requires BucketStart(samples[|samples| - 1].ts, step) != key
    requires IsKept(samples[..|samples| - 1], step, key, k)
    ensures IsKept(samples, step, key, k)
  {
    var init := samples[..|samples| - 1];
    assert forall j :: 0 <= j < |init| ==> samples[j] == init[j];
    assert forall j :: InBucket(samples, step, j, key) ==> InBucket(init, step, j, key);
  }

  /** An appended sample strictly later than everything in its bucket so far becomes the kept one. */
  lemma KeptLaterSample(samples: seq<Sample>, step: int, key: int, bound: Option<Sample>)
    requires step > 0 && |samples| > 0
    requires BucketStart(samples[|samples| - 1].ts, step) == key
    requires bound.Some? ==> bound.value.ts < samples[|samples| - 1].ts
    requires forall j :: 0 <= j < |samples| - 1 && InBucket(samples, step, j, key) ==>
      bound.Some? && samples[j].ts <= bound.value.ts
    ensures IsKept(samples, step, key, |samples| - 1)
  {
  }

  /** An appended sample no later than the kept sample of its bucket changes nothing. */
  lemma KeptEarlierSample(samples: seq<Sample>, step: int, key: int, k: int)
    requires step > 0 && |samples| > 0
    requires IsKept(samples[..|samples| - 1], step, key, k)
    requires samples[|samples| - 1].ts <= samples[k].ts
    ensures IsKept(samples, step, key, k)
  {
    var init := samples[..|samples| - 1];
    assert forall j :: 0 <= j < |init| ==> samples[j] == init[j];
    assert forall j :: 0 <= j < |init| && InBucket(samples, step, j, key) ==> InBucket(init, step, j, key);
  }

  /** The map holds a bucket exactly when some sample falls in it. */
  lemma {:induction false} BucketsHoldSampledBuckets(samples: seq<Sample>, step: int, key: int)
    requires step > 0
    ensures Find(Buckets(samples, step), key).None? <==>
      forall j :: 0 <= j < |samples| ==> BucketStart(samples[j].ts, step) != key
  {
    if |samples| > 0 {
      var n := |samples| - 1;
      BucketsHoldSampledBuckets(samples[..n], step, key);
      HoldStep(samples, step, key);
    }
  }

  /** One appended sample: the claim for `samples` from the claim for all but its last sample. */
  lemma HoldStep(samples: seq<Sample>, step: int, key: int)
    requires step > 0 && |samples| > 0
    requires var init := samples[..|samples| - 1];
      Find(Buckets(init, step), key).None? <==> forall j :: 0 <= j < |init| ==> BucketStart(init[j].ts, step) != key
    ensures Find(Buckets(samples, step), key).None? <==>
      forall j :: 0 <= j < |samples| ==> BucketStart(samples[j].ts, step) != key
  {
    var n := |samples| - 1;
    var init := samples[..n];
    var s := samples[n];
    BucketsWellFormed(init, step);
    assert Buckets(samples, step) == Upsert(Buckets(init, step), BucketStart(s.ts, step), s);
    UpsertFind(Buckets(init, step), BucketStart(s.ts, step), s, key);
    OutsideBucketSplit(samples, init, step, key);
  }

  /** No sample falls in `key` exactly when none of the earlier ones does and the last one does not. */
  lemma OutsideBucketSplit(samples: seq<Sample>, init: seq<Sample>, step: int, key: int)
    requires step > 0 && |samples| > 0 && init == samples[..|samples| - 1]
    ensures (forall j :: 0 <= j < |samples| ==> BucketStart(samples[j].ts, step) != key) <==>
      (forall j :: 0 <= j < |init| ==> BucketStart(init[j].ts, step) != key)
      && BucketStart(samples[|samples| - 1].ts, step) != key
  {
    assert forall j :: 0 <= j < |init| ==> samples[j] == init[j];
  }

  /**
   * One more sample: if `before` was the kept sample of `key` (or absent), the merged entry is
   * the kept sample of `key` after the append.
   */
  lemma KeepLatestStep(samples: seq<Sample>, step: int, key: int, k0: int, before: Option<Sample>) returns (k: int)
    requires step > 0 && |samples| > 0
    requires before.Some? ==>
      IsKept(samples[..|samples| - 1], step, key, k0) && before == Some(samples[..|samples| - 1][k0])
    requires before.None? ==> var init := samples[..|samples| - 1];
      forall j :: 0 <= j < |init| ==> BucketStart(init[j].ts, step) != key
    ensures var s := samples[|samples| - 1];
      var after := if BucketStart(s.ts, step) == key then Some(Merged(before, s)) else before;
      after.Some? ==> IsKept(samples, step, key, k) && after == Some(samples[k])
  {
    var n := |samples| - 1;
    var init := samples[..n];
    var s := samples[n];
    k := k0;
    assert forall j :: 0 <= j < n ==> samples[j] == init[j];
    if BucketStart(s.ts, step) != key {
      if before.Some? {
        KeptPastOtherBucket(samples, step, key, k);
      }
    } else if before.None? || s.ts > before.value.ts {
      k := n;
      if before.Some? {
        assert forall j :: 0 <= j < n && InBucket(samples, step, j, key) ==> InBucket(init, step, j, key);
      }
      KeptLaterSample(samples, step, key, before);
    } else {
      KeptEarlierSample(samples, step, key, k);
    }
  }

  /** A bucket held by the map holds the kept sample of that bucket. */
  lemma {:induction false} BucketsKeepLatest(samples: seq<Sample>, step: int, key: int) returns (k: int)
    requires step > 0
    ensures Find(Buckets(samples, step), key).None? <==>
      forall j :: 0 <= j < |samples| ==> BucketStart(samples[j].ts, step) != key
    ensures Find(Buckets(samples, step), key).Some? ==>
      IsKept(samples, step, key, k) && Find(Buckets(samples, step), key) == Some(samples[k])
  {
    BucketsHoldSampledBuckets(samples, step, key);
    k := 0;
    if |samples| > 0 {
      var n := |samples| - 1;
      var init := samples[..n];
      var s := samples[n];
      var k0 := BucketsKeepLatest(init, step, key);
      BucketsWellFormed(init, step);
      UpsertFind(Buckets(init, step), BucketStart(s.ts, step), s, key);
      k := KeepLatestStep(samples, step, key, k0, Find(Buckets(init, step), key));
    }
  }

  /** The resampled series visits buckets in increasing order, one sample per bucket. */
  lemma ResampledBucketsIncrease(samples: seq<Sample>, step: int, i: int, j: int)
    requires step > 0
    requires 0 <= i < j < |ResampleToClose(samples, step)|
    ensures var out := ResampleToClose(samples, step);
      BucketStart(out[i].ts, step) < BucketStart(out[j].ts, step) && out[i].ts < out[j].ts
  {
    var bs := Buckets(samples, step);
    BucketsWellFormed(samples, step);
    assert bs[i] in bs && bs[j] in bs;
    assert bs[i].start < bs[j].start;
    BucketsApart(bs[i].last.ts, bs[j].last.ts, step);
  }

  /** Every output sample is one of the inputs, and it is the kept sample of its bucket. */
  lemma ResampledSampleIsKept(samples: seq<Sample>, step: int, i: int) returns (k: int)
    requires step > 0
    requires 0 <= i < |ResampleToClose(samples, step)|
    ensures var out := ResampleToClose(samples, step);
      0 <= k < |samples| && out[i] == samples[k] && IsKept(samples, step, BucketStart(out[i].ts, step), k)
  {
    var bs := Buckets(samples, step);
    BucketsWellFormed(samples, step);
    assert bs[i] in bs;
    EntryIsFound(bs, i);
    k := BucketsKeepLatest(samples, step, bs[i].start);
  }

  /** Every input sample's bucket appears in the output, carrying a sample no earlier than it. */
  lemma EverySampleIsCovered(samples: seq<Sample>, step: int, j: int) returns (i: int)
    requires step > 0
    requires 0 <= j < |samples|
    ensures var out := ResampleToClose(samples, step);
      0 <= i < |out| && BucketStart(out[i].ts, step) == BucketStart(samples[j].ts, step)
      && samples[j].ts <= out[i].ts
  {
    var bs := Buckets(samples, step);
    var key := BucketStart(samples[j].ts, step);
    BucketsWellFormed(samples, step);
    var k := BucketsKeepLatest(samples, step, key);
    assert InBucket(samples, step, j, key);
    FindIsEntry(bs, key);
    var e := Bucket(key, samples[k]);
    i :| 0 <= i < |bs| && bs[i] == e;
  }

  /** Seconds of 2025-11-28 00:00:00 UTC, the day the unit tests use. */
  const TestDay: int := 1764288000

  /** A sample at `h:m:s` on the test day. */
  function At(h: int, m: int, s: int, price: real): Sample
  {
    Sample(TestDay + h * 3600 + m * 60 + s, price)
  }

  /** Empty, single-sample and same-hour inputs. */
  lemma HourlyScenarios()
    ensures ResampleToHourly([]) == []
    ensures ResampleToHourly([At(10, 15, 0, 100.0)]) == [At(10, 15, 0, 100.0)]
    ensures ResampleToHourly([At(10, 5, 0, 100.0), At(10, 30, 0, 101.0), At(10, 59, 59, 102.0)])
      == [At(10, 59, 59, 102.0)]
  {
    var s0 := At(10, 15, 0, 100.0);
    var s1, s2, s3 := At(10, 5, 0, 100.0), At(10, 30, 0, 101.0), At(10, 59, 59, 102.0);
    var h10 := 490090;
    BucketStartUnique(s0.ts, 3600, h10);
    BucketStartUnique(s1.ts, 3600, h10);
    BucketStartUnique(s2.ts, 3600, h10);
    BucketStartUnique(s3.ts, 3600, h10);
    assert [s0][..0] == [];
    assert Buckets([s0], 3600) == [Bucket(h10 * 3600, s0)];
    var all := [s1, s2, s3];
    assert all[..1] == [s1] && all[..2] == [s1, s2] && all[..2][..1] == [s1] && [s1][..0] == [];
    assert Buckets([s1], 3600) == [Bucket(h10 * 3600, s1)];
    assert Buckets([s1, s2], 3600) == [Bucket(h10 * 3600, s2)];
    assert Buckets(all, 3600) == [Bucket(h10 * 3600, s3)];
  }

  /** Two hours, including a sample exactly on the hour boundary. */
  lemma TwoHourScenario()
    ensures ResampleToHourly([At(10, 5, 0, 100.0), At(10, 55, 0, 101.0), At(11, 0, 0, 200.0), At(11, 45, 0, 201.0)])
      == [At(10, 55, 0, 101.0), At(11, 45, 0, 201.0)]
  {
    var s1, s2, s3, s4 := At(10, 5, 0, 100.0), At(10, 55, 0, 101.0), At(11, 0, 0, 200.0), At(11, 45, 0, 201.0);
    var h10, h11 := 490090, 490091;
    BucketStartUnique(s1.ts, 3600, h10);
    BucketStartUnique(s2.ts, 3600, h10);
    BucketStartUnique(s3.ts, 3600, h11);
    BucketStartUnique(s4.ts, 3600, h11);
    var all := [s1, s2, s3, s4];
    assert all[..3] == [s1, s2, s3] && [s1, s2, s3][..2] == [s1, s2] && [s1, s2][..1] == [s1] && [s1][..0] == [];
    assert Buckets([s1], 3600) == [Bucket(h10 * 3600, s1)];
    assert Buckets([s1, s2], 3600) == [Bucket(h10 * 3600, s2)];
    var a, b := Bucket(h10 * 3600, s2), Bucket(h11 * 3600, s3);
    assert [a][1..] == [] && [a, b][1..] == [b] && [b][1..] == [];
    assert [s1, s2, s3][..2] == [s1, s2];
    assert Upsert([], h11 * 3600, s3) == [b];
    assert Upsert([a], h11 * 3600, s3) == [a, b];
    assert Buckets([s1, s2, s3], 3600) == [a, b];
    assert Upsert([b], h11 * 3600, s4) == [Bucket(h11 * 3600, s4)];
    assert Upsert([a, b], h11 * 3600, s4) == [a, Bucket(h11 * 3600, s4)];
    assert Buckets(all, 3600) == [a, Bucket(h11 * 3600, s4)];
  }

  /** Two-hour buckets: 10:00-11:59 keeps its 11:59:59 sample. */
  lemma TwoHourBucketScenario()
    ensures var out := ResampleToNHours([At(10, 5, 0, 100.0), At(10, 30, 0, 101.0), At(10, 59, 59, 103.0),
      At(11, 59, 59, 104.0), At(13, 59, 59, 102.0), At(15, 59, 59, 102.0)], 2);
      |out| == 3 && out[0] == At(11, 59, 59, 104.0)
  {
    var s1, s2, s3 := At(10, 5, 0, 100.0), At(10, 30, 0, 101.0), At(10, 59, 59, 103.0);
    var s4, s5, s6 := At(11, 59, 59, 104.0), At(13, 59, 59, 102.0), At(15, 59, 59, 102.0);
    var b10, b12, b14 := 245045, 245046, 245047;
    BucketStartUnique(s1.ts, 7200, b10);
    BucketStartUnique(s2.ts, 7200, b10);
    BucketStartUnique(s3.ts, 7200, b10);
    BucketStartUnique(s4.ts, 7200, b10);
    BucketStartUnique(s5.ts, 7200, b12);
    BucketStartUnique(s6.ts, 7200, b14);
    var all := [s1, s2, s3, s4, s5, s6];
    assert all[..5] == [s1, s2, s3, s4, s5] && [s1, s2, s3, s4, s5][..4] == [s1, s2, s3, s4];
    assert [s1, s2, s3, s4][..3] == [s1, s2, s3] && [s1, s2, s3][..2] == [s1, s2];
    assert [s1, s2][..1] == [s1] && [s1][..0] == [];
    var first := Bucket(b10 * 7200, s1);
    assert Buckets([s1], 7200) == [first];
    assert Buckets([s1, s2], 7200) == [Bucket(b10 * 7200, s2)];
    assert Buckets([s1, s2, s3], 7200) == [Bucket(b10 * 7200, s3)];
    assert Buckets([s1, s2, s3, s4], 7200) == [Bucket(b10 * 7200, s4)];
    var a, b := Bucket(b10 * 7200, s4), Bucket(b12 * 7200, s5);
    assert [a][1..] == [] && [a, b][1..] == [b] && [b][1..] == [];
    assert Upsert([], b12 * 7200, s5) == [b];
    assert Upsert([a], b12 * 7200, s5) == [a, b];
    assert Buckets([s1, s2, s3, s4, s5], 7200) == [a, b];
    var c := Bucket(b14 * 7200, s6);
    assert [b, c][1..] == [c];
    assert Upsert([], b14 * 7200, s6) == [c];
    assert Upsert([b], b14 * 7200, s6) == [b, c];
    assert Upsert([a, b], b14 * 7200, s6) == [a, b, c];
    assert Buckets(all, 7200) == [Bucket(b10 * 7200, s4), Bucket(b12 * 7200, s5), Bucket(b14 * 7200, s6)];
  }
}

=== FILE: patterns.dfy ===
/** Candle-pattern predicates over a price slice (src/patterns.rs). */
module Patterns {
  import opened Series

  /** Relative margin that keeps an exact tie from counting as a breakout or breakdown. */
  const Epsilon: real := 0.000001

  /** The `lookback` prices immediately before the last one; the last price is never part of it. */
  function ReferenceWindow(prices: seq<real>, lookback: nat): (w: seq<real>)
    requires |prices| >= lookback + 1
    ensures |w| == lookback
    ensures forall i :: 0 <= i < lookback ==> w[i] == prices[|prices| - 1 - lookback + i]
  {
    prices[|prices| - 1 - lookback .. |prices| - 1]
  }

  function Last(prices: seq<real>): real
    requires |prices| > 0
  {
    prices[|prices| - 1]
  }

  /**
   * Breakout above the recent high. With `lookback == 0` the window is empty and the
   * source folds from negative infinity, so any last price breaks out.
   */
  function IsBreakoutAboveRecentHigh(prices: seq<real>, lookback: nat): (r: bool)
    ensures r ==> |prices| >= lookback + 1
    ensures |prices| >= lookback + 1 ==>
      (r <==> forall i :: |prices| - 1 - lookback <= i < |prices| - 1 ==>
                Last(prices) > prices[i] * (1.0 + Epsilon))
  {
    if |prices| < lookback + 1 then false
    else
      var window := ReferenceWindow(prices, lookback);
      if |window| == 0 then true
      else
        MaxIsElement(window);
        Last(prices) > Max(window) * (1.0 + Epsilon)
  }

  /** Breakdown below the recent low: the mirror of the breakout with `1 - Epsilon`. */
  function IsBreakdownBelowRecentLow(prices: seq<real>, lookback: nat): (r: bool)
    ensures r ==> |prices| >= lookback + 1
    ensures |prices| >= lookback + 1 ==>
      (r <==> forall i :: |prices| - 1 - lookback <= i < |prices| - 1 ==>
                Last(prices) < prices[i] * (1.0 - Epsilon))
  {
    if |prices| < lookback + 1 then false
    else
      var window := ReferenceWindow(prices, lookback);
      if |window| == 0 then true
      else
        MinIsElement(window);
        Last(prices) < Min(window) * (1.0 - Epsilon)
  }

  /**
   * Pullback to the short SMA and bounce over the last three closes `p2, p1, p0`:
   * above the SMA, a dip to within `tol` above it (inclusive), then back above it.
   */
  function IsPullbackToSmaShortAndBounce(prices: seq<real>, smaShort: real, tol: real): (r: bool)
    ensures r ==> |prices| >= 3
    ensures r ==> var n := |prices|;
      && prices[n - 2] < prices[n - 3] && prices[n - 2] < prices[n - 1]
      && prices[n - 3] > smaShort && prices[n - 1] > smaShort
      && prices[n - 2] <= smaShort * (1.0 + tol)
    ensures |prices| >= 3 ==> var n := |prices|;
      (&& prices[n - 2] < prices[n - 3] && prices[n - 2] < prices[n - 1]
       && prices[n - 3] > smaShort && prices[n - 1] > smaShort
       && prices[n - 2] <= smaShort * (1.0 + tol)) ==> r
  {
    if |prices| < 3 then false
    else
      var n := |prices|;
      var p2, p1, p0 := prices[n - 3], prices[n - 2], prices[n - 1];
      var wasAbove := p2 > smaShort;
      var pulledBackNear := p1 < p2 && p1 <= smaShort * (1.0 + tol);
      var bounced := p0 > smaShort && p0 > p1;
      wasAbove && pulledBackNear && bounced
  }

  /**
   * Pullback up to the short SMA and rejection: below the SMA, a rise to within `tol`
   * below it (inclusive), then back below it.
   */
  function IsPullbackToSmaShortAndRejectDown(prices: seq<real>, smaShort: real, tol: real): (r: bool)
    ensures r ==> |prices| >= 3
    ensures r ==> var n := |prices|;
      && prices[n - 2] > prices[n - 3] && prices[n - 2] > prices[n - 1]
      && prices[n - 3] < smaShort && prices[n - 1] < smaShort
      && prices[n - 2] >= smaShort * (1.0 - tol)
    ensures |prices| >= 3 ==> var n := |prices|;
      (&& prices[n - 2] > prices[n - 3] && prices[n - 2] > prices[n - 1]
       && prices[n - 3] < smaShort && prices[n - 1] < smaShort
       && prices[n - 2] >= smaShort * (1.0 - tol)) ==> r
  {
    if |prices| < 3 then false
    else
      var n := |prices|;
      var p2, p1, p0 := prices[n - 3], prices[n - 2], prices[n - 1];
      var wasBelow := p2 < smaShort;
      var pulledBackNear := p1 > p2 && p1 >= smaShort * (1.0 - tol);
      var rejected := p0 < smaShort && p0 < p1;
      wasBelow && pulledBackNear && rejected
  }

  /** Prices older than the reference window never change a breakout or breakdown. */
  lemma BreakoutIgnoresOlderPrices(older: seq<real>, prices: seq<real>, lookback: nat)
    requires |prices| >= lookback + 1
    ensures IsBreakoutAboveRecentHigh(older + prices, lookback) == IsBreakoutAboveRecentHigh(prices, lookback)
    ensures IsBreakdownBelowRecentLow(older + prices, lookback) == IsBreakdownBelowRecentLow(prices, lookback)
  {
    var all := older + prices;
    assert ReferenceWindow(all, lookback) == ReferenceWindow(prices, lookback);
    assert Last(all) == Last(prices);
  }

  /**
   * A non-negative last price equal to (or below) some price of the window is never a
   * breakout; equal to (or above) some window price is never a breakdown.
   */
  lemma TieIsNeitherBreakoutNorBreakdown(prices: seq<real>, lookback: nat, k: nat)
    requires |prices| >= lookback + 1
    requires |prices| - 1 - lookback <= k < |prices| - 1
    requires Last(prices) >= 0.0
    ensures Last(prices) <= prices[k] ==> !IsBreakoutAboveRecentHigh(prices, lookback)
    ensures Last(prices) >= prices[k] ==> !IsBreakdownBelowRecentLow(prices, lookback)
  {
    if Last(prices) <= prices[k] {
      assert prices[k] * (1.0 + Epsilon) >= prices[k];
    }
    if Last(prices) >= prices[k] {
      assert prices[k] * (1.0 - Epsilon) <= Last(prices) * (1.0 - Epsilon) <= Last(prices);
    }
  }

  /** Only the last three prices decide a pullback bounce or rejection. */
  lemma PullbackUsesOnlyLastThree(older: seq<real>, prices: seq<real>, smaShort: real, tol: real)
    requires |prices| >= 3
    ensures IsPullbackToSmaShortAndBounce(older + prices, smaShort, tol)
         == IsPullbackToSmaShortAndBounce(prices[|prices| - 3..], smaShort, tol)
    ensures IsPullbackToSmaShortAndRejectDown(older + prices, smaShort, tol)
         == IsPullbackToSmaShortAndRejectDown(prices[|prices| - 3..], smaShort, tol)
  {
    var all := older + prices;
    var n := |all|;
    var m := |prices|;
    assert all[n - 3] == prices[m - 3] && all[n - 2] == prices[m - 2] && all[n - 1] == prices[m - 1];
  }

  /**
   * Given the other shape conditions, the dip bounces exactly when it reaches no higher than
   * `sma*(1+tol)`: the bound is inclusive, and a dip exactly to it still counts.
   */
  lemma BounceToleranceInclusive(p2: real, p1: real, p0: real, smaShort: real, tol: real)
    requires p2 > smaShort && p1 < p2 && p0 > smaShort && p0 > p1
    ensures p1 <= smaShort * (1.0 + tol) <==> IsPullbackToSmaShortAndBounce([p2, p1, p0], smaShort, tol)
    ensures p1 == smaShort * (1.0 + tol) ==> IsPullbackToSmaShortAndBounce([p2, p1, p0], smaShort, tol)
    ensures p1 > smaShort * (1.0 + tol) ==> !IsPullbackToSmaShortAndBounce([p2, p1, p0], smaShort, tol)
  {
  }

  /** Given the other shape conditions, the rise rejects exactly when it reaches at least `sma*(1-tol)`. */
  lemma RejectToleranceInclusive(p2: real, p1: real, p0: real, smaShort: real, tol: real)
    requires p2 < smaShort && p1 > p2 && p0 < smaShort && p0 < p1
    ensures p1 >= smaShort * (1.0 - tol) <==> IsPullbackToSmaShortAndRejectDown([p2, p1, p0], smaShort, tol)
    ensures p1 == smaShort * (1.0 - tol) ==> IsPullbackToSmaShortAndRejectDown([p2, p1, p0], smaShort, tol)
    ensures p1 < smaShort * (1.0 - tol) ==> !IsPullbackToSmaShortAndRejectDown([p2, p1, p0], smaShort, tol)
  {
  }

  /** For the same slice and SMA a bounce and a rejection exclude each other, whatever the tolerances. */
  lemma BounceAndRejectExclusive(prices: seq<real>, smaShort: real, bounceTol: real, rejectTol: real)
    ensures !(IsPullbackToSmaShortAndBounce(prices, smaShort, bounceTol)
              && IsPullbackToSmaShortAndRejectDown(prices, smaShort, rejectTol))
  {
  }

  /** The unit-test scenarios: older extremes outside the window are ignored, and the last price is excluded. */
  lemma WindowScenarios()
    ensures IsBreakoutAboveRecentHigh([200.0, 90.0, 95.0, 100.0, 101.0], 3)
    ensures !IsBreakoutAboveRecentHigh([100.0, 102.0, 103.0, 103.0], 3)
    ensures IsBreakoutAboveRecentHigh([90.0, 95.0, 100.0, 105.0], 2)
    ensures IsBreakdownBelowRecentLow([50.0, 60.0, 55.0, 54.0, 53.0], 3)
    ensures !IsBreakdownBelowRecentLow([100.0, 98.0, 97.0, 97.0], 3)
    ensures !IsBreakdownBelowRecentLow([100.0, 99.0, 98.0, 98.000001], 3)
    ensures !IsBreakdownBelowRecentLow([100.0, 99.0], 5)
  {
    var a := [200.0, 90.0, 95.0, 100.0, 101.0];
    assert ReferenceWindow(a, 3) == [90.0, 95.0, 100.0];
    var b := [100.0, 102.0, 103.0, 103.0];
    assert ReferenceWindow(b, 3) == [100.0, 102.0, 103.0];
    var c := [90.0, 95.0, 100.0, 105.0];
    assert ReferenceWindow(c, 2) == [95.0, 100.0];
    var d := [50.0, 60.0, 55.0, 54.0, 53.0];
    assert ReferenceWindow(d, 3) == [60.0, 55.0, 54.0];
    var e := [100.0, 98.0, 97.0, 97.0];
    assert ReferenceWindow(e, 3) == [100.0, 98.0, 97.0];
    var f := [100.0, 99.0, 98.0, 98.000001];
    assert ReferenceWindow(f, 3) == [100.0, 99.0, 98.0];
  }
}

=== FILE: position.dfy ===
/**
 * The long/short position replay (src/backtest/position.rs): at most one open position, flipped
 * by an opposite signal, force-closed at the last sample. The decision engine is replaced by a
 * stream of signals, one per sample.
 */
module PositionBacktest {
  import opened Wrappers
  import opened Series
  import opened Common
  import Data
  import Sma

  datatype Side = Long | Short

  /** A Buy opens a long, a Sell a short. */
  function SideOf(s: Signal): (side: Side)
    ensures side == Long <==> s == Buy
    ensures side == Short <==> s == Sell
  {
    match s
    case Buy => Long
    case Sell => Short
  }

  /**
   * A position. `collateral` is the cash taken out of the account at entry; exit fields, profit
   * and return are filled in when it is closed.
   */
  datatype Position = Position(
    side: Side,
    entryTime: int,
    exitTime: Option<int>,
    entryPrice: real,
    exitPrice: Option<real>,
    size: real,
    profit: Option<real>,
    returnPct: Option<real>,
    collateral: real)

  /** What an open position is worth at `price`: the coins for a long, collateral plus P&L for a short. */
  function LiquidationValue(pos: Position, price: real): (v: real)
    ensures price <= 0.0 || pos.size <= 0.0 ==> v == 0.0
    ensures price > 0.0 && pos.size > 0.0 && pos.side == Long ==> v == pos.size * price
  {
    if price <= 0.0 || pos.size <= 0.0 then 0.0
    else
      match pos.side
      case Long => pos.size * price
      case Short => pos.collateral + (pos.entryPrice - price) * pos.size
  }

  /** A position as `open_position` creates it: positive price, size and collateral, not yet closed. */
  predicate Funded(pos: Position)
  {
    pos.entryPrice > 0.0 && pos.size > 0.0 && pos.collateral > 0.0
    && pos.exitPrice.None? && pos.profit.None?
  }

  /** The size is the collateral bought at the entry price. */
  predicate Sized(pos: Position)
  {
    pos.size * pos.entryPrice == pos.collateral
  }

  /** Profit of the move from entry to `exitPrice` in the position's direction. */
  function GrossPnl(pos: Position, exitPrice: real): real
  {
    match pos.side
    case Long => (exitPrice - pos.entryPrice) * pos.size
    case Short => (pos.entryPrice - exitPrice) * pos.size
  }

  /** Closes `pos` at `exitPrice`, recording the profit and the return on collateral. */
  function ClosePosition(pos: Position, exitPrice: real, exitTime: int): (c: Position)
    ensures c.side == pos.side && c.entryTime == pos.entryTime && c.entryPrice == pos.entryPrice
    ensures c.size == pos.size && c.collateral == pos.collateral
    ensures c.exitPrice == Some(exitPrice) && c.exitTime == Some(exitTime)
    ensures c.profit.Some? && c.returnPct.Some?
    ensures pos.collateral <= 0.0 ==> c.returnPct.value == 0.0
  {
    var profit := GrossPnl(pos, exitPrice);
    var ret := if pos.collateral > 0.0 then profit / pos.collateral else 0.0;
    pos.(exitPrice := Some(exitPrice), exitTime := Some(exitTime), profit := Some(profit), returnPct := Some(ret))
  }

  /** The recorded return is the profit per unit of collateral. */
  lemma ClosedReturn(pos: Position, exitPrice: real, exitTime: int)
    requires pos.collateral > 0.0
    ensures var c := ClosePosition(pos, exitPrice, exitTime);
      c.returnPct.value * pos.collateral == c.profit.value
  {
    QuotientFacts(GrossPnl(pos, exitPrice), pos.collateral);
  }

  /** `profit.unwrap_or(0.0)`. */
  function ProfitOrZero(pos: Position): real
  {
    if pos.profit.Some? then pos.profit.value else 0.0
  }

  /** What closing returns to the cash balance: the collateral plus the profit. */
  function Credit(pos: Position): real
  {
    pos.collateral + ProfitOrZero(pos)
  }

  /** The profit is the direction-signed price move times the size. */
  lemma ClosedProfit(pos: Position, exitPrice: real, exitTime: int)
    ensures var c := ClosePosition(pos, exitPrice, exitTime);
      && (pos.side == Long ==> ProfitOrZero(c) == (exitPrice - pos.entryPrice) * pos.size)
      && (pos.side == Short ==> ProfitOrZero(c) == (pos.entryPrice - exitPrice) * pos.size)
      && (pos.size > 0.0 ==> (ProfitOrZero(c) > 0.0 <==>
            (pos.side == Long && exitPrice > pos.entryPrice) || (pos.side == Short && exitPrice < pos.entryPrice)))
  {
    var d := exitPrice - pos.entryPrice;
    if pos.size > 0.0 {
      if d > 0.0 {
        assert d * pos.size > 0.0;
      } else if d < 0.0 {
        assert -d * pos.size > 0.0;
      }
    }
  }

  /**
   * Closing a funded position at a positive price credits exactly the value the equity curve
   * marked it at, so closing never moves equity.
   */
  lemma CloseCreditsLiquidationValue(pos: Position, price: real, ts: int)
    requires Funded(pos) && Sized(pos) && price > 0.0
    ensures Credit(ClosePosition(pos, price, ts)) == LiquidationValue(pos, price)
  {
  }

  /** A funded position is worth exactly its collateral at the entry price, on either side. */
  lemma LiquidationAtEntry(pos: Position)
    requires Funded(pos) && Sized(pos)
    ensures LiquidationValue(pos, pos.entryPrice) == pos.collateral
  {
  }

  /** A new position together with the cash left after its collateral was taken. */
  datatype Opened = Opened(pos: Position, cash: real)

  /**
   * `open_position`: no position for a non-positive price, cash or fraction; otherwise the
   * collateral `cash * frac` buys `collateral / price` units and leaves the account.
   */
  function OpenPosition(side: Side, price: real, ts: int, cash: real, frac: real): (r: Option<Opened>)
    ensures r.None? <==> price <= 0.0 || cash <= 0.0 || frac <= 0.0
    ensures r.Some? ==> Funded(r.value.pos) && r.value.pos.side == side
    ensures r.Some? ==> r.value.pos.entryPrice == price && r.value.pos.entryTime == ts
    ensures r.Some? ==> r.value.cash + r.value.pos.collateral == cash
  {
    if price <= 0.0 || cash <= 0.0 || frac <= 0.0 then None
    else
      var collateral := cash * frac;
      PositiveProduct(cash, frac);
      if collateral <= 0.0 then None
      else
        var size := collateral / price;
        QuotientFacts(collateral, price);
        if size <= 0.0 then None
        else Some(Opened(Position(side, ts, None, price, None, size, None, None, collateral), cash - collateral))
  }

  /**
   * The collateral is the fraction `frac` of the cash, the size buys it at the entry price, and a
   * fraction of at most one leaves no debt.
   */
  lemma OpenedSizing(side: Side, price: real, ts: int, cash: real, frac: real)
    requires OpenPosition(side, price, ts, cash, frac).Some?
    ensures OpenPosition(side, price, ts, cash, frac).value.pos.collateral == cash * frac
    ensures Sized(OpenPosition(side, price, ts, cash, frac).value.pos)
    ensures frac <= 1.0 ==> OpenPosition(side, price, ts, cash, frac).value.cash >= 0.0
  {
    assert price > 0.0 && cash > 0.0 && frac > 0.0;
    assert OpenPosition(side, price, ts, cash, frac).value.pos.collateral == cash * frac;
    QuotientTimes(OpenPosition(side, price, ts, cash, frac).value.pos.collateral, price,
                  OpenPosition(side, price, ts, cash, frac).value.pos.size);
    Leftover(cash, frac);
  }

  /** The replay state: cash, the open position, the closed positions and the equity curve. */
  datatype SimState = SimState(cash: real, open: Option<Position>, closed: seq<Position>, curve: seq<EquityPoint>)

  /** Cash plus the open position's liquidation value at `price`. */
  function MarkToMarket(st: SimState, price: real): real
  {
    st.cash + (if st.open.Some? then LiquidationValue(st.open.value, price) else 0.0)
  }

  /** Closes the open position, if any, crediting it to cash. */
  function CloseOpen(st: SimState, price: real, ts: int): (r: SimState)
    ensures r.open.None? && r.curve == st.curve
  {
    if st.open.None? then st
    else
      var c := ClosePosition(st.open.value, price, ts);
      st.(cash := st.cash + Credit(c), open := None, closed := st.closed + [c])
  }

  /**
   * A signal: nothing when the open position is already on the wanted side; otherwise close the
   * old position and try to open the wanted one.
   */
  function ApplySignal(st: SimState, sig: Signal, price: real, ts: int, frac: real): (r: SimState)
    ensures r.curve == st.curve
  {
    var want := SideOf(sig);
    if st.open.Some? && st.open.value.side == want then st
    else
      var flat := CloseOpen(st, price, ts);
      var entry := OpenPosition(want, price, ts, flat.cash, frac);
      if entry.None? then flat
      else flat.(cash := entry.value.cash, open := Some(entry.value.pos))
  }

  /** Initial cash, buy fraction and the SMA windows of the strategy. */
  datatype BacktestConfig = BacktestConfig(initialCash: real, buyFraction: real, smaConfig: Sma.SmaConfig)

  /** One loop iteration: mark equity, then act on the signal once tradable. */
  function Step(cfg: BacktestConfig, st: SimState, sample: Data.Sample, i: nat, signal: Option<Signal>): (r: SimState)
    ensures r.curve == st.curve + [EquityPoint(sample.ts, MarkToMarket(st, sample.price))]
  {
    var marked := st.(curve := st.curve + [EquityPoint(sample.ts, MarkToMarket(st, sample.price))]);
    if !Tradable(cfg.smaConfig, i) || signal.None? then marked
    else ApplySignal(marked, signal.value, sample.price, sample.ts, Clamp(cfg.buyFraction, 0.0, 1.0))
  }

  function Start(cfg: BacktestConfig): SimState
  {
    SimState(cfg.initialCash, None, [], [])
  }

  /** The state after the first `n` samples. */
  function Replay(cfg: BacktestConfig, samples: seq<Data.Sample>, signals: seq<Option<Signal>>, n: nat): (st: SimState)
    requires n <= |samples|
    ensures |st.curve| == n
  {
    if n == 0 then Start(cfg)
    else Step(cfg, Replay(cfg, samples, signals, n - 1), samples[n - 1], n - 1, SignalAt(signals, n - 1))
  }

  /** Total profit of a list of positions. */
  function TotalProfit(ps: seq<Position>): real
  {
    if |ps| == 0 then 0.0 else TotalProfit(ps[..|ps| - 1]) + ProfitOrZero(ps[|ps| - 1])
  }

  /**
   * Cash conservation: cash plus the open collateral is the initial cash plus the profit of every
   * closed position, and an open position is funded.
   */
  predicate Accounted(st: SimState, initialCash: real)
  {
    && st.cash + (if st.open.Some? then st.open.value.collateral else 0.0) == initialCash + TotalProfit(st.closed)
    && (st.open.Some? ==> Funded(st.open.value))
    && (forall k :: 0 <= k < |st.closed| ==> st.closed[k].exitPrice.Some?)
  }

  lemma CloseOpenAccounted(st: SimState, initialCash: real, price: real, ts: int)
    requires Accounted(st, initialCash)
    ensures Accounted(CloseOpen(st, price, ts), initialCash)
  {
    if st.open.Some? {
      var r := CloseOpen(st, price, ts);
      assert r.closed[..|r.closed| - 1] == st.closed;
    }
  }

  lemma ApplySignalAccounted(st: SimState, initialCash: real, sig: Signal, price: real, ts: int, frac: real)
    requires Accounted(st, initialCash)
    ensures Accounted(ApplySignal(st, sig, price, ts, frac), initialCash)
  {
    if !(st.open.Some? && st.open.value.side == SideOf(sig)) {
      CloseOpenAccounted(st, initialCash, price, ts);
    }
  }

  /** Every replay state satisfies the conservation invariant. */
  lemma {:induction false} ReplayAccounted(cfg: BacktestConfig, samples: seq<Data.Sample>, signals: seq<Option<Signal>>, n: nat)
    requires n <= |samples|
    ensures Accounted(Replay(cfg, samples, signals, n), cfg.initialCash)
  {
    if n > 0 {
      var st := Replay(cfg, samples, signals, n - 1);
      ReplayAccounted(cfg, samples, signals, n - 1);
      var s := samples[n - 1];
      var marked := st.(curve := st.curve + [EquityPoint(s.ts, MarkToMarket(st, s.price))]);
      assert Accounted(marked, cfg.initialCash);
      var sig := SignalAt(signals, n - 1);
      if Tradable(cfg.smaConfig, n - 1) && sig.Some? {
        ApplySignalAccounted(marked, cfg.initialCash, sig.value, s.price, s.ts, Clamp(cfg.buyFraction, 0.0, 1.0));
      }
    }
  }

  /** The equity point of sample `i`: its time, and the state before it marked at its price. */
  function CurvePoint(cfg: BacktestConfig, samples: seq<Data.Sample>, signals: seq<Option<Signal>>, i: nat): EquityPoint
    requires i < |samples|
  {
    EquityPoint(samples[i].ts, MarkToMarket(Replay(cfg, samples, signals, i), samples[i].price))
  }

  /**
   * One equity point per sample so far, stamped with the sample's time and worth the cash plus
   * the open position's liquidation value at that sample's price, before acting on its signal.
   */
  lemma {:induction false} ReplayCurve(cfg: BacktestConfig, samples: seq<Data.Sample>, signals: seq<Option<Signal>>, n: nat)
    requires n <= |samples|
    ensures |Replay(cfg, samples, signals, n).curve| == n
    ensures forall i :: 0 <= i < n ==> Replay(cfg, samples, signals, n).curve[i] == CurvePoint(cfg, samples, signals, i)
  {
    if n > 0 {
      ReplayCurve(cfg, samples, signals, n - 1);
      var before := Replay(cfg, samples, signals, n - 1).curve;
      var after := Replay(cfg, samples, signals, n).curve;
      assert after == before + [CurvePoint(cfg, samples, signals, n - 1)];
      forall i | 0 <= i < n
        ensures after[i] == CurvePoint(cfg, samples, signals, i)
      {
        if i < n - 1 {
          assert after[i] == before[i];
        }
      }
    }
  }

  /** A signal for the side already held changes nothing. */
  lemma SameSideIsNoOp(st: SimState, sig: Signal, price: real, ts: int, frac: real)
    requires st.open.Some? && st.open.value.side == SideOf(sig)
    ensures ApplySignal(st, sig, price, ts, frac) == st
  {
  }

  /**
   * Any other signal first closes the held position at the signal's price, then holds the wanted
   * side if it could be opened and nothing otherwise.
   */
  lemma OppositeSignalFlips(st: SimState, sig: Signal, price: real, ts: int, frac: real)
    requires st.open.Some? && st.open.value.side != SideOf(sig)
    ensures var r := ApplySignal(st, sig, price, ts, frac);
      && r.closed == st.closed + [ClosePosition(st.open.value, price, ts)]
      && (r.open.None? || r.open.value.side == SideOf(sig))
      && (price > 0.0 && frac > 0.0 && st.cash + Credit(ClosePosition(st.open.value, price, ts)) > 0.0 <==> r.open.Some?)
  {
  }

  /** The outcome of a backtest. `totalReturn` is undefined (None) for zero initial cash. */
  datatype PositionResult = PositionResult(
    config: BacktestConfig,
    initialEquity: real,
    positions: seq<Position>,
    equityCurve: seq<EquityPoint>,
    finalEquity: real,
    totalReturn: Option<real>,
    maxDrawdown: real,
    winRate: real)

  function Profits(ps: seq<Position>): (p: seq<real>)
    ensures |p| == |ps|
  {
    seq(|ps|, i requires 0 <= i < |ps| => ProfitOrZero(ps[i]))
  }

  /** The replay keeps one equity point per sample. */
  lemma {:induction false} ReplayCurveLength(cfg: BacktestConfig, samples: seq<Data.Sample>, signals: seq<Option<Signal>>, n: nat)
    requires n <= |samples|
    ensures |Replay(cfg, samples, signals, n).curve| == n
  {
    if n > 0 {
      ReplayCurveLength(cfg, samples, signals, n - 1);
    }
  }

  /** The state after every sample, with any open position closed at the last sample. */
  function Finish(cfg: BacktestConfig, samples: seq<Data.Sample>, signals: seq<Option<Signal>>): (done: SimState)
    requires |samples| > 0
    ensures done.open.None? && |done.curve| == |samples|
    ensures Accounted(done, cfg.initialCash)
  {
    var st := Replay(cfg, samples, signals, |samples|);
    ReplayAccounted(cfg, samples, signals, |samples|);
    ReplayCurveLength(cfg, samples, signals, |samples|);
    var last := samples[|samples| - 1];
    CloseOpenAccounted(st, cfg.initialCash, last.price, last.ts);
    CloseOpen(st, last.price, last.ts)
  }

  /**
   * `run_backtest`: too few samples is an error; otherwise replay, close any open position at the
   * last sample, and summarise.
   */
  function RunBacktest(samples: seq<Data.Sample>, cfg: BacktestConfig, signals: seq<Option<Signal>>): (r: Result<PositionResult>)
    ensures r.Err? <==> |samples| < cfg.smaConfig.longWindow + 1
    ensures r.Ok? ==> r.value.initialEquity == cfg.initialCash
    ensures r.Ok? ==> |r.value.equityCurve| == |samples|
    ensures r.Ok? ==> r.value.finalEquity == cfg.initialCash + TotalProfit(r.value.positions)
    ensures r.Ok? ==> forall k :: 0 <= k < |r.value.positions| ==> r.value.positions[k].exitPrice.Some?
    ensures r.Ok? ==> r.value.totalReturn == TotalReturn(r.value.finalEquity, cfg.initialCash)
    ensures r.Ok? ==> r.value.maxDrawdown == MaxDrawdown(Equities(r.value.equityCurve))
    ensures r.Ok? ==> r.value.winRate == WinRate(Profits(r.value.positions))
    ensures r.Ok? ==> 0.0 <= r.value.winRate <= 1.0 && r.value.maxDrawdown >= 0.0
  {
    if |samples| < cfg.smaConfig.longWindow + 1 then Err("Not enough data")
    else
      var done := Finish(cfg, samples, signals);
      var finalEquity := done.cash;
      Ok(PositionResult(cfg, cfg.initialCash, done.closed, done.curve, finalEquity, TotalReturn(finalEquity, cfg.initialCash),
        MaxDrawdown(Equities(done.curve)), WinRate(Profits(done.closed))))
  }

  /** `final / initial - 1`; undefined (None) when the initial equity is zero. */
  function TotalReturn(finalEquity: real, initialEquity: real): (r: Option<real>)
    ensures r.None? <==> initialEquity == 0.0
  {
    if initialEquity == 0.0 then None
    else Some(finalEquity / initialEquity - 1.0)
  }

  /** One plus the return, times the initial equity, gives back the final equity. */
  lemma TotalReturnGrowth(finalEquity: real, initialEquity: real)
    requires initialEquity != 0.0
    ensures (TotalReturn(finalEquity, initialEquity).value + 1.0) * initialEquity == finalEquity
  {
    if initialEquity > 0.0 {
      QuotientFacts(finalEquity, initialEquity);
    } else {
      QuotientFacts(-finalEquity, -initialEquity);
    }
  }

  /** `buy_and_hold_equity`: all cash into the first price, valued at the last. */
  function BuyAndHoldEquity(samples: seq<Data.Sample>, initialCash: real): (r: Option<real>)
    ensures r.None? <==> |samples| == 0 || samples[0].price <= 0.0
    ensures r.Some? ==> r.value * samples[0].price == initialCash * samples[|samples| - 1].price
  {
    if |samples| == 0 then None
    else
      var first := samples[0].price;
      var last := samples[|samples| - 1].price;
      if first <= 0.0 then None
      else
        QuotientFacts(initialCash, first);
        var qty := initialCash / first;
        assert qty * last * first == qty * first * last;
        Some(qty * last)
  }

  /**
   * 10 000 cash, half of it on a Buy at 100, closed at 110 at the end: a profit of 500 and a
   * final equity of 10 500, a 5% return.
   */
  lemma LongRoundTripScenario()
    ensures var samples := [Data.Sample(0, 100.0), Data.Sample(3600, 100.0), Data.Sample(7200, 110.0)];
      var cfg := BacktestConfig(10000.0, 0.5, Sma.SmaConfig(1, 1));
      var r := RunBacktest(samples, cfg, [None, Some(Buy), None]);
      && r.Ok? && |r.value.positions| == 1
      && r.value.positions[0].profit == Some(500.0)
      && r.value.finalEquity == 10500.0
      && r.value.totalReturn == Some(0.05)
      && r.value.winRate == 1.0
  {
    var samples := [Data.Sample(0, 100.0), Data.Sample(3600, 100.0), Data.Sample(7200, 110.0)];
    var cfg := BacktestConfig(10000.0, 0.5, Sma.SmaConfig(1, 1));
    var signals := [None, Some(Buy), None];
    var pos := Position(Long, 3600, None, 100.0, None, 50.0, None, None, 5000.0);
    assert Replay(cfg, samples, signals, 1).open.None?;
    assert Replay(cfg, samples, signals, 2).open == Some(pos);
    assert Replay(cfg, samples, signals, 2).cash == 5000.0;
    var st := Replay(cfg, samples, signals, 3);
    assert st.open == Some(pos) && st.cash == 5000.0 && st.closed == [];
    var r := RunBacktest(samples, cfg, signals);
    assert r.value.positions == [ClosePosition(pos, 110.0, 7200)];
    assert Profits(r.value.positions) == [500.0];
    WinRateExtremes([500.0]);
  }

  /**
   * A short that the price runs away from loses more than its collateral, so the cash balance
   * goes below zero: 100 cash fully shorted at 100 and bought back at 300 leaves -100.
   */
  lemma ShortLossCanMakeCashNegative()
    ensures var st := ApplySignal(SimState(100.0, None, [], []), Sell, 100.0, 0, 1.0);
      ApplySignal(st, Buy, 300.0, 3600, 1.0).cash == -100.0
  {
    var s0 := SimState(100.0, None, [], []);
    var pos := Position(Short, 0, None, 100.0, None, 1.0, None, None, 100.0);
    assert OpenPosition(Short, 100.0, 0, 100.0, 1.0) == Some(Opened(pos, 0.0));
    assert CloseOpen(s0, 100.0, 0) == s0;
    var st := ApplySignal(s0, Sell, 100.0, 0, 1.0);
    assert st == SimState(0.0, Some(pos), [], []);
    assert GrossPnl(pos, 300.0) == -200.0;
    var flat := CloseOpen(st, 300.0, 3600);
    assert flat.cash == -100.0;
    assert OpenPosition(Long, 300.0, 3600, -100.0, 1.0).None?;
  }
}

=== FILE: regime.dfy ===
/**
 * Big-picture market regime from a long SMA, the price move over a slope window and the
 * high/low range over that window (src/indicators/regime.rs).
 */
module Regimes {
  import opened Wrappers
  import opened Series
  import Sma

  datatype Regime = TrendingUp | TrendingDown | Sideways

  /**
   * Classifier thresholds: the long SMA window and the slope window in candles, the minimum
   * fractional move over the slope window, and the minimum high/low range relative to the SMA.
   */
  datatype RegimeFilter = RegimeFilter(longWindow: nat, slopeWindow: nat, minTrendStrength: real, minRange: real)

  /** 200-candle SMA, 48-candle slope window, 2% trend, 3% range. */
  const DefaultRegimeFilter: RegimeFilter := RegimeFilter(200, 48, 0.02, 0.03)

  function MaxNat(a: nat, b: nat): nat
  {
    if a >= b then a else b
  }

  /** Samples needed before the classifier looks at the data. */
  function Required(f: RegimeFilter): nat
  {
    MaxNat(f.longWindow, f.slopeWindow) + 1
  }

  /** The slope window `prices[n-1-slope ..= n-1]`: the last `slope + 1` prices. */
  function SlopeWindow(prices: seq<real>, slope: nat): (w: seq<real>)
    requires |prices| >= slope + 1
    ensures |w| == slope + 1
    ensures w[0] == prices[|prices| - 1 - slope] && w[slope] == prices[|prices| - 1]
  {
    prices[|prices| - 1 - slope..]
  }

  /** Fractional move from `startPrice` to `endPrice`. */
  function Trend(startPrice: real, endPrice: real): (t: real)
    requires startPrice > 0.0
    ensures t > 0.0 <==> endPrice > startPrice
    ensures t < 0.0 <==> endPrice < startPrice
    ensures (t + 1.0) * startPrice == endPrice
  {
    QuotientFacts(endPrice, startPrice);
    QuotientFacts(startPrice, startPrice);
    endPrice / startPrice - 1.0
  }

  /** High/low spread of a window relative to the long SMA. */
  function RangeOverSma(window: seq<real>, smaLong: real): (r: real)
    requires |window| > 0 && smaLong > 0.0
    ensures r >= 0.0
    ensures r * smaLong == Max(window) - Min(window)
  {
    QuotientFacts(Max(window) - Min(window), smaLong);
    MinIsElement(window);
    (Max(window) - Min(window)) / smaLong
  }

  /** What the classifier measures once every guard has passed. */
  datatype Measures = Measures(smaLong: real, startPrice: real, endPrice: real, trend: real, range: real)

  /**
   * The guards: enough history, a positive long SMA (a zero window is an undefined average)
   * and a positive slope-window start price. None when any of them fails.
   */
  function Measure(f: RegimeFilter, prices: seq<real>): (m: Option<Measures>)
    ensures m.Some? ==> |prices| >= Required(f) && f.longWindow >= 1
    ensures m.Some? ==> Some(m.value.smaLong) == Sma.SimpleMovingAverage(prices, f.longWindow)
    ensures m.Some? ==> m.value.smaLong > 0.0 && m.value.startPrice > 0.0 && m.value.range >= 0.0
    ensures m.Some? ==> m.value.startPrice == prices[|prices| - 1 - f.slopeWindow]
    ensures m.Some? ==> m.value.endPrice == prices[|prices| - 1]
    ensures m.Some? ==> (m.value.trend > 0.0 <==> m.value.endPrice > m.value.startPrice)
    ensures m.Some? ==> (m.value.trend < 0.0 <==> m.value.endPrice < m.value.startPrice)
    ensures m.Some? ==> m.value.trend == Trend(m.value.startPrice, m.value.endPrice)
    ensures m.Some? ==> m.value.range == RangeOverSma(SlopeWindow(prices, f.slopeWindow), m.value.smaLong)
  {
    if |prices| < Required(f) || f.longWindow == 0 then None
    else
      var sma := Sma.SimpleMovingAverage(prices, f.longWindow);
      if sma.value <= 0.0 then None
      else
        var window := SlopeWindow(prices, f.slopeWindow);
        var startPrice := window[0];
        var endPrice := window[f.slopeWindow];
        if startPrice <= 0.0 then None
        else
          Some(Measures(sma.value, startPrice, endPrice, Trend(startPrice, endPrice), RangeOverSma(window, sma.value)))
  }

  /** The source's `detect_regime`. */
  function DetectRegime(f: RegimeFilter, prices: seq<real>): (r: Regime)
    ensures |prices| < Required(f) ==> r == Sideways
    ensures r == TrendingUp ==>
      && f.longWindow >= 1 && |prices| >= Required(f)
      && 0.0 < prices[|prices| - 1 - f.slopeWindow] < prices[|prices| - 1]
      && Sma.SimpleMovingAverage(prices, f.longWindow).value < prices[|prices| - 1]
    ensures r == TrendingDown ==>
      && f.longWindow >= 1 && |prices| >= Required(f)
      && prices[|prices| - 1] < prices[|prices| - 1 - f.slopeWindow]
      && 0.0 < prices[|prices| - 1 - f.slopeWindow]
      && 0.0 < Sma.SimpleMovingAverage(prices, f.longWindow).value
      && prices[|prices| - 1] < Sma.SimpleMovingAverage(prices, f.longWindow).value
  {
    var m := Measure(f, prices);
    if m.None? then Sideways
    else if Abs(m.value.trend) < f.minTrendStrength || m.value.range < f.minRange then Sideways
    else if m.value.endPrice > m.value.smaLong && m.value.trend > 0.0 then TrendingUp
    else if m.value.endPrice < m.value.smaLong && m.value.trend < 0.0 then TrendingDown
    else Sideways
  }

  /** A weak move or a tiny range is Sideways whatever the direction. */
  lemma WeakOrNarrowIsSideways(f: RegimeFilter, prices: seq<real>)
    requires Measure(f, prices).Some?
    requires Abs(Measure(f, prices).value.trend) < f.minTrendStrength || Measure(f, prices).value.range < f.minRange
    ensures DetectRegime(f, prices) == Sideways
  {
  }

  /** A non-positive long average or slope start price is Sideways. */
  lemma NonPositiveAnchorIsSideways(f: RegimeFilter, prices: seq<real>)
    requires |prices| >= Required(f)
    requires f.longWindow == 0 || Sma.SimpleMovingAverage(prices, f.longWindow).value <= 0.0
      || prices[|prices| - 1 - f.slopeWindow] <= 0.0
    ensures DetectRegime(f, prices) == Sideways
  {
  }

  /** Price and move pointing in opposite directions relative to the SMA is Sideways. */
  lemma DirectionConflictIsSideways(f: RegimeFilter, prices: seq<real>)
    requires Measure(f, prices).Some?
    requires var m := Measure(f, prices).value;
      (m.trend > 0.0 && m.endPrice <= m.smaLong) || (m.trend < 0.0 && m.endPrice >= m.smaLong) || m.trend == 0.0
    ensures DetectRegime(f, prices) == Sideways
  {
  }

  /** Past the guards and thresholds, an agreeing direction is always classified as a trend. */
  lemma AgreeingDirectionIsTrend(f: RegimeFilter, prices: seq<real>)
    requires Measure(f, prices).Some?
    requires var m := Measure(f, prices).value;
      Abs(m.trend) >= f.minTrendStrength && m.range >= f.minRange
    ensures var m := Measure(f, prices).value;
      m.endPrice > m.smaLong && m.endPrice > m.startPrice ==> DetectRegime(f, prices) == TrendingUp
    ensures var m := Measure(f, prices).value;
      m.endPrice < m.smaLong && m.endPrice < m.startPrice ==> DetectRegime(f, prices) == TrendingDown
  {
  }

  /** Only the last `Required(f)` prices matter. */
  lemma RegimeIgnoresOlderPrices(f: RegimeFilter, older: seq<real>, prices: seq<real>)
    requires |prices| >= Required(f)
    ensures DetectRegime(f, older + prices) == DetectRegime(f, prices)
  {
    var all := older + prices;
    if f.longWindow >= 1 {
      assert Sma.Trailing(all, f.longWindow) == Sma.Trailing(prices, f.longWindow);
    }
    assert SlopeWindow(all, f.slopeWindow) == SlopeWindow(prices, f.slopeWindow);
  }

  /** The filter the unit tests start from. */
  const TestRegimeFilter: RegimeFilter := RegimeFilter(10, 5, 0.02, 0.03)

  /** The prices `a, a+1, ..., a+n-1`. */
  function Ramp(a: real, n: nat): seq<real>
  {
    seq(n, i => a + i as real)
  }

  /** The prices `a, a-1, ..., a-n+1`. */
  function Fall(a: real, n: nat): seq<real>
  {
    seq(n, i => a - i as real)
  }

  /** Too little history, a zero long SMA and a zero slope start price are all Sideways. */
  lemma SidewaysScenarios()
    ensures DetectRegime(TestRegimeFilter, Ramp(100.0, 10)) == Sideways
    ensures DetectRegime(RegimeFilter(4, 2, 0.02, 0.03), [100.0, 101.0, 102.0, 0.0, 0.0, 0.0, 0.0]) == Sideways
    ensures DetectRegime(RegimeFilter(4, 2, 0.02, 0.03), [100.0, 101.0, 0.0, 102.0, 103.0]) == Sideways
  {
    var p := [100.0, 101.0, 102.0, 0.0, 0.0, 0.0, 0.0];
    var w := Sma.Trailing(p, 4);
    assert w == [0.0, 0.0, 0.0, 0.0];
    assert Sum(w) == 0.0 by {
      assert w[4..] == [];
      SumSuffixStep(w, 4);
      SumSuffixStep(w, 3);
      SumSuffixStep(w, 2);
      SumSuffixStep(w, 1);
      assert w[0..] == w;
    }
  }

  /** A close that falls back under the long SMA after a rising move is Sideways. */
  lemma DirectionConflictScenario()
    ensures DetectRegime(RegimeFilter(4, 3, 0.01, 0.01), [50.0, 60.0, 70.0, 80.0, 90.0, 95.0, 100.0, 140.0, 130.0, 110.0]) == Sideways
  {
    var p := [50.0, 60.0, 70.0, 80.0, 90.0, 95.0, 100.0, 140.0, 130.0, 110.0];
    var w := Sma.Trailing(p, 4);
    assert w == [100.0, 140.0, 130.0, 110.0];
    assert Sum(w) == 480.0 by {
      assert w[4..] == [];
      SumSuffixStep(w, 4);
      SumSuffixStep(w, 3);
      SumSuffixStep(w, 2);
      SumSuffixStep(w, 1);
      assert w[0..] == w;
    }
  }

  /** A steady climb from 100 to 120 trends up. */
  lemma UptrendScenario()
    ensures DetectRegime(RegimeFilter(10, 5, 0.01, 0.01), Ramp(100.0, 21)) == TrendingUp
  {
    var f := RegimeFilter(10, 5, 0.01, 0.01);
    var up := Ramp(100.0, 21);
    Sma.SmaOfProgressionWindow(up, 10, 111.0);
    assert Sma.SimpleMovingAverage(up, 10) == Some(115.5);
    var w := SlopeWindow(up, 5);
    assert forall k :: 0 <= k < |w| ==> w[k] == 115.0 + k as real;
    MinMaxFromBounds(w, 0, 5);
    assert Measure(f, up) == Some(Measures(115.5, 115.0, 120.0, Trend(115.0, 120.0), 5.0 / 115.5));
    assert Trend(115.0, 120.0) == 1.0 / 23.0;
    AgreeingDirectionIsTrend(f, up);
  }

  /** A steady fall from 100 to 80 trends down. */
  lemma DowntrendScenario()
    ensures DetectRegime(RegimeFilter(10, 5, 0.01, 0.01), Fall(100.0, 21)) == TrendingDown
  {
    var f := RegimeFilter(10, 5, 0.01, 0.01);
    var down := Fall(100.0, 21);
    assert Sma.SimpleMovingAverage(down, 10) == Some(84.5) by {
      assert Sma.Trailing(down, 10) == seq(10, i => 89.0 - i as real);
      SumFallingProgression(89.0, 10);
    }
    var w := SlopeWindow(down, 5);
    assert Min(w) == 80.0 && Max(w) == 85.0 by {
      assert forall k :: 0 <= k < |w| ==> w[k] == 85.0 - k as real;
      MinMaxFromBounds(w, 5, 0);
    }
    assert Measure(f, down) == Some(Measures(84.5, 85.0, 80.0, Trend(85.0, 80.0), 5.0 / 84.5));
    assert Trend(85.0, 80.0) == -1.0 / 17.0;
    AgreeingDirectionIsTrend(f, down);
  }
}

=== FILE: series.dfy ===
/** Folds over price slices shared by the indicator and pattern modules. */
module Series {

  function Abs(x: real): (r: real)
    ensures r >= 0.0
    ensures r == x || r == -x
  {
    if x < 0.0 then -x else x
  }

  /** `f64::clamp`: `x` limited to `[lo, hi]`. */
  function Clamp(x: real, lo: real, hi: real): (r: real)
    requires lo <= hi
    ensures lo <= r <= hi
    ensures lo <= x <= hi ==> r == x
  {
    if x < lo then lo else if x > hi then hi else x
  }

  /** Sum of a slice, folded from the front. */
  function Sum(s: seq<real>): real
  {
    if |s| == 0 then 0.0 else s[0] + Sum(s[1..])
  }

  /** Largest element of a non-empty slice (`fold(NEG_INFINITY, f64::max)`). */
  function Max(s: seq<real>): (m: real)
    requires |s| > 0
    ensures forall i :: 0 <= i < |s| ==> s[i] <= m
  {
    if |s| == 1 then s[0]
    else
      var rest := Max(s[1..]);
      assert forall i :: 1 <= i < |s| ==> s[i] == s[1..][i - 1];
      if s[0] >= rest then s[0] else rest
  }

  /** Smallest element of a non-empty slice (`fold(INFINITY, f64::min)`). */
  function Min(s: seq<real>): (m: real)
    requires |s| > 0
    ensures forall i :: 0 <= i < |s| ==> m <= s[i]
  {
    if |s| == 1 then s[0]
    else
      var rest := Min(s[1..]);
      assert forall i :: 1 <= i < |s| ==> s[i] == s[1..][i - 1];
      if s[0] <= rest then s[0] else rest
  }

  /** The maximum is attained: it is one of the slice's elements. */
  lemma {:induction false} MaxAttained(s: seq<real>) returns (k: nat)
    requires |s| > 0
    ensures k < |s| && s[k] == Max(s)
  {
    if |s| == 1 {
      k := 0;
    } else if s[0] >= Max(s[1..]) {
      k := 0;
    } else {
      var j := MaxAttained(s[1..]);
      k := j + 1;
    }
  }

  lemma MaxIsElement(s: seq<real>)
    requires |s| > 0
    ensures exists k :: 0 <= k < |s| && s[k] == Max(s)
  {
    var k := MaxAttained(s);
  }

  lemma MinIsElement(s: seq<real>)
    requires |s| > 0
    ensures exists k :: 0 <= k < |s| && s[k] == Min(s)
  {
    var k := MinAttained(s);
  }

  /** The minimum is attained: it is one of the slice's elements. */
  lemma {:induction false} MinAttained(s: seq<real>) returns (k: nat)
    requires |s| > 0
    ensures k < |s| && s[k] == Min(s)
  {
    if |s| == 1 {
      k := 0;
    } else if s[0] <= Min(s[1..]) {
      k := 0;
    } else {
      var j := MinAttained(s[1..]);
      k := j + 1;
    }
  }

  /** Bounds attained inside the slice are its minimum and maximum. */
  lemma MinMaxFromBounds(s: seq<real>, i: nat, j: nat)
    requires i < |s| && j < |s|
    requires forall k :: 0 <= k < |s| ==> s[i] <= s[k] <= s[j]
    ensures Min(s) == s[i] && Max(s) == s[j]
  {
    var a := MinAttained(s);
    var b := MaxAttained(s);
  }

  /** The sum of non-negative terms is non-negative. */
  lemma {:induction false} SumNonNegative(s: seq<real>)
    requires forall i :: 0 <= i < |s| ==> s[i] >= 0.0
    ensures Sum(s) >= 0.0
  {
    if |s| > 0 {
      assert forall i :: 0 <= i < |s[1..]| ==> s[1..][i] == s[i + 1];
      SumNonNegative(s[1..]);
    }
  }

  /** A sum of `|s|` copies of `c` is `|s| * c`. */
  lemma {:induction false} SumConstant(s: seq<real>, c: real)
    requires forall i :: 0 <= i < |s| ==> s[i] == c
    ensures Sum(s) == |s| as real * c
  {
    if |s| > 0 {
      assert forall i :: 0 <= i < |s[1..]| ==> s[1..][i] == s[i + 1];
      SumConstant(s[1..], c);
    }
  }

  /** Each term between `lo` and `hi` puts the sum between `|s|*lo` and `|s|*hi`. */
  lemma {:induction false} SumBounds(s: seq<real>, lo: real, hi: real)
    requires forall i :: 0 <= i < |s| ==> lo <= s[i] <= hi
    ensures |s| as real * lo <= Sum(s) <= |s| as real * hi
  {
    if |s| > 0 {
      assert forall i :: 0 <= i < |s[1..]| ==> s[1..][i] == s[i + 1];
      SumBounds(s[1..], lo, hi);
    }
  }

  /** Peeling one element off the front of a suffix. */
  lemma SumSuffixStep(s: seq<real>, k: nat)
    requires 0 < k <= |s|
    ensures Sum(s[k - 1..]) == s[k - 1] + Sum(s[k..])
  {
    assert s[k - 1..][1..] == s[k..];
  }

  /** The arithmetic progression `a, a+1, ..., a+n-1` sums to `n*a + n*(n-1)/2`. */
  lemma {:induction false} SumProgression(a: real, n: nat)
    ensures Sum(seq(n, i => a + i as real)) == n as real * a + n as real * (n as real - 1.0) / 2.0
    decreases n
  {
    if n > 0 {
      var s := seq(n, i => a + i as real);
      var t := seq(n - 1, i => (a + 1.0) + i as real);
      assert s[1..] == t;
      SumProgression(a + 1.0, n - 1);
    }
  }

  /** The falling progression `a, a-1, ..., a-n+1` sums to `n*a - n*(n-1)/2`. */
  lemma {:induction false} SumFallingProgression(a: real, n: nat)
    ensures Sum(seq(n, i => a - i as real)) == n as real * a - n as real * (n as real - 1.0) / 2.0
    decreases n
  {
    if n > 0 {
      var s := seq(n, i => a - i as real);
      var t := seq(n - 1, i => (a - 1.0) - i as real);
      assert s[1..] == t;
      SumFallingProgression(a - 1.0, n - 1);
    }
  }

  /** Dividing a total bounded by `n*lo` and `n*hi` by `n` gives a mean between `lo` and `hi`. */
  lemma MeanBounds(total: real, n: real, lo: real, hi: real)
    requires n > 0.0
    requires n * lo <= total <= n * hi
    ensures (total / n) * n == total
    ensures lo <= total / n <= hi
  {
    assert (total / n) * n == total;
  }

  /** Arithmetic mean of a non-empty slice. */
  function Mean(s: seq<real>): real
    requires |s| > 0
  {
    Sum(s) / |s| as real
  }

  /** The mean lies between the slice's minimum and maximum. */
  lemma MeanWithinRange(s: seq<real>)
    requires |s| > 0
    ensures Min(s) <= Mean(s) <= Max(s)
  {
    SumBounds(s, Min(s), Max(s));
    MeanBounds(Sum(s), |s| as real, Min(s), Max(s));
  }

  /** The mean of non-negative values is non-negative. */
  lemma MeanNonNegative(s: seq<real>)
    requires |s| > 0
    requires forall i :: 0 <= i < |s| ==> s[i] >= 0.0
    ensures Mean(s) >= 0.0
  {
    MeanWithinRange(s);
    var k := MinAttained(s);
  }

  /** Dividing by a positive number: multiplying back restores the dividend and the sign is kept. */
  lemma QuotientFacts(a: real, b: real)
    requires b > 0.0
    ensures (a / b) * b == a
    ensures a >= 0.0 ==> a / b >= 0.0
  {
  }

  /** Multiplying by a non-negative factor keeps the order. */
  lemma MulMonotone(k: real, a: real, b: real)
    requires k >= 0.0 && a <= b
    ensures k * a <= k * b
  {
  }

  /** Multiplying by a positive factor keeps strict order. */
  lemma MulStrict(k: real, x: real, y: real)
    requires k > 0.0
    ensures x < y ==> k * x < k * y
  {
    if x < y {
      PositiveProduct(k, y - x);
    }
  }

  /** A fraction of at most one of a non-negative amount is at most that amount. */
  lemma PartOfWhole(x: real, f: real)
    requires x >= 0.0
    ensures f <= 1.0 ==> x * f <= x
  {
    if f <= 1.0 {
      MulMonotone(x, f, 1.0);
    }
  }

  /** Taking a fraction of at most one of a non-negative amount leaves a non-negative rest. */
  lemma Leftover(x: real, f: real)
    requires x >= 0.0
    ensures f <= 1.0 ==> x - x * f >= 0.0
  {
    PartOfWhole(x, f);
  }

  /** The product of two positive numbers is positive. */
  lemma PositiveProduct(x: real, y: real)
    requires x > 0.0 && y > 0.0
    ensures x * y > 0.0
  {
  }

  /** Cancelling a positive factor. */
  lemma CancelPositive(x: real, y: real, n: real)
    requires n > 0.0 && x * n == y * n
    ensures x == y
  {
    assert (x - y) * n == 0.0;
  }

  /** `Floor` keeps the order. */
  lemma FloorMonotone(x: real, y: real)
    requires x <= y
    ensures x.Floor <= y.Floor
  {
  }

  /** `Floor` is the largest integer not above its argument. */
  lemma FloorBounds(x: real)
    ensures x.Floor as real <= x < x.Floor as real + 1.0
  {
  }

  /** The mean times the count is the sum. */
  lemma MeanTimesCount(s: seq<real>)
    requires |s| > 0
    ensures Mean(s) * |s| as real == Sum(s)
  {
    QuotientFacts(Sum(s), |s| as real);
  }

  /** A named quotient times the divisor is the dividend. */
  lemma QuotientTimes(a: real, b: real, q: real)
    requires b > 0.0 && q == a / b
    ensures q * b == a
  {
  }
}

=== FILE: signal.dfy ===
/**
 * The rule-priority decision engine (src/signal.rs): eight guarded rules tried in a fixed
 * order, then a neutral default.
 */
module Signals {
  import opened Wrappers
  import Patterns
  import opened Sma

  /** Lookback of the breakout and breakdown rules. */
  const BreakoutLookback: nat := 5

  const Buy: string := "BUY"
  const Sell: string := "SELL"
  const LongBias: string := "HOLD / LONG BIAS"
  const ShortBias: string := "HOLD / SHORT BIAS"
  const Hold: string := "HOLD"

  /** The five suggestions the engine can give. */
  const Suggestions: set<string> := {Buy, Sell, LongBias, ShortBias, Hold}

  /** The five suggestions are pairwise different strings. */
  lemma SuggestionsDistinct()
    ensures Buy != Sell && Buy != LongBias && Buy != ShortBias && Buy != Hold
    ensures Sell != LongBias && Sell != ShortBias && Sell != Hold
    ensures LongBias != ShortBias && LongBias != Hold && ShortBias != Hold
  {
    assert Buy[0] == 'B' && Sell[0] == 'S' && Hold[0] == 'H' && LongBias[0] == 'H' && ShortBias[0] == 'H';
    assert |LongBias| == 16 && |ShortBias| == 17 && |Hold| == 4;
  }

  /** The eight rules of the cascade. */
  datatype Rule =
    | BreakdownRule
    | RejectRule
    | BreakoutRule
    | BounceRule
    | GoldenCrossRule
    | DeathCrossRule
    | LongBiasRule
    | ShortBiasRule

  /**
   * A short suggestion and the reason behind it. The reason is kept as the rule that fired
   * (None for the neutral default); `ReasonText` spells it out as the source does.
   */
  datatype Advice = Advice(suggestion: string, firedRule: Option<Rule>)

  /** The explanation the source attaches to each outcome. */
  function ReasonText(a: Advice): string
  {
    match a.firedRule
    case None => "No clear breakout, pullback bounce/rejection, or crossover signal"
    case Some(BreakdownRule) => "Breakdown below recent low in downtrend (SMA20 < SMA50)"
    case Some(RejectRule) => "Pullback up to SMA20 and rejection in downtrend"
    case Some(BreakoutRule) => "Breakout above recent high in uptrend (SMA20 > SMA50)"
    case Some(BounceRule) => "Pullback to SMA20 and bounce in uptrend"
    case Some(GoldenCrossRule) => "Golden Cross + SMA50 rising + price above SMA20 & SMA50"
    case Some(DeathCrossRule) => "Death Cross + SMA50 falling + price below SMA20 & SMA50"
    case Some(LongBiasRule) => "Uptrend (SMA20 > SMA50) and price above both averages"
    case Some(ShortBiasRule) => "Downtrend (SMA20 < SMA50) and price below both averages"
  }

  /** Short average above the long one, and the long one not falling. */
  predicate Uptrend(smas: Smas)
  {
    smas.smaShort > smas.smaLong && smas.smaLong >= smas.prevSmaLong
  }

  /** Short average below the long one, and the long one not rising. */
  predicate Downtrend(smas: Smas)
  {
    smas.smaShort < smas.smaLong && smas.smaLong <= smas.prevSmaLong
  }

  predicate PriceAboveBoth(lastPrice: real, smas: Smas)
  {
    lastPrice > smas.smaShort && lastPrice > smas.smaLong
  }

  predicate PriceBelowBoth(lastPrice: real, smas: Smas)
  {
    lastPrice < smas.smaShort && lastPrice < smas.smaLong
  }

  /** The short average has just crossed above the long one. */
  predicate GoldenCross(smas: Smas)
  {
    smas.prevSmaShort <= smas.prevSmaLong && smas.smaShort > smas.smaLong
  }

  /** The short average has just crossed below the long one. */
  predicate DeathCross(smas: Smas)
  {
    smas.prevSmaShort >= smas.prevSmaLong && smas.smaShort < smas.smaLong
  }

  /** The order in which the rules are tried. */
  const Priority: seq<Rule> :=
    [BreakdownRule, RejectRule, BreakoutRule, BounceRule, GoldenCrossRule, DeathCrossRule, LongBiasRule, ShortBiasRule]

  /** The suggestion each rule gives when it fires. */
  function RuleSuggestion(rule: Rule): (s: string)
    ensures s in Suggestions && s != Hold
    ensures s == Buy <==> rule in {BreakoutRule, BounceRule, GoldenCrossRule}
    ensures s == Sell <==> rule in {BreakdownRule, RejectRule, DeathCrossRule}
  {
    SuggestionsDistinct();
    match rule
    case BreakdownRule => Sell
    case RejectRule => Sell
    case BreakoutRule => Buy
    case BounceRule => Buy
    case GoldenCrossRule => Buy
    case DeathCrossRule => Sell
    case LongBiasRule => LongBias
    case ShortBiasRule => ShortBias
  }

  /** What a rule says when it fires. */
  function Outcome(rule: Rule): (a: Advice)
    ensures a.suggestion in Suggestions && a.suggestion != Hold
    ensures a.firedRule == Some(rule)
  {
    Advice(RuleSuggestion(rule), Some(rule))
  }

  /** The neutral default when no rule fires. */
  const NoEdge: Advice := Advice(Hold, None)

  /** When a rule fires, read off the last price and the averages. */
  predicate Guard(rule: Rule, prices: seq<real>, smas: Smas, bounceTol: real, rejectTol: real)
    requires |prices| > 0
  {
    var lastPrice := prices[|prices| - 1];
    match rule
    case BreakdownRule =>
      Downtrend(smas) && Patterns.IsBreakdownBelowRecentLow(prices, BreakoutLookback) && PriceBelowBoth(lastPrice, smas)
    case RejectRule =>
      Downtrend(smas) && Patterns.IsPullbackToSmaShortAndRejectDown(prices, smas.smaShort, rejectTol)
    case BreakoutRule =>
      Uptrend(smas) && Patterns.IsBreakoutAboveRecentHigh(prices, BreakoutLookback) && PriceAboveBoth(lastPrice, smas)
    case BounceRule =>
      Uptrend(smas) && Patterns.IsPullbackToSmaShortAndBounce(prices, smas.smaShort, bounceTol)
    case GoldenCrossRule => GoldenCross(smas) && Uptrend(smas) && PriceAboveBoth(lastPrice, smas)
    case DeathCrossRule => DeathCross(smas) && Downtrend(smas) && PriceBelowBoth(lastPrice, smas)
    case LongBiasRule => smas.smaShort > smas.smaLong && PriceAboveBoth(lastPrice, smas)
    case ShortBiasRule => smas.smaShort < smas.smaLong && PriceBelowBoth(lastPrice, smas)
  }

  /** Reference semantics of a priority list: the outcome of the first rule whose guard holds. */
  function FirstMatch(rules: seq<Rule>, prices: seq<real>, smas: Smas, bounceTol: real, rejectTol: real): Advice
    requires |prices| > 0
  {
    if |rules| == 0 then NoEdge
    else if Guard(rules[0], prices, smas, bounceTol, rejectTol) then Outcome(rules[0])
    else FirstMatch(rules[1..], prices, smas, bounceTol, rejectTol)
  }

  /**
   * The source's `suggest_action`: the cascade written out as in the source. Fails on empty
   * prices, as the source does.
   */
  function SuggestAction(prices: seq<real>, smas: Smas, bounceTol: real, rejectTol: real): (a: Advice)
    requires |prices| > 0
    ensures a.suggestion in Suggestions
    ensures a.suggestion == Buy ==> Uptrend(smas)
    ensures a.suggestion == Sell ==> Downtrend(smas)
    ensures a.suggestion == LongBias ==> smas.smaShort > smas.smaLong && PriceAboveBoth(prices[|prices| - 1], smas)
    ensures a.suggestion == ShortBias ==> smas.smaShort < smas.smaLong && PriceBelowBoth(prices[|prices| - 1], smas)
  {
    var lastPrice := prices[|prices| - 1];
    var uptrend := Uptrend(smas);
    var downtrend := Downtrend(smas);
    var priceAboveBoth := PriceAboveBoth(lastPrice, smas);
    var priceBelowBoth := PriceBelowBoth(lastPrice, smas);
    if downtrend && Patterns.IsBreakdownBelowRecentLow(prices, BreakoutLookback) && priceBelowBoth then
      Outcome(BreakdownRule)
    else if downtrend && Patterns.IsPullbackToSmaShortAndRejectDown(prices, smas.smaShort, rejectTol) then
      Outcome(RejectRule)
    else if uptrend && Patterns.IsBreakoutAboveRecentHigh(prices, 5) && priceAboveBoth then
      Outcome(BreakoutRule)
    else if uptrend && Patterns.IsPullbackToSmaShortAndBounce(prices, smas.smaShort, bounceTol) then
      Outcome(BounceRule)
    else if GoldenCross(smas) && uptrend && priceAboveBoth then
      Outcome(GoldenCrossRule)
    else if DeathCross(smas) && downtrend && priceBelowBoth then
      Outcome(DeathCrossRule)
    else if smas.smaShort > smas.smaLong && priceAboveBoth then
      Outcome(LongBiasRule)
    else if smas.smaShort < smas.smaLong && priceBelowBoth then
      Outcome(ShortBiasRule)
    else
      NoEdge
  }

  /** The cascade is exactly "first satisfied rule in priority order, else HOLD". */
  lemma SuggestActionIsFirstMatch(prices: seq<real>, smas: Smas, bounceTol: real, rejectTol: real)
    requires |prices| > 0
    ensures SuggestAction(prices, smas, bounceTol, rejectTol) == FirstMatch(Priority, prices, smas, bounceTol, rejectTol)
  {
    var p := Priority;
    if Guard(p[0], prices, smas, bounceTol, rejectTol) {
      FirstMatchPicksEarliest(p, 0, prices, smas, bounceTol, rejectTol);
    } else if Guard(p[1], prices, smas, bounceTol, rejectTol) {
      FirstMatchPicksEarliest(p, 1, prices, smas, bounceTol, rejectTol);
    } else if Guard(p[2], prices, smas, bounceTol, rejectTol) {
      FirstMatchPicksEarliest(p, 2, prices, smas, bounceTol, rejectTol);
    } else if Guard(p[3], prices, smas, bounceTol, rejectTol) {
      FirstMatchPicksEarliest(p, 3, prices, smas, bounceTol, rejectTol);
    } else if Guard(p[4], prices, smas, bounceTol, rejectTol) {
      FirstMatchPicksEarliest(p, 4, prices, smas, bounceTol, rejectTol);
    } else if Guard(p[5], prices, smas, bounceTol, rejectTol) {
      FirstMatchPicksEarliest(p, 5, prices, smas, bounceTol, rejectTol);
    } else if Guard(p[6], prices, smas, bounceTol, rejectTol) {
      FirstMatchPicksEarliest(p, 6, prices, smas, bounceTol, rejectTol);
    } else if Guard(p[7], prices, smas, bounceTol, rejectTol) {
      FirstMatchPicksEarliest(p, 7, prices, smas, bounceTol, rejectTol);
    } else {
      FirstMatchNoEdgeIffNoGuard(p, prices, smas, bounceTol, rejectTol);
    }
  }

  /** A fired rule decides the result: no later rule is consulted. */
  lemma {:induction false} FirstMatchPicksEarliest(rules: seq<Rule>, k: nat, prices: seq<real>, smas: Smas, bounceTol: real, rejectTol: real)
    requires |prices| > 0 && k < |rules|
    requires Guard(rules[k], prices, smas, bounceTol, rejectTol)
    requires forall j :: 0 <= j < k ==> !Guard(rules[j], prices, smas, bounceTol, rejectTol)
    ensures FirstMatch(rules, prices, smas, bounceTol, rejectTol) == Outcome(rules[k])
  {
    if k > 0 {
      assert !Guard(rules[0], prices, smas, bounceTol, rejectTol);
      FirstMatchPicksEarliest(rules[1..], k - 1, prices, smas, bounceTol, rejectTol);
    }
  }

  /** The neutral default is given exactly when no rule fires. */
  lemma {:induction false} FirstMatchNoEdgeIffNoGuard(rules: seq<Rule>, prices: seq<real>, smas: Smas, bounceTol: real, rejectTol: real)
    requires |prices| > 0
    ensures FirstMatch(rules, prices, smas, bounceTol, rejectTol) == NoEdge <==>
      forall j :: 0 <= j < |rules| ==> !Guard(rules[j], prices, smas, bounceTol, rejectTol)
  {
    if |rules| > 0 {
      assert Outcome(rules[0]) != NoEdge;
      FirstMatchNoEdgeIffNoGuard(rules[1..], prices, smas, bounceTol, rejectTol);
      assert forall j :: 1 <= j < |rules| ==> rules[j] == rules[1..][j - 1];
    }
  }

  /** The trend flags, and the price-confirmation flags, never hold together. */
  lemma FlagsExclusive(lastPrice: real, smas: Smas)
    ensures !(Uptrend(smas) && Downtrend(smas))
    ensures !(PriceAboveBoth(lastPrice, smas) && PriceBelowBoth(lastPrice, smas))
    ensures !(GoldenCross(smas) && DeathCross(smas))
  {
  }

  /** Breakout and golden-cross BUYs need price above both averages; their SELL mirrors below. */
  lemma ConfirmedRulesNeedPriceConfirmation(prices: seq<real>, smas: Smas, bounceTol: real, rejectTol: real)
    requires |prices| > 0
    ensures var a := SuggestAction(prices, smas, bounceTol, rejectTol);
      (a == Outcome(BreakoutRule) || a == Outcome(GoldenCrossRule)) ==> PriceAboveBoth(prices[|prices| - 1], smas)
    ensures var a := SuggestAction(prices, smas, bounceTol, rejectTol);
      (a == Outcome(BreakdownRule) || a == Outcome(DeathCrossRule)) ==> PriceBelowBoth(prices[|prices| - 1], smas)
    ensures SuggestAction(prices, smas, bounceTol, rejectTol) == Outcome(GoldenCrossRule) ==> GoldenCross(smas)
    ensures SuggestAction(prices, smas, bounceTol, rejectTol) == Outcome(DeathCrossRule) ==> DeathCross(smas)
  {
  }

  /** With flat averages (no trend either way) the engine never trades. */
  lemma NoTrendNoTrade(prices: seq<real>, smas: Smas, bounceTol: real, rejectTol: real)
    requires |prices| > 0
    requires smas.smaShort == smas.smaLong
    ensures SuggestAction(prices, smas, bounceTol, rejectTol) == NoEdge
  {
  }

  /** A fall through the recent low in a downtrend is a breakdown SELL. */
  lemma BreakdownScenario()
    ensures SuggestAction([100.0, 99.0, 98.0, 97.0, 96.0, 90.0], Smas(95.0, 100.0, 96.0, 101.0), 0.01, 0.01)
         == Outcome(BreakdownRule)
  {
    var p := [100.0, 99.0, 98.0, 97.0, 96.0, 90.0];
    assert forall i :: 0 <= i < 5 ==> 90.0 < p[i] * (1.0 - Patterns.Epsilon);
  }

  /** A rise through the recent high in an uptrend is a breakout BUY. */
  lemma BreakoutScenario()
    ensures SuggestAction([100.0, 101.0, 102.0, 103.0, 104.0, 110.0], Smas(105.0, 100.0, 104.0, 99.0), 0.01, 0.01)
         == Outcome(BreakoutRule)
  {
    var p := [100.0, 101.0, 102.0, 103.0, 104.0, 110.0];
    assert forall i :: 0 <= i < 5 ==> 110.0 > p[i] * (1.0 + Patterns.Epsilon);
  }
}

=== FILE: sma.dfy ===
/**
 * Simple moving averages (src/indicators/sma.rs, and the fixed 20/50 duplicate in
 * src/indicators.rs, which shares these definitions).
 */
module Sma {
  import opened Wrappers
  import opened Series

  /** Current and previous-candle short/long averages. */
  datatype Smas = Smas(smaShort: real, smaLong: real, prevSmaShort: real, prevSmaLong: real)

  datatype SmaConfig = SmaConfig(shortWindow: nat, longWindow: nat)

  /** `SmaConfig::sma_20_50`, also the fixed windows of the older `compute_smas`. */
  const Sma20And50: SmaConfig := SmaConfig(20, 50)

  /** The last `window` prices. */
  function Trailing(prices: seq<real>, window: nat): seq<real>
    requires window <= |prices|
  {
    prices[|prices| - window..]
  }

  /** Mean of the last `window` prices, or None when there are fewer than `window`. */
  function SimpleMovingAverage(prices: seq<real>, window: nat): (r: Option<real>)
    requires window >= 1
    ensures r.None? <==> |prices| < window
    ensures r.Some? ==> r.value * window as real == Sum(Trailing(prices, window))
  {
    if |prices| < window then None
    else
      MeanTimesCount(Trailing(prices, window));
      Some(Mean(Trailing(prices, window)))
  }

  /** A defined average lies between the smallest and largest price of its window. */
  lemma SmaWithinWindowRange(prices: seq<real>, window: nat)
    requires 1 <= window <= |prices|
    ensures Min(Trailing(prices, window)) <= SimpleMovingAverage(prices, window).value
    ensures SimpleMovingAverage(prices, window).value <= Max(Trailing(prices, window))
  {
    assert SimpleMovingAverage(prices, window).value == Mean(Trailing(prices, window));
    MeanWithinRange(Trailing(prices, window));
  }

  /** With a window of one the average is the last price. */
  lemma SmaWindowOneIsLast(prices: seq<real>)
    requires |prices| >= 1
    ensures SimpleMovingAverage(prices, 1) == Some(prices[|prices| - 1])
  {
    assert Trailing(prices, 1) == [prices[|prices| - 1]];
    MeanWithinRange(Trailing(prices, 1));
  }

  /** The average of a flat window is the flat price. */
  lemma SmaOfFlatWindow(prices: seq<real>, window: nat, c: real)
    requires 1 <= window <= |prices|
    requires forall i :: |prices| - window <= i < |prices| ==> prices[i] == c
    ensures SimpleMovingAverage(prices, window) == Some(c)
  {
    MeanWithinRange(Trailing(prices, window));
    MinIsElement(Trailing(prices, window));
    MaxIsElement(Trailing(prices, window));
  }

  /** Prices older than the window do not affect the average. */
  lemma SmaIgnoresOlderPrices(older: seq<real>, prices: seq<real>, window: nat)
    requires 1 <= window <= |prices|
    ensures SimpleMovingAverage(older + prices, window) == SimpleMovingAverage(prices, window)
  {
    assert Trailing(older + prices, window) == Trailing(prices, window);
  }

  /**
   * Current and previous short/long averages. Defined exactly when there is one more
   * price than the long window and the short window also fits the previous slice.
   */
  function ComputeSmas(prices: seq<real>, cfg: SmaConfig): (r: Option<Smas>)
    requires cfg.shortWindow >= 1 && cfg.longWindow >= 1
    ensures r.Some? <==> |prices| >= cfg.longWindow + 1 && |prices| >= cfg.shortWindow + 1
  {
    if |prices| < cfg.longWindow + 1 then None
    else
      var prevSlice := prices[..|prices| - 1];
      var short := SimpleMovingAverage(prices, cfg.shortWindow);
      var long := SimpleMovingAverage(prices, cfg.longWindow);
      var prevShort := SimpleMovingAverage(prevSlice, cfg.shortWindow);
      var prevLong := SimpleMovingAverage(prevSlice, cfg.longWindow);
      if short.None? || long.None? || prevShort.None? || prevLong.None? then None
      else Some(Smas(short.value, long.value, prevShort.value, prevLong.value))
  }

  /** If the short window is not longer than the long one, only the long window decides. */
  lemma ComputeSmasDefinedIff(prices: seq<real>, cfg: SmaConfig)
    requires 1 <= cfg.shortWindow <= cfg.longWindow
    ensures ComputeSmas(prices, cfg).Some? <==> |prices| >= cfg.longWindow + 1
  {
  }

  /**
   * The previous-candle values are the current values of the series one sample earlier,
   * and the current values are the plain trailing averages.
   */
  lemma PrevSmasAreOneSampleEarlier(prices: seq<real>, cfg: SmaConfig)
    requires cfg.shortWindow >= 1 && cfg.longWindow >= 1
    requires ComputeSmas(prices, cfg).Some?
    ensures var now := ComputeSmas(prices, cfg).value;
      && Some(now.smaShort) == SimpleMovingAverage(prices, cfg.shortWindow)
      && Some(now.smaLong) == SimpleMovingAverage(prices, cfg.longWindow)
      && Some(now.prevSmaShort) == SimpleMovingAverage(prices[..|prices| - 1], cfg.shortWindow)
      && Some(now.prevSmaLong) == SimpleMovingAverage(prices[..|prices| - 1], cfg.longWindow)
    ensures ComputeSmas(prices[..|prices| - 1], cfg).Some? ==>
      && ComputeSmas(prices[..|prices| - 1], cfg).value.smaShort == ComputeSmas(prices, cfg).value.prevSmaShort
      && ComputeSmas(prices[..|prices| - 1], cfg).value.smaLong == ComputeSmas(prices, cfg).value.prevSmaLong
  {
  }

  /** The older fixed-window `compute_smas`: SMA20/SMA50 and their previous values. */
  function ComputeSmas2050(prices: seq<real>): (r: Option<Smas>)
    ensures r.None? <==> |prices| < 51
    ensures r.Some? ==> r.value.smaShort * 20.0 == Sum(prices[|prices| - 20..])
    ensures r.Some? ==> r.value.smaLong * 50.0 == Sum(prices[|prices| - 50..])
  {
    ComputeSmas(prices, Sma20And50)
  }

  /** The prices `1, 2, ..., n`. */
  function OneTo(n: nat): seq<real>
  {
    seq(n, i => (i + 1) as real)
  }

  /** The mean of `a, a+1, ..., a+n-1` is `a + (n-1)/2`. */
  lemma MeanOfProgression(a: real, n: nat)
    requires n > 0
    ensures Mean(seq(n, i => a + i as real)) == a + (n - 1) as real / 2.0
  {
    var s := seq(n, i => a + i as real);
    SumProgression(a, n);
    var m := Mean(s);
    MeanTimesCount(s);
    var target := a + (n - 1) as real / 2.0;
    assert target * n as real == n as real * a + n as real * (n as real - 1.0) / 2.0;
    CancelPositive(m, target, n as real);
  }

  /** A trailing window holding `a, a+1, ..., a+w-1` averages to `a + (w-1)/2`. */
  lemma SmaOfProgressionWindow(prices: seq<real>, window: nat, a: real)
    requires 1 <= window <= |prices|
    requires forall i :: 0 <= i < window ==> Trailing(prices, window)[i] == a + i as real
    ensures SimpleMovingAverage(prices, window) == Some(a + (window - 1) as real / 2.0)
  {
    assert Trailing(prices, window) == seq(window, i => a + i as real);
    MeanOfProgression(a, window);
  }

  /** The trailing `w` values of `1, ..., n` are the progression starting at `n - w + 1`. */
  lemma SmaOfOneTo(n: nat, w: nat)
    requires 1 <= w <= n
    ensures SimpleMovingAverage(OneTo(n), w) == Some((n - w + 1) as real + (w - 1) as real / 2.0)
  {
    var p := OneTo(n);
    forall i | 0 <= i < w
      ensures Trailing(p, w)[i] == (n - w + 1) as real + i as real
    {
      assert Trailing(p, w)[i] == p[n - w + i];
    }
    SmaOfProgressionWindow(p, w, (n - w + 1) as real);
  }

  /** On the prices 1..=51 the four averages are 41.5, 26.5, 40.5 and 25.5. */
  lemma ComputeSmas2050OnOneToFiftyOne()
    ensures ComputeSmas2050(OneTo(51)) == Some(Smas(41.5, 26.5, 40.5, 25.5))
  {
    assert OneTo(51)[..50] == OneTo(50);
    SmaOfOneTo(51, 20);
    SmaOfOneTo(51, 50);
    SmaOfOneTo(50, 20);
    SmaOfOneTo(50, 50);
  }
}

=== FILE: sorting.dfy ===
/** Ascending sort of a list of reals (the `sort_by(partial_cmp)` used for percentile floors). */
module Sorting {

  predicate Sorted(s: seq<real>)
  {
    forall i, j :: 0 <= i < j < |s| ==> s[i] <= s[j]
  }

  /** Every element of `s` is at least `lo`. */
  predicate AllAtLeast(s: seq<real>, lo: real)
  {
    forall k :: 0 <= k < |s| ==> lo <= s[k]
  }

  /** Inserts `x` before the first element it does not exceed. */
  function Insert(x: real, s: seq<real>): (r: seq<real>)
    ensures |r| == |s| + 1
  {
    if |s| == 0 then [x]
    else if x <= s[0] then [x] + s
    else [s[0]] + Insert(x, s[1..])
  }

  /** Insertion sort, inserting the last element into the sorted prefix. */
  function Sort(s: seq<real>): (r: seq<real>)
    ensures |r| == |s|
  {
    if |s| == 0 then []
    else Insert(s[|s| - 1], Sort(s[..|s| - 1]))
  }

  /** Insertion adds exactly the inserted element. */
  lemma {:induction false} InsertPermutes(x: real, s: seq<real>)
    ensures multiset(Insert(x, s)) == multiset(s) + multiset{x}
  {
    if |s| > 0 && x > s[0] {
      InsertPermutes(x, s[1..]);
      assert s == [s[0]] + s[1..];
    }
  }

  /** A lower bound of the list and of the new element bounds the result. */
  lemma InsertKeepsLowerBound(x: real, s: seq<real>, lo: real)
    requires AllAtLeast(s, lo) && lo <= x
    ensures AllAtLeast(Insert(x, s), lo)
  {
    var r := Insert(x, s);
    InsertPermutes(x, s);
    forall k | 0 <= k < |r|
      ensures lo <= r[k]
    {
      assert r[k] in multiset(r);
      assert r[k] in multiset(s) + multiset{x};
      if r[k] != x {
        assert r[k] in s;
      }
    }
  }

  /** Inserting into a sorted list keeps it sorted. */
  lemma {:induction false} InsertSorted(x: real, s: seq<real>)
    requires Sorted(s)
    ensures Sorted(Insert(x, s))
  {
    if |s| > 0 && x > s[0] {
      var tail := s[1..];
      assert Sorted(tail);
      InsertSorted(x, tail);
      var rest := Insert(x, tail);
      assert AllAtLeast(tail, s[0]);
      InsertKeepsLowerBound(x, tail, s[0]);
      var r := [s[0]] + rest;
      forall i, j | 0 <= i < j < |r|
        ensures r[i] <= r[j]
      {
        if i == 0 {
          assert r[j] == rest[j - 1];
        } else {
          assert r[i] == rest[i - 1] && r[j] == rest[j - 1];
        }
      }
    } else if |s| > 0 {
      var r := [x] + s;
      forall i, j | 0 <= i < j < |r|
        ensures r[i] <= r[j]
      {
        if i == 0 {
          assert r[j] == s[j - 1];
        } else {
          assert r[i] == s[i - 1] && r[j] == s[j - 1];
        }
      }
    }
  }

  /** Insertion sort returns an ascending permutation of its input. */
  lemma {:induction false} SortCorrect(s: seq<real>)
    ensures Sorted(Sort(s))
    ensures multiset(Sort(s)) == multiset(s)
  {
    if |s| > 0 {
      var init := s[..|s| - 1];
      SortCorrect(init);
      InsertSorted(s[|s| - 1], Sort(init));
      InsertPermutes(s[|s| - 1], Sort(init));
      assert s == init + [s[|s| - 1]];
    }
  }

  /** The first element of the sorted list is the minimum, the last the maximum. */
  lemma SortedEnds(s: seq<real>, x: real)
    requires x in s
    ensures |Sort(s)| > 0
    ensures Sort(s)[0] <= x <= Sort(s)[|s| - 1]
  {
    var r := Sort(s);
    SortCorrect(s);
    assert x in multiset(s);
    assert x in r;
    var k :| 0 <= k < |r| && r[k] == x;
    if 0 < k {
      assert r[0] <= r[k];
    }
    if k < |r| - 1 {
      assert r[k] <= r[|r| - 1];
    }
  }

  /** Every element of the sorted list comes from the input. */
  lemma SortedElement(s: seq<real>, i: nat)
    requires i < |s|
    ensures Sort(s)[i] in s
  {
    SortCorrect(s);
    assert Sort(s)[i] in multiset(Sort(s));
  }
}

=== FILE: spot.dfy ===
/**
 * The spot replay (src/backtest/spot.rs): a long-only account of cash and coin. A Buy spends a
 * fraction of the cash on coin, a Sell sells the same fraction of the coin and records a trade;
 * both pay the fee. Positions are never force-closed: the final equity marks the coin at the
 * last price. The decision engine is replaced by a stream of signals, one per sample.
 */
module SpotBacktest {
  import opened Wrappers
  import opened Series
  import opened Common
  import Data
  import Sma

  /** One (possibly partial) sale with the cost basis allotted to the coins sold. */
  datatype Trade = Trade(
    entryTime: int,
    exitTime: int,
    entryPrice: real,
    exitPrice: real,
    entryValue: real,
    exitValue: real,
    profit: real,
    returnPct: real)

  /** Starting cash and coin, the fee in basis points, the trade fraction and the SMA windows. */
  datatype SpotConfig = SpotConfig(
    initialCash: real,
    initialCoin: real,
    feeBps: real,
    buySellFraction: real,
    smaConfig: Sma.SmaConfig)

  /**
   * The loop's state: cash, coin held, the cost basis of the coin, whether a position is open,
   * when it was opened, the average entry price, and the trades and equity points so far.
   */
  datatype Account = Account(
    cash: real,
    coin: real,
    basis: real,
    inPosition: bool,
    entryTime: int,
    avgEntry: real,
    trades: seq<Trade>,
    curve: seq<EquityPoint>)

  /** What is left of an amount after the fee: `1 - bps / 10 000`. */
  function FeeMult(feeBps: real): (m: real)
    ensures feeBps <= 10000.0 <==> m >= 0.0
    ensures feeBps >= 0.0 <==> m <= 1.0
    ensures feeBps == 0.0 <==> m == 1.0
  {
    1.0 - feeBps / 10000.0
  }

  /** Cash plus the coin marked at `price`; unrealised positions pay no fee. */
  function Equity(a: Account, price: real): real
  {
    a.cash + a.coin * price
  }

  /** The first price, floored at zero. */
  function FirstPrice(samples: seq<Data.Sample>): (p: real)
    requires |samples| > 0
    ensures p >= 0.0
    ensures samples[0].price >= 0.0 ==> p == samples[0].price
  {
    if samples[0].price >= 0.0 then samples[0].price else 0.0
  }

  /** The initial coin counts as bought at the first price, without a fee. */
  function Start(cfg: SpotConfig, samples: seq<Data.Sample>): (a: Account)
    requires |samples| > 0
    ensures a.cash == cfg.initialCash && a.coin == cfg.initialCoin && a.trades == [] && a.curve == []
    ensures a.inPosition <==> cfg.initialCoin > 0.0
  {
    var first := FirstPrice(samples);
    Account(cfg.initialCash, cfg.initialCoin, cfg.initialCoin * first, cfg.initialCoin > 0.0,
      samples[0].ts, if cfg.initialCoin > 0.0 then first else 0.0, [], [])
  }

  /** The equity the curve starts from: cash plus the initial coin at the first price. */
  function InitialEquity(cfg: SpotConfig, samples: seq<Data.Sample>): real
    requires |samples| > 0
  {
    Equity(Start(cfg, samples), FirstPrice(samples))
  }

  /** The gross amount a Buy spends. */
  function InvestGross(a: Account, frac: real): real
  {
    a.cash * frac
  }

  /** The coin a Buy receives for the gross amount net of the fee. */
  function BuyQty(a: Account, price: real, frac: real, feeMult: real): real
    requires price > 0.0
  {
    InvestGross(a, frac) * feeMult / price
  }

  /** A Buy goes through: positive fraction, cash and price, and some coin bought. */
  predicate BuyFills(a: Account, price: real, frac: real, feeMult: real)
  {
    frac > 0.0 && a.cash > 0.0 && price > 0.0 && InvestGross(a, frac) > 0.0 && BuyQty(a, price, frac, feeMult) > 0.0
  }

  /**
   * A Buy signal: spend `cash * frac`, receive the net amount in coin at `price`, add the net
   * amount to the cost basis; going from flat to long starts a new entry time.
   */
  function ApplyBuy(a: Account, price: real, ts: int, frac: real, feeMult: real): (r: Account)
    ensures r.trades == a.trades && r.curve == a.curve
    ensures !BuyFills(a, price, frac, feeMult) ==> r == a
  {
    if !BuyFills(a, price, frac, feeMult) then a
    else
      var gross := InvestGross(a, frac);
      var net := gross * feeMult;
      var qty := net / price;
      var opens := !a.inPosition && a.coin == 0.0;
      var coin := a.coin + qty;
      var basis := a.basis + net;
      a.(cash := a.cash - gross, coin := coin, basis := basis,
         inPosition := if opens then true else a.inPosition,
         entryTime := if opens then ts else a.entryTime,
         avgEntry := if coin > 0.0 then basis / coin else 0.0)
  }

  /** The coin a Sell sells. */
  function SellQty(a: Account, frac: real): real
  {
    a.coin * frac
  }

  /** What a Sell brings in after the fee. */
  function ExitValue(a: Account, price: real, frac: real, feeMult: real): real
  {
    SellQty(a, frac) * price * feeMult
  }

  /** The cost basis allotted to the coins sold: the basis times the share of the holding sold. */
  function ChunkBasis(a: Account, frac: real): real
  {
    if a.basis > 0.0 && a.coin > 0.0 then a.basis * (SellQty(a, frac) / a.coin) else 0.0
  }

  /** A Sell goes through: positive fraction, coin and price, and some coin sold. */
  predicate SellFills(a: Account, price: real, frac: real)
  {
    frac > 0.0 && a.coin > 0.0 && price > 0.0 && SellQty(a, frac) > 0.0
  }

  /** The trade a Sell records. */
  function SoldTrade(a: Account, price: real, ts: int, frac: real, feeMult: real): (t: Trade)
    requires SellFills(a, price, frac)
    ensures t.entryTime == a.entryTime && t.exitTime == ts && t.exitPrice == price
    ensures t.entryValue == ChunkBasis(a, frac) && t.exitValue == ExitValue(a, price, frac, feeMult)
    ensures t.profit == t.exitValue - t.entryValue
    ensures t.entryValue <= 0.0 ==> t.returnPct == 0.0
  {
    var entryValue := ChunkBasis(a, frac);
    var exitValue := ExitValue(a, price, frac, feeMult);
    var avgChunk := if a.basis > 0.0 && a.coin > 0.0 then entryValue / SellQty(a, frac) else a.avgEntry;
    Trade(a.entryTime, ts, avgChunk, price, entryValue, exitValue, exitValue - entryValue,
      if entryValue > 0.0 then exitValue / entryValue - 1.0 else 0.0)
  }

  /**
   * A Sell signal: sell `coin * frac`, take the proceeds after the fee, release the matching
   * share of the cost basis and record the trade; selling everything closes the position.
   */
  function ApplySell(a: Account, price: real, ts: int, frac: real, feeMult: real): (r: Account)
    ensures r.curve == a.curve
    ensures !SellFills(a, price, frac) ==> r == a
    ensures SellFills(a, price, frac) ==> r.trades == a.trades + [SoldTrade(a, price, ts, frac, feeMult)]
  {
    if !SellFills(a, price, frac) then a
    else
      var coin := a.coin - SellQty(a, frac);
      var basis := if a.basis > 0.0 && a.coin > 0.0 then a.basis - ChunkBasis(a, frac) else a.basis;
      var sold := a.(cash := a.cash + ExitValue(a, price, frac, feeMult), coin := coin, basis := basis,
                     trades := a.trades + [SoldTrade(a, price, ts, frac, feeMult)]);
      if coin <= 0.0 then sold.(inPosition := false, basis := 0.0, avgEntry := 0.0) else sold
  }

  /** Acting on one signal. */
  function Act(a: Account, sig: Signal, price: real, ts: int, frac: real, feeMult: real): (r: Account)
    ensures r.curve == a.curve
  {
    match sig
    case Buy => ApplyBuy(a, price, ts, frac, feeMult)
    case Sell => ApplySell(a, price, ts, frac, feeMult)
  }

  /** The sign of a product with a positive factor is the sign of the other factor. */
  lemma SignOfProduct(x: real, y: real)
    requires x > 0.0
    ensures x * y > 0.0 <==> y > 0.0
    ensures y >= 0.0 ==> x * y >= 0.0
  {
    if y > 0.0 {
      PositiveProduct(x, y);
    } else {
      MulMonotone(x, y, 0.0);
    }
  }

  /** Dividing by a positive number keeps the sign. */
  lemma SignOfQuotient(x: real, y: real)
    requires y > 0.0
    ensures x / y > 0.0 <==> x > 0.0
  {
    QuotientFacts(x, y);
    SignOfProduct(y, x / y);
  }

  /** Selling the share `frac` of a positive holding sells exactly that share. */
  lemma ShareOfHolding(coin: real, frac: real)
    requires coin > 0.0
    ensures (coin * frac) / coin == frac
  {
    QuotientTimes(coin * frac, coin, (coin * frac) / coin);
    CancelPositive((coin * frac) / coin, frac, coin);
  }

  /** With a fraction of at most one, the holding is sold out only by a fraction of exactly one. */
  lemma SoldOut(coin: real, frac: real)
    requires coin > 0.0 && frac <= 1.0 && coin - coin * frac <= 0.0
    ensures frac == 1.0
  {
    MulStrict(coin, frac, 1.0);
  }

  /** Scaling an average-cost relation by the share kept. */
  lemma KeptShare(avg: real, coin: real, basis: real, frac: real)
    requires avg * coin == basis
    ensures avg * (coin - coin * frac) == basis - basis * frac
  {
    assert avg * (coin - coin * frac) == avg * coin * (1.0 - frac);
    assert basis - basis * frac == basis * (1.0 - frac);
  }

  /** The fee never adds to the amount: `gross * feeMult <= gross` for `feeMult <= 1`. */
  lemma FeeTakes(gross: real, feeMult: real)
    requires gross >= 0.0
    ensures feeMult <= 1.0 ==> gross * feeMult <= gross
    ensures feeMult == 1.0 ==> gross * feeMult == gross
  {
    if feeMult <= 1.0 {
      MulMonotone(gross, feeMult, 1.0);
    }
  }

  /** A fill needs only positive inputs and a positive fee multiplier. */
  lemma BuyFillsExactly(a: Account, price: real, frac: real, feeMult: real)
    ensures BuyFills(a, price, frac, feeMult) <==> frac > 0.0 && a.cash > 0.0 && price > 0.0 && feeMult > 0.0
  {
    if frac > 0.0 && a.cash > 0.0 && price > 0.0 {
      PositiveProduct(a.cash, frac);
      SignOfProduct(InvestGross(a, frac), feeMult);
      SignOfQuotient(InvestGross(a, frac) * feeMult, price);
    }
  }

  lemma SellFillsExactly(a: Account, price: real, frac: real)
    ensures SellFills(a, price, frac) <==> frac > 0.0 && a.coin > 0.0 && price > 0.0
  {
    if frac > 0.0 && a.coin > 0.0 {
      PositiveProduct(a.coin, frac);
    }
  }

  /**
   * A Buy that fills spends `cash * frac`, and the coin it adds is worth, at the buy price, the
   * amount spent net of the fee, which is also what the cost basis grows by.
   */
  lemma BuyEffect(a: Account, price: real, ts: int, frac: real, feeMult: real)
    requires BuyFills(a, price, frac, feeMult)
    ensures var r := ApplyBuy(a, price, ts, frac, feeMult);
      && r.cash == a.cash - a.cash * frac
      && r.basis - a.basis == (a.cash - r.cash) * feeMult
      && (r.coin - a.coin) * price == r.basis - a.basis
      && r.coin > a.coin
      && r.entryTime == (if !a.inPosition && a.coin == 0.0 then ts else a.entryTime)
  {
    QuotientFacts(InvestGross(a, frac) * feeMult, price);
  }

  /**
   * A Sell that fills sells `coin * frac`, credits the proceeds after the fee, and releases the
   * basis share `frac`; the recorded trade carries that share as its entry value.
   */
  lemma SellEffect(a: Account, price: real, ts: int, frac: real, feeMult: real)
    requires SellFills(a, price, frac)
    ensures var r := ApplySell(a, price, ts, frac, feeMult);
      && r.coin == a.coin - a.coin * frac
      && r.cash == a.cash + a.coin * frac * price * feeMult
      && (a.basis > 0.0 ==> r.trades[|a.trades|].entryValue == a.basis * frac)
      && (r.coin > 0.0 ==> r.basis == a.basis - r.trades[|a.trades|].entryValue)
      && (r.coin <= 0.0 ==> r.basis == 0.0 && !r.inPosition)
  {
    var r := ApplySell(a, price, ts, frac, feeMult);
    var t := SoldTrade(a, price, ts, frac, feeMult);
    assert r.trades[|a.trades|] == t;
    assert r.coin == a.coin - SellQty(a, frac);
    assert r.cash == a.cash + ExitValue(a, price, frac, feeMult);
    ShareOfHolding(a.coin, frac);
    assert a.basis > 0.0 ==> t.entryValue == a.basis * frac;
    assert r.coin > 0.0 ==> r.basis == a.basis - t.entryValue;
  }

  /** A trade's return is its profit per unit of entry value. */
  lemma SoldTradeReturn(a: Account, price: real, ts: int, frac: real, feeMult: real)
    requires SellFills(a, price, frac)
    ensures var t := SoldTrade(a, price, ts, frac, feeMult);
      t.entryValue > 0.0 ==> (t.returnPct + 1.0) * t.entryValue == t.exitValue
  {
    if ChunkBasis(a, frac) > 0.0 {
      QuotientFacts(ExitValue(a, price, frac, feeMult), ChunkBasis(a, frac));
    }
  }

  /** The holding is never negative, nor is its basis; a position is open exactly when coin is held. */
  predicate Holding(a: Account)
  {
    && a.coin >= 0.0 && a.basis >= 0.0
    && (a.inPosition <==> a.coin > 0.0)
    && (a.coin == 0.0 ==> a.basis == 0.0)
  }

  /** The average entry price times the coin held is the cost basis. */
  predicate AverageCost(a: Account)
  {
    a.coin > 0.0 ==> a.avgEntry * a.coin == a.basis
  }

  /** Total profit of the recorded trades. */
  function TotalTradeProfit(trades: seq<Trade>): real
  {
    if |trades| == 0 then 0.0 else TotalTradeProfit(trades[..|trades| - 1]) + trades[|trades| - 1].profit
  }

  /** Cash plus cost basis, less the realised profit: the capital put in, less the buy fees paid. */
  function Capital(a: Account): real
  {
    a.cash + a.basis - TotalTradeProfit(a.trades)
  }

  /** A Buy keeps the holding invariants and sets the average entry price to basis over coin. */
  lemma BuyKeepsHolding(a: Account, price: real, ts: int, frac: real, feeMult: real)
    requires Holding(a) && AverageCost(a)
    ensures Holding(ApplyBuy(a, price, ts, frac, feeMult)) && AverageCost(ApplyBuy(a, price, ts, frac, feeMult))
  {
    if BuyFills(a, price, frac, feeMult) {
      var r := ApplyBuy(a, price, ts, frac, feeMult);
      assert r.coin == a.coin + BuyQty(a, price, frac, feeMult);
      assert r.basis == a.basis + InvestGross(a, frac) * feeMult;
      SignOfQuotient(InvestGross(a, frac) * feeMult, price);
      assert r.coin > 0.0 && r.basis > 0.0;
      QuotientFacts(r.basis, r.coin);
    }
  }

  /**
   * A Buy with a fraction of at most one leaves no negative cash, and loses capital only to the
   * fee: none without a fee.
   */
  lemma BuyKeepsLedger(a: Account, price: real, ts: int, frac: real, feeMult: real)
    requires frac <= 1.0
    ensures var r := ApplyBuy(a, price, ts, frac, feeMult);
      && (a.cash >= 0.0 ==> r.cash >= 0.0)
      && (feeMult <= 1.0 ==> Capital(r) <= Capital(a))
      && (feeMult == 1.0 ==> Capital(r) == Capital(a))
  {
    if BuyFills(a, price, frac, feeMult) {
      var r := ApplyBuy(a, price, ts, frac, feeMult);
      assert r.cash == a.cash - InvestGross(a, frac);
      assert r.basis == a.basis + InvestGross(a, frac) * feeMult;
      Leftover(a.cash, frac);
      assert Capital(r) == Capital(a) - InvestGross(a, frac) + InvestGross(a, frac) * feeMult;
      FeeTakes(InvestGross(a, frac), feeMult);
    }
  }

  /** A Sell with a fraction of at most one keeps the holding invariants and the average entry price. */
  lemma SellKeepsHolding(a: Account, price: real, ts: int, frac: real, feeMult: real)
    requires Holding(a) && AverageCost(a) && frac <= 1.0
    ensures Holding(ApplySell(a, price, ts, frac, feeMult)) && AverageCost(ApplySell(a, price, ts, frac, feeMult))
  {
    if SellFills(a, price, frac) {
      var r := ApplySell(a, price, ts, frac, feeMult);
      assert r.coin == a.coin - a.coin * frac;
      ShareOfHolding(a.coin, frac);
      Leftover(a.coin, frac);
      Leftover(a.basis, frac);
      if r.coin > 0.0 {
        assert r.basis == a.basis - a.basis * frac || (a.basis <= 0.0 && r.basis == a.basis);
        assert r.avgEntry == a.avgEntry;
        KeptShare(a.avgEntry, a.coin, a.basis, frac);
      }
    }
  }

  /**
   * A Sell with a fraction of at most one keeps capital unchanged (the proceeds less the released
   * basis are booked as the trade's profit) and, with a fee of at most 100%, leaves no negative cash.
   */
  lemma SellKeepsLedger(a: Account, price: real, ts: int, frac: real, feeMult: real)
    requires Holding(a) && frac <= 1.0
    ensures var r := ApplySell(a, price, ts, frac, feeMult);
      && (a.cash >= 0.0 && feeMult >= 0.0 ==> r.cash >= 0.0)
      && Capital(r) == Capital(a)
  {
    if SellFills(a, price, frac) {
      var r := ApplySell(a, price, ts, frac, feeMult);
      var t := SoldTrade(a, price, ts, frac, feeMult);
      assert r.trades == a.trades + [t];
      assert TotalTradeProfit(r.trades) == TotalTradeProfit(a.trades) + t.profit by {
        assert r.trades[..|r.trades| - 1] == a.trades;
      }
      assert r.cash == a.cash + t.exitValue;
      ShareOfHolding(a.coin, frac);
      if r.coin <= 0.0 {
        assert a.coin - a.coin * frac <= 0.0;
        SoldOut(a.coin, frac);
        assert a.basis - t.entryValue == 0.0;
      } else {
        assert r.basis == a.basis - t.entryValue;
      }
      if feeMult >= 0.0 {
        PositiveProduct(a.coin, frac);
        SignOfProduct(SellQty(a, frac), price);
        SignOfProduct(SellQty(a, frac) * price, feeMult);
      }
    }
  }

  /** Either signal keeps the holding invariants and the cash floor, and spends capital only on fees. */
  lemma ActKeepsHolding(a: Account, sig: Signal, price: real, ts: int, frac: real, feeMult: real)
    requires Holding(a) && AverageCost(a) && frac <= 1.0
    ensures var r := Act(a, sig, price, ts, frac, feeMult);
      && Holding(r) && AverageCost(r)
      && (a.cash >= 0.0 && feeMult >= 0.0 ==> r.cash >= 0.0)
      && (feeMult <= 1.0 ==> Capital(r) <= Capital(a))
      && (feeMult == 1.0 ==> Capital(r) == Capital(a))
  {
    match sig
    case Buy =>
      BuyKeepsHolding(a, price, ts, frac, feeMult);
      BuyKeepsLedger(a, price, ts, frac, feeMult);
    case Sell =>
      SellKeepsHolding(a, price, ts, frac, feeMult);
      SellKeepsLedger(a, price, ts, frac, feeMult);
  }

  /** One loop iteration: mark the equity, then act on the signal once past the warm-up. */
  function Step(cfg: SpotConfig, a: Account, sample: Data.Sample, i: nat, signal: Option<Signal>): (r: Account)
    ensures r.curve == a.curve + [EquityPoint(sample.ts, Equity(a, sample.price))]
  {
    var marked := a.(curve := a.curve + [EquityPoint(sample.ts, Equity(a, sample.price))]);
    if !Tradable(cfg.smaConfig, i) || signal.None? then marked
    else Act(marked, signal.value, sample.price, sample.ts, Clamp(cfg.buySellFraction, 0.0, 1.0), FeeMult(cfg.feeBps))
  }

  /** The account after the first `n` samples. */
  function Replay(cfg: SpotConfig, samples: seq<Data.Sample>, signals: seq<Option<Signal>>, n: nat): (a: Account)
    requires 0 < |samples| && n <= |samples|
    ensures |a.curve| == n
  {
    if n == 0 then Start(cfg, samples)
    else Step(cfg, Replay(cfg, samples, signals, n - 1), samples[n - 1], n - 1, SignalAt(signals, n - 1))
  }

  /** The starting account satisfies the invariants and its capital is the initial equity. */
  lemma StartHolding(cfg: SpotConfig, samples: seq<Data.Sample>)
    requires |samples| > 0 && cfg.initialCoin >= 0.0
    ensures Holding(Start(cfg, samples)) && AverageCost(Start(cfg, samples))
    ensures Capital(Start(cfg, samples)) == InitialEquity(cfg, samples)
  {
    MulMonotone(cfg.initialCoin, 0.0, FirstPrice(samples));
  }

  /**
   * The replay invariant for a start with no negative coin: the holding invariants; with a fee of
   * at most 100% and no negative initial cash, no negative cash; and a capital (cash plus basis
   * less realised profit) of at most the initial equity `e` with a non-negative fee, exactly `e`
   * without a fee.
   */
  predicate Sound(cfg: SpotConfig, a: Account, e: real)
  {
    && Holding(a) && AverageCost(a)
    && (cfg.initialCash >= 0.0 && cfg.feeBps <= 10000.0 ==> a.cash >= 0.0)
    && (cfg.feeBps >= 0.0 ==> Capital(a) <= e)
    && (cfg.feeBps == 0.0 ==> Capital(a) == e)
  }

  /** Marking equity and acting on a signal keep the invariant. */
  lemma StepKeepsSound(cfg: SpotConfig, a: Account, sample: Data.Sample, i: nat, signal: Option<Signal>, e: real)
    requires Sound(cfg, a, e)
    ensures Sound(cfg, Step(cfg, a, sample, i, signal), e)
  {
    var marked := a.(curve := a.curve + [EquityPoint(sample.ts, Equity(a, sample.price))]);
    assert Capital(marked) == Capital(a);
    assert Sound(cfg, marked, e);
    if Tradable(cfg.smaConfig, i) && signal.Some? {
      ActKeepsHolding(marked, signal.value, sample.price, sample.ts, Clamp(cfg.buySellFraction, 0.0, 1.0), FeeMult(cfg.feeBps));
    }
  }

  /**
   * With no negative initial coin, every replayed account holds no negative coin or basis, is in
   * a position exactly when it holds coin, and has its basis at the average entry price. With a
   * fee of at most 100% its cash never goes below zero, and its capital never exceeds the initial
   * equity, with equality when there is no fee.
   */
  lemma {:induction false} ReplayKeepsSound(cfg: SpotConfig, samples: seq<Data.Sample>, signals: seq<Option<Signal>>, n: nat)
    requires 0 < |samples| && n <= |samples| && cfg.initialCoin >= 0.0
    ensures Sound(cfg, Replay(cfg, samples, signals, n), InitialEquity(cfg, samples))
  {
    if n == 0 {
      StartHolding(cfg, samples);
    } else {
      ReplayKeepsSound(cfg, samples, signals, n - 1);
      StepKeepsSound(cfg, Replay(cfg, samples, signals, n - 1), samples[n - 1], n - 1,
        SignalAt(signals, n - 1), InitialEquity(cfg, samples));
    }
  }

  /** Total entry value of the recorded trades: the cost basis released by the sales so far. */
  function SumEntryValues(trades: seq<Trade>): real
  {
    if |trades| == 0 then 0.0 else SumEntryValues(trades[..|trades| - 1]) + trades[|trades| - 1].entryValue
  }

  /** What one loop iteration adds to the cost basis: the net amount of a Buy that goes through. */
  function Invested(cfg: SpotConfig, a: Account, i: nat, price: real, signal: Option<Signal>): real
  {
    var frac := Clamp(cfg.buySellFraction, 0.0, 1.0);
    var feeMult := FeeMult(cfg.feeBps);
    if Tradable(cfg.smaConfig, i) && signal == Some(Buy) && BuyFills(a, price, frac, feeMult)
    then InvestGross(a, frac) * feeMult
    else 0.0
  }

  /** The cost basis contributed over the first `n` samples: the initial coin's basis plus every net Buy. */
  function Contributed(cfg: SpotConfig, samples: seq<Data.Sample>, signals: seq<Option<Signal>>, n: nat): real
    requires 0 < |samples| && n <= |samples|
  {
    if n == 0 then Start(cfg, samples).basis
    else
      Contributed(cfg, samples, signals, n - 1)
      + Invested(cfg, Replay(cfg, samples, signals, n - 1), n - 1, samples[n - 1].price, SignalAt(signals, n - 1))
  }

  /** A Sell of at most the whole holding moves exactly the released basis into the new trade's entry value. */
  lemma SellConservesBasis(a: Account, price: real, ts: int, frac: real, feeMult: real)
    requires Holding(a) && frac <= 1.0
    ensures var r := ApplySell(a, price, ts, frac, feeMult);
      r.basis + SumEntryValues(r.trades) == a.basis + SumEntryValues(a.trades)
  {
    if SellFills(a, price, frac) {
      var r := ApplySell(a, price, ts, frac, feeMult);
      var t := SoldTrade(a, price, ts, frac, feeMult);
      assert SumEntryValues(r.trades) == SumEntryValues(a.trades) + t.entryValue by {
        assert r.trades[..|r.trades| - 1] == a.trades;
      }
      ShareOfHolding(a.coin, frac);
      if r.coin <= 0.0 {
        SoldOut(a.coin, frac);
        assert a.basis - t.entryValue == 0.0;
      }
    }
  }

  /** One loop iteration adds to basis plus released basis exactly what it invests. */
  lemma StepConservesBasis(cfg: SpotConfig, a: Account, sample: Data.Sample, i: nat, signal: Option<Signal>)
    requires Holding(a)
    ensures var r := Step(cfg, a, sample, i, signal);
      r.basis + SumEntryValues(r.trades) == a.basis + SumEntryValues(a.trades) + Invested(cfg, a, i, sample.price, signal)
  {
    var marked := a.(curve := a.curve + [EquityPoint(sample.ts, Equity(a, sample.price))]);
    var frac := Clamp(cfg.buySellFraction, 0.0, 1.0);
    var feeMult := FeeMult(cfg.feeBps);
    if Tradable(cfg.smaConfig, i) && signal.Some? {
      match signal.value
      case Buy =>
        assert BuyFills(marked, sample.price, frac, feeMult) == BuyFills(a, sample.price, frac, feeMult);
      case Sell =>
        SellConservesBasis(marked, sample.price, sample.ts, frac, feeMult);
    }
  }

  /**
   * Cost-basis conservation over a run: the basis still held plus the entry values of every trade
   * is the basis contributed by the initial coin and by the net amounts of the Buys, so the trades
   * never release more basis than was contributed.
   */
  lemma {:induction false} ReplayConservesBasis(cfg: SpotConfig, samples: seq<Data.Sample>, signals: seq<Option<Signal>>, n: nat)
    requires 0 < |samples| && n <= |samples| && cfg.initialCoin >= 0.0
    ensures var a := Replay(cfg, samples, signals, n);
      a.basis + SumEntryValues(a.trades) == Contributed(cfg, samples, signals, n)
    ensures SumEntryValues(Replay(cfg, samples, signals, n).trades) <= Contributed(cfg, samples, signals, n)
  {
    if n > 0 {
      ReplayConservesBasis(cfg, samples, signals, n - 1);
      ReplayKeepsSound(cfg, samples, signals, n - 1);
      StepConservesBasis(cfg, Replay(cfg, samples, signals, n - 1), samples[n - 1], n - 1, SignalAt(signals, n - 1));
    }
    ReplayKeepsSound(cfg, samples, signals, n);
  }

  /** The equity point of sample `i`: its time, and the account before it marked at its price. */
  function CurvePoint(cfg: SpotConfig, samples: seq<Data.Sample>, signals: seq<Option<Signal>>, i: nat): EquityPoint
    requires i < |samples|
  {
    EquityPoint(samples[i].ts, Equity(Replay(cfg, samples, signals, i), samples[i].price))
  }

  /**
   * One equity point per sample so far, stamped with the sample's time and worth the cash plus
   * the coin at that sample's price, before acting on its signal.
   */
  lemma {:induction false} ReplayCurve(cfg: SpotConfig, samples: seq<Data.Sample>, signals: seq<Option<Signal>>, n: nat)
    requires 0 < |samples| && n <= |samples|
    ensures |Replay(cfg, samples, signals, n).curve| == n
    ensures forall i :: 0 <= i < n ==> Replay(cfg, samples, signals, n).curve[i] == CurvePoint(cfg, samples, signals, i)
  {
    if n > 0 {
      ReplayCurve(cfg, samples, signals, n - 1);
      var before := Replay(cfg, samples, signals, n - 1).curve;
      var after := Replay(cfg, samples, signals, n).curve;
      assert after == before + [CurvePoint(cfg, samples, signals, n - 1)];
      forall i | 0 <= i < n
        ensures after[i] == CurvePoint(cfg, samples, signals, i)
      {
        if i < n - 1 {
          assert after[i] == before[i];
        }
      }
    }
  }

  /** The replay keeps one equity point per sample. */
  lemma {:induction false} ReplayCurveLength(cfg: SpotConfig, samples: seq<Data.Sample>, signals: seq<Option<Signal>>, n: nat)
    requires 0 < |samples| && n <= |samples|
    ensures |Replay(cfg, samples, signals, n).curve| == n
  {
    if n > 0 {
      ReplayCurveLength(cfg, samples, signals, n - 1);
    }
  }

  /** The outcome of a spot backtest. */
  datatype SpotResult = SpotResult(
    initialEquity: real,
    trades: seq<Trade>,
    equityCurve: seq<EquityPoint>,
    finalEquity: real,
    totalReturn: real,
    maxDrawdown: real,
    winRate: real)

  function TradeProfits(trades: seq<Trade>): (p: seq<real>)
    ensures |p| == |trades|
    ensures forall i :: 0 <= i < |trades| ==> p[i] == trades[i].profit
  {
    seq(|trades|, i requires 0 <= i < |trades| => trades[i].profit)
  }

  /** The initial equity the return is measured against; 1 when it is not positive. */
  function EffectiveInitial(initialEquity: real): (e: real)
    ensures e > 0.0
    ensures initialEquity > 0.0 ==> e == initialEquity
  {
    if initialEquity > 0.0 then initialEquity else 1.0
  }

  /** `final / effective initial - 1`. */
  function SpotTotalReturn(finalEquity: real, initialEquity: real): real
  {
    finalEquity / EffectiveInitial(initialEquity) - 1.0
  }

  /** One plus the return, times the effective initial equity, gives back the final equity. */
  lemma SpotReturnGrowth(finalEquity: real, initialEquity: real)
    ensures (SpotTotalReturn(finalEquity, initialEquity) + 1.0) * EffectiveInitial(initialEquity) == finalEquity
  {
    QuotientFacts(finalEquity, EffectiveInitial(initialEquity));
  }

  /**
   * `run_backtest`: too few samples is an error; otherwise replay every sample, keep any coin
   * (no forced sale) and mark it at the last price.
   */
  function RunBacktest(samples: seq<Data.Sample>, cfg: SpotConfig, signals: seq<Option<Signal>>): (r: Result<SpotResult>)
    ensures r.Err? <==> |samples| < cfg.smaConfig.longWindow + 1
    ensures r.Ok? ==> r.value.initialEquity == cfg.initialCash + cfg.initialCoin * FirstPrice(samples)
    ensures r.Ok? ==> |r.value.equityCurve| == |samples|
    ensures r.Ok? ==> r.value.trades == Replay(cfg, samples, signals, |samples|).trades
    ensures r.Ok? ==> r.value.finalEquity == Equity(Replay(cfg, samples, signals, |samples|), samples[|samples| - 1].price)
    ensures r.Ok? ==> r.value.totalReturn == SpotTotalReturn(r.value.finalEquity, r.value.initialEquity)
    ensures r.Ok? ==> r.value.maxDrawdown == MaxDrawdown(Equities(r.value.equityCurve))
    ensures r.Ok? ==> r.value.winRate == WinRate(TradeProfits(r.value.trades))
    ensures r.Ok? ==> 0.0 <= r.value.winRate <= 1.0 && r.value.maxDrawdown >= 0.0
  {
    if |samples| < cfg.smaConfig.longWindow + 1 then Err("Not enough data")
    else
      var done := Replay(cfg, samples, signals, |samples|);
      ReplayCurveLength(cfg, samples, signals, |samples|);
      var initialEquity := InitialEquity(cfg, samples);
      var finalEquity := Equity(done, samples[|samples| - 1].price);
      Ok(SpotResult(initialEquity, done.trades, done.curve, finalEquity, SpotTotalReturn(finalEquity, initialEquity),
        MaxDrawdown(Equities(done.curve)), WinRate(TradeProfits(done.trades))))
  }

  /**
   * A run that ends holding no coin has turned the initial equity into the final equity by its
   * trades' profits alone when there is no fee, and by at most that much with a fee.
   */
  lemma FlatEndLedger(samples: seq<Data.Sample>, cfg: SpotConfig, signals: seq<Option<Signal>>)
    requires RunBacktest(samples, cfg, signals).Ok? && cfg.initialCoin >= 0.0
    requires Replay(cfg, samples, signals, |samples|).coin == 0.0
    ensures var res := RunBacktest(samples, cfg, signals).value;
      && (cfg.feeBps >= 0.0 ==> res.finalEquity <= res.initialEquity + TotalTradeProfit(res.trades))
      && (cfg.feeBps == 0.0 ==> res.finalEquity == res.initialEquity + TotalTradeProfit(res.trades))
  {
    ReplayKeepsSound(cfg, samples, signals, |samples|);
  }

  /** `buy_and_hold_equity`: all cash into coin at the first price, everything valued at the last. */
  function BuyAndHoldEquity(samples: seq<Data.Sample>, initialCash: real, initialCoin: real): (r: Option<real>)
    ensures r.None? <==> |samples| == 0 || samples[0].price <= 0.0
  {
    if |samples| == 0 || samples[0].price <= 0.0 then None
    else Some((initialCash / samples[0].price + initialCoin) * samples[|samples| - 1].price)
  }

  /** Buy and hold grows the initial equity at the first price by the ratio of last to first price. */
  lemma BuyAndHoldGrowth(samples: seq<Data.Sample>, initialCash: real, initialCoin: real)
    requires BuyAndHoldEquity(samples, initialCash, initialCoin).Some?
    ensures BuyAndHoldEquity(samples, initialCash, initialCoin).value * samples[0].price
      == (initialCash + initialCoin * samples[0].price) * samples[|samples| - 1].price
  {
    var first := samples[0].price;
    var last := samples[|samples| - 1].price;
    QuotientFacts(initialCash, first);
    assert (initialCash / first + initialCoin) * first == initialCash + initialCoin * first;
    assert (initialCash / first + initialCoin) * last * first == (initialCash / first + initialCoin) * first * last;
  }

  /**
   * 1 000 cash, everything bought at 100 and sold at 120 without a fee: one trade with entry
   * value 1 000, exit value 1 200 and a 20% return, a final equity of 1 200 and a win rate of one.
   */
  lemma RoundTripScenario(samples: seq<Data.Sample>, cfg: SpotConfig, signals: seq<Option<Signal>>)
    requires samples == [Data.Sample(0, 100.0), Data.Sample(3600, 100.0), Data.Sample(7200, 120.0)]
    requires cfg == SpotConfig(1000.0, 0.0, 0.0, 1.0, Sma.SmaConfig(1, 1))
    requires signals == [None, Some(Buy), Some(Sell)]
    ensures var r := RunBacktest(samples, cfg, signals);
      && r.Ok?
      && r.value.trades == [Trade(3600, 7200, 100.0, 120.0, 1000.0, 1200.0, 200.0, 0.2)]
      && r.value.finalEquity == 1200.0
      && r.value.totalReturn == 0.2
      && r.value.winRate == 1.0
  {
    RoundTripReplay(samples, cfg, signals);
    var a3 := Replay(cfg, samples, signals, 3);
    assert InitialEquity(cfg, samples) == 1000.0;
    assert Equity(a3, samples[2].price) == 1200.0;
    assert TradeProfits(a3.trades) == [200.0];
    WinRateExtremes([200.0]);
  }

  /** The replay behind the round trip: bought on the second sample, sold out on the third. */
  lemma RoundTripReplay(samples: seq<Data.Sample>, cfg: SpotConfig, signals: seq<Option<Signal>>)
    requires samples == [Data.Sample(0, 100.0), Data.Sample(3600, 100.0), Data.Sample(7200, 120.0)]
    requires cfg == SpotConfig(1000.0, 0.0, 0.0, 1.0, Sma.SmaConfig(1, 1))
    requires signals == [None, Some(Buy), Some(Sell)]
    ensures var a := Replay(cfg, samples, signals, 3);
      a.trades == [Trade(3600, 7200, 100.0, 120.0, 1000.0, 1200.0, 200.0, 0.2)] && a.coin == 0.0 && a.cash == 1200.0
  {
    var a0 := Account(1000.0, 0.0, 0.0, false, 0, 0.0, [], []);
    var a1 := a0.(curve := [EquityPoint(0, 1000.0)]);
    var held := Account(0.0, 10.0, 1000.0, true, 3600, 100.0, [], [EquityPoint(0, 1000.0), EquityPoint(3600, 1000.0)]);
    var marked := held.(curve := held.curve + [EquityPoint(7200, 1200.0)]);
    var t := Trade(3600, 7200, 100.0, 120.0, 1000.0, 1200.0, 200.0, 0.2);
    assert Clamp(cfg.buySellFraction, 0.0, 1.0) == 1.0 && FeeMult(cfg.feeBps) == 1.0;
    assert Replay(cfg, samples, signals, 1) == a1 by {
      assert Replay(cfg, samples, signals, 0) == a0;
      assert !Tradable(cfg.smaConfig, 0);
      assert Step(cfg, a0, samples[0], 0, SignalAt(signals, 0)) == a1;
    }
    assert Replay(cfg, samples, signals, 2) == held by {
      assert Tradable(cfg.smaConfig, 1) && SignalAt(signals, 1) == Some(Buy);
      assert BuyFills(a1.(curve := held.curve), 100.0, 1.0, 1.0);
      assert ApplyBuy(a1.(curve := held.curve), 100.0, 3600, 1.0, 1.0) == held;
      assert Step(cfg, a1, samples[1], 1, Some(Buy)) == held;
    }
    var a3 := Replay(cfg, samples, signals, 3);
    assert a3 == ApplySell(marked, 120.0, 7200, 1.0, 1.0) by {
      assert Tradable(cfg.smaConfig, 2) && SignalAt(signals, 2) == Some(Sell);
    }
    assert a3.trades == [t] && a3.coin == 0.0 && a3.cash == 1200.0 by {
      assert SellFills(marked, 120.0, 1.0);
      assert ChunkBasis(marked, 1.0) == 1000.0;
      assert SoldTrade(marked, 120.0, 7200, 1.0, 1.0) == t;
    }
  }

  /**
   * A 10 bp fee: buying with half of 1 000 cash at 100 spends 500 and buys 4.995 coin, whose
   * basis of 499.5 puts the average entry price at the buy price.
   */
  lemma FeeBuyScenario()
    ensures var r := ApplyBuy(Account(1000.0, 0.0, 0.0, false, 0, 0.0, [], []), 100.0, 3600, 0.5, FeeMult(10.0));
      r.cash == 500.0 && r.coin == 4.995 && r.basis == 499.5 && r.avgEntry == 100.0
      && r.inPosition && r.entryTime == 3600
  {
    assert FeeMult(10.0) == 0.999;
    assert BuyFills(Account(1000.0, 0.0, 0.0, false, 0, 0.0, [], []), 100.0, 0.5, 0.999);
  }
}

=== FILE: sweep.dfy ===
/**
 * The parameter sweep (src/bin/backtest_sweep.rs): the grid of breakout lookbacks and buy/sell
 * fractions, and the best-so-far reduction over the backtest results in job order. The
 * backtests themselves are not run here: their outcomes are a parameter, one per job, with None
 * for a run that produced no result.
 */
module Sweep {
  import opened Wrappers
  import opened Series

  /** One point of the grid: the breakout lookback and the buy/sell fraction. */
  datatype Job = Job(lookback: nat, fraction: real)

  /** What the reduction reads from a backtest: total return and maximum drawdown, as fractions. */
  datatype Outcome = Outcome(totalReturn: real, maxDrawdown: real)

  /** The tolerance of the comparison, in percentage points. */
  const Epsilon: real := 0.000000001

  /** The fraction of grid step `step` out of `steps`: `step / steps * maxFraction`. */
  function Fraction(step: nat, steps: nat, maxFraction: real): (f: real)
    requires steps > 0
    ensures step == 0 ==> f == 0.0
    ensures step == steps ==> f == maxFraction
  {
    (step as real / steps as real) * maxFraction
  }

  /**
   * For a positive maximum, every step from 1 to `steps` gives a fraction in `(0, maxFraction]`,
   * the last step gives exactly `maxFraction`, and a later step never gives less.
   */
  lemma FractionRange(step: nat, steps: nat, maxFraction: real)
    requires 1 <= step <= steps && maxFraction > 0.0
    ensures 0.0 < Fraction(step, steps, maxFraction) <= maxFraction
    ensures step == steps ==> Fraction(step, steps, maxFraction) == maxFraction
  {
    var q := step as real / steps as real;
    QuotientTimes(step as real, steps as real, q);
    assert 0.0 < q <= 1.0 by {
      MulStrict(steps as real, q, 0.0);
      MulStrict(steps as real, 1.0, q);
    }
    PositiveProduct(q, maxFraction);
    PartOfWhole(maxFraction, q);
    assert q * maxFraction == maxFraction * q;
  }

  lemma FractionMonotone(s1: nat, s2: nat, steps: nat, maxFraction: real)
    requires s1 <= s2 && steps > 0 && maxFraction >= 0.0
    ensures Fraction(s1, steps, maxFraction) <= Fraction(s2, steps, maxFraction)
  {
    var q1 := s1 as real / steps as real;
    var q2 := s2 as real / steps as real;
    QuotientTimes(s1 as real, steps as real, q1);
    QuotientTimes(s2 as real, steps as real, q2);
    MulStrict(steps as real, q2, q1);
    MulMonotone(maxFraction, q1, q2);
    assert q1 * maxFraction == maxFraction * q1 && q2 * maxFraction == maxFraction * q2;
  }

  /** The number of jobs: one per lookback in `minLookback..=maxLookback` and step in `1..=steps`. */
  function GridSize(minLookback: nat, maxLookback: nat, steps: nat): nat
  {
    if maxLookback < minLookback || steps == 0 then 0 else (maxLookback - minLookback + 1) * steps
  }

  /** The jobs in loop order: lookbacks outside, fraction steps inside. */
  function Jobs(minLookback: nat, maxLookback: nat, steps: nat, maxFraction: real): (jobs: seq<Job>)
    ensures |jobs| == GridSize(minLookback, maxLookback, steps)
  {
    var n := GridSize(minLookback, maxLookback, steps);
    seq(n, k requires 0 <= k < n => Job(minLookback + k / steps, Fraction(k % steps + 1, steps, maxFraction)))
  }

  /** Every (lookback, step) pair of the loops is job `(lookback - minLookback) * steps + step - 1`. */
  lemma JobsEnumerateGrid(minLookback: nat, maxLookback: nat, steps: nat, maxFraction: real, lookback: nat, step: nat)
    requires minLookback <= lookback <= maxLookback && 1 <= step <= steps
    ensures var k := (lookback - minLookback) * steps + step - 1;
      && 0 <= k < GridSize(minLookback, maxLookback, steps)
      && Jobs(minLookback, maxLookback, steps, maxFraction)[k] == Job(lookback, Fraction(step, steps, maxFraction))
  {
    var d := lookback - minLookback;
    var k := d * steps + step - 1;
    assert k < (maxLookback - minLookback + 1) * steps by {
      assert d * steps + steps <= (maxLookback - minLookback + 1) * steps by {
        NatMulMonotone(d + 1, maxLookback - minLookback + 1, steps);
      }
    }
    DivModUnique(k, steps, d, step - 1);
  }

  /** Every job lies on the grid: a lookback in range and the fraction of a step from 1 to `steps`. */
  lemma JobsOnGrid(minLookback: nat, maxLookback: nat, steps: nat, maxFraction: real, k: nat)
    requires k < GridSize(minLookback, maxLookback, steps)
    ensures var job := Jobs(minLookback, maxLookback, steps, maxFraction)[k];
      && minLookback <= job.lookback <= maxLookback
      && exists step :: 1 <= step <= steps && job.fraction == Fraction(step, steps, maxFraction)
  {
    var q := k / steps;
    assert q <= maxLookback - minLookback by {
      NatMulMonotone(maxLookback - minLookback + 1, q, steps);
    }
    var step := k % steps + 1;
    assert 1 <= step <= steps;
  }

  /** Jobs come in order of lookback. */
  lemma JobsOrderedByLookback(minLookback: nat, maxLookback: nat, steps: nat, maxFraction: real, i: nat, j: nat)
    requires i <= j < GridSize(minLookback, maxLookback, steps)
    ensures Jobs(minLookback, maxLookback, steps, maxFraction)[i].lookback <= Jobs(minLookback, maxLookback, steps, maxFraction)[j].lookback
  {
    DivMonotone(i, j, steps);
  }

  lemma NatMulMonotone(a: nat, b: nat, c: nat)
    ensures a <= b ==> a * c <= b * c
  {
  }

  lemma DivModUnique(k: int, m: int, q: int, r: int)
    requires m > 0 && 0 <= r < m && k == q * m + r
    ensures k / m == q && k % m == r
  {
    MulStep(q - k / m, m);
    assert (q - k / m) * m == k % m - r;
  }

  lemma DivMonotone(i: nat, j: nat, m: nat)
    requires i <= j && m > 0
    ensures i / m <= j / m
  {
    MulStep(i / m - j / m, m);
    assert (i / m - j / m) * m == (i - i % m) - (j - j % m);
  }

  /** A non-zero integer multiple of `m` is at least `m` away from zero. */
  lemma MulStep(d: int, m: int)
    requires m > 0
    ensures d >= 1 ==> d * m >= m
    ensures d <= -1 ==> d * m <= -m
  {
    if d >= 1 {
      assert d * m == m + (d - 1) * m;
    } else if d <= -1 {
      assert d * m == -m + (d + 1) * m;
    }
  }

  /**
   * `is_better`: with no incumbent, any result; otherwise a return (in percent) higher by more
   * than `Epsilon`, or one within `Epsilon` with a strictly lower drawdown.
   */
  function IsBetter(candidate: Outcome, best: Option<Outcome>): (better: bool)
    ensures best.None? ==> better
    ensures best.Some? && better ==> candidate.totalReturn * 100.0 > best.value.totalReturn * 100.0 - Epsilon
    ensures best.Some? && candidate.totalReturn * 100.0 > best.value.totalReturn * 100.0 + Epsilon ==> better
  {
    match best
    case None => true
    case Some(b) =>
      var ret := candidate.totalReturn * 100.0;
      var bestRet := b.totalReturn * 100.0;
      if ret > bestRet + Epsilon then true
      else if Abs(ret - bestRet) < Epsilon then candidate.maxDrawdown * 100.0 < b.maxDrawdown * 100.0
      else false
  }

  /** A result never beats itself, so an exact tie keeps the incumbent. */
  lemma IsBetterIrreflexive(o: Outcome)
    ensures !IsBetter(o, Some(o))
  {
  }

  /**
   * Against an incumbent, a candidate wins exactly when its return is higher by more than
   * `Epsilon` percentage points or, within `Epsilon`, its drawdown is lower; a candidate that
   * loses has a return at most `Epsilon` above the incumbent's, and no lower drawdown if within
   * `Epsilon`.
   */
  lemma IsBetterCharacterised(c: Outcome, b: Outcome)
    ensures IsBetter(c, Some(b)) <==>
      c.totalReturn * 100.0 > b.totalReturn * 100.0 + Epsilon
      || (b.totalReturn * 100.0 - Epsilon < c.totalReturn * 100.0 < b.totalReturn * 100.0 + Epsilon
          && c.maxDrawdown < b.maxDrawdown)
    ensures !IsBetter(c, Some(b)) ==> c.totalReturn * 100.0 <= b.totalReturn * 100.0 + Epsilon
  {
  }

  /** The best result among the first `n`: the index of the job holding it, if any. */
  function BestIndex(results: seq<Option<Outcome>>, n: nat): (k: Option<nat>)
    requires n <= |results|
    ensures k.Some? ==> k.value < n && results[k.value].Some?
  {
    if n == 0 then None
    else
      var prior := BestIndex(results, n - 1);
      var r := results[n - 1];
      if r.Some? && IsBetter(r.value, BestOf(results, prior)) then Some(n - 1) else prior
  }

  /** The result at a best index. */
  function BestOf(results: seq<Option<Outcome>>, k: Option<nat>): Option<Outcome>
  {
    if k.Some? && k.value < |results| then results[k.value] else None
  }

  /** The sweep's answer: the best job with its result, or none when no run produced a result. */
  function SelectBest(jobs: seq<Job>, results: seq<Option<Outcome>>): (best: Option<(Job, Outcome)>)
    requires |results| == |jobs|
    ensures best.None? <==> forall i :: 0 <= i < |results| ==> results[i].None?
    ensures best.Some? ==> exists k :: 0 <= k < |jobs| && jobs[k] == best.value.0 && results[k] == Some(best.value.1)
  {
    NoBestIffAllFail(results, |results|);
    var k := BestIndex(results, |results|);
    if k.None? then None else Some((jobs[k.value], results[k.value].value))
  }

  /** There is no best exactly when no run produced a result. */
  lemma {:induction false} NoBestIffAllFail(results: seq<Option<Outcome>>, n: nat)
    requires n <= |results|
    ensures BestIndex(results, n).None? <==> forall i :: 0 <= i < n ==> results[i].None?
  {
    if n > 0 {
      NoBestIffAllFail(results, n - 1);
    }
  }

  /** The first run that produces a result becomes the best. */
  lemma FirstSuccessIsAccepted(results: seq<Option<Outcome>>, k: nat)
    requires k < |results| && results[k].Some?
    requires forall i :: 0 <= i < k ==> results[i].None?
    ensures BestIndex(results, k + 1) == Some(k)
  {
    NoBestIffAllFail(results, k);
  }

  /** No result after the best would have beaten it. */
  lemma {:induction false} BestNotBeatenLater(results: seq<Option<Outcome>>, n: nat)
    requires n <= |results| && BestIndex(results, n).Some?
    ensures var k := BestIndex(results, n).value;
      forall j :: k < j < n && results[j].Some? ==> !IsBetter(results[j].value, results[k])
  {
    var k := BestIndex(results, n).value;
    if k < n - 1 {
      assert BestIndex(results, n) == BestIndex(results, n - 1);
      assert BestOf(results, Some(k)) == results[k];
      BestNotBeatenLater(results, n - 1);
    }
  }

  /**
   * The sweep's answer is the job at some index `k` together with the result it produced, and
   * every later job that produced a result has a return at most `Epsilon` percentage points
   * above the answer's and, if strictly within `Epsilon`, a drawdown no lower.
   */
  lemma SelectedNotBeatenLater(jobs: seq<Job>, results: seq<Option<Outcome>>) returns (k: nat)
    requires |results| == |jobs| && SelectBest(jobs, results).Some?
    ensures var best := SelectBest(jobs, results).value;
      k < |jobs| && jobs[k] == best.0 && results[k] == Some(best.1)
    ensures var b := SelectBest(jobs, results).value.1;
      forall j :: k < j < |results| && results[j].Some? ==>
        && results[j].value.totalReturn * 100.0 <= b.totalReturn * 100.0 + Epsilon
        && (b.totalReturn * 100.0 - Epsilon < results[j].value.totalReturn * 100.0 < b.totalReturn * 100.0 + Epsilon ==>
              results[j].value.maxDrawdown >= b.maxDrawdown)
  {
    k := BestIndex(results, |results|).value;
    BestNotBeatenLater(results, |results|);
    forall j | k < j < |results| && results[j].Some?
      ensures results[j].value.totalReturn * 100.0 <= results[k].value.totalReturn * 100.0 + Epsilon
      ensures results[k].value.totalReturn * 100.0 - Epsilon < results[j].value.totalReturn * 100.0 < results[k].value.totalReturn * 100.0 + Epsilon ==>
                results[j].value.maxDrawdown >= results[k].value.maxDrawdown
    {
      IsBetterCharacterised(results[j].value, results[k].value);
    }
  }

  /** Results whose returns differ by less than `Epsilon` in turn, with falling drawdowns. */
  const R0: Outcome := Outcome(0.0, 0.10)
  const R1: Outcome := Outcome(-0.000000000006, 0.05)
  const R2: Outcome := Outcome(-0.000000000012, 0.01)

  /**
   * The comparison is not transitive, so the answer depends on the job order and can drift: over
   * R0, R1, R2 each result replaces the previous one, so R2 is chosen although R0's return is
   * higher by more than `Epsilon`; appending R0 again brings R0 back, while putting it first
   * instead leaves R2 chosen.
   */
  lemma SelectionDependsOnOrder()
    ensures BestIndex([Some(R0), Some(R1), Some(R2)], 3) == Some(2)
    ensures R0.totalReturn * 100.0 > R2.totalReturn * 100.0 + Epsilon
    ensures BestOf([Some(R0), Some(R1), Some(R2), Some(R0)], BestIndex([Some(R0), Some(R1), Some(R2), Some(R0)], 4)) == Some(R0)
    ensures BestOf([Some(R0), Some(R0), Some(R1), Some(R2)], BestIndex([Some(R0), Some(R0), Some(R1), Some(R2)], 4)) == Some(R2)
  {
    var a := [Some(R0), Some(R1), Some(R2), Some(R0)];
    assert BestIndex(a, 1) == Some(0);
    assert BestIndex(a, 2) == Some(1);
    assert BestIndex(a, 3) == Some(2);
    assert BestIndex(a, 4) == Some(3);
    var p := [Some(R0), Some(R1), Some(R2)];
    assert BestIndex(p, 1) == Some(0);
    assert BestIndex(p, 2) == Some(1);
    var b := [Some(R0), Some(R0), Some(R1), Some(R2)];
    assert BestIndex(b, 1) == Some(0);
    assert BestIndex(b, 2) == Some(0);
    assert BestIndex(b, 3) == Some(2);
    assert BestIndex(b, 4) == Some(3);
  }

  /** With no result at all, the sweep has no answer; failed runs in between are skipped. */
  lemma SkippedRunsScenario()
    ensures SelectBest([Job(3, 0.25), Job(3, 0.5)], [None, None]).None?
    ensures SelectBest([Job(3, 0.25), Job(3, 0.5), Job(4, 0.25)], [None, Some(R1), None]) == Some((Job(3, 0.5), R1))
  {
    NoBestIffAllFail([None, None], 2);
    var r := [None, Some(R1), None];
    assert BestIndex(r, 1).None?;
    assert BestIndex(r, 2) == Some(1);
  }
}

=== FILE: wrappers.dfy ===
/** Failure-compatible result types used throughout the model. */
module Wrappers {

  /** A value that may be absent: Rust's `Option<T>`. */
  datatype Option<+T> = None | Some(value: T)

  /** Either a value or an error message: Rust's `Result<T, String>`. */
  datatype Result<+T> = Ok(value: T) | Err(error: string)
}
